=== FILE: README.md ===
# The Write Stuff Assistant — a Dafny model of its deterministic core

The Write Stuff Assistant is a React single-page application on Supabase.
A writer picks a category page (Poetry, Online Content, Songwriting, Stage &
Screen). They choose what to generate and fill in a form. The page turns the
form into a prompt and asks a model proxy for a reply. Follow-up questions
continue the conversation, and signed-in users get their threads saved to a
history page.

This project models the rules that decide what happens around those calls.
Every outside effect is a parameter: the database, the auth service, Stripe,
the model proxy, the clock and `crypto.randomUUID`. The modules follow the
program's structure:

- **Prompts and pages**
  - `PromptBuilder`: the shared `buildUserPrompt` rule.
  - `Categories`: the page tables (options, `fieldConfig`, `switch` labels, `SECTION`, `QUERY_TYPE`) and the demo pages' copies of them.
  - `Api`: splitting a message list for the proxy, and the proxy's error text.
  - `Thread`: `saveToHistory`, the stored conversation threads and the download transcript.
  - `PageFlow`: the submit and follow-up handlers of the full and demo pages, with their guards in order.
- **Entitlement and subscription**
  - `Entitlement`: the `useQueries` hook, the gate every full page consults and its free-tier counter.
  - `DemoQuota`: the browser-side demo quota (`demo-api.js`).
  - `Subscription`, `TrialBanner`, `SubscriptionCard`: the subscription provider, the trial header and the dashboard card.
  - `ApiKey`: `getApiKey`.
- **History**
  - `HistoryText`: `cleanHistoryText`.
  - `HistoryEntry`: `cleanHistoryEntry`.
  - `History`: the history page's fetch, delete, preview and download.
- **Accounts, demo tracking, edge functions and head tags**
  - `Auth`: sign-in, the two sign-up forms and the password reset.
  - `DemoTracking` and `TrackUsage`: anonymous demo analytics on both sides of the wire.
  - `PortalSession` and `CreateSubscription`: the two Stripe edge functions.
  - `Wizard`: the onboarding dialog.
  - `Seo`: the head tags of the `SEO` component.
- **Shared helpers**
  - `Wrappers`: `Option` and `Result`.
  - `Text`: JavaScript's `trim`, `split`, `join`, `toLowerCase`, `parseInt` and number printing, on `seq<char>`.

A JavaScript value that may be `undefined` or `null` is an `Option`. A text
that is tested for truthiness counts as given only when it is present and
non-empty. Dates are millisecond instants (`int`).

## Model

| member | source | states |
|---|---|---|
| PromptBuilder.FindLabel | src/pages/Poetry.jsx:105 | the option found has the requested value and is the first such entry; none is found exactly when no entry has the value |
| PromptBuilder.GenerateLabel | src/pages/Poetry.jsx:109 | the label after `Generate` is the query type itself or the non-empty label of an option with that value; an unlisted query type is used as it is |
| PromptBuilder.Details | src/pages/Poetry.jsx:111-124 | at most one detail line per visible field |
| PromptBuilder.BuildPrompt | src/pages/Poetry.jsx:104-132 | the prompt starts with the focus header (full pages only) and `Generate <label>.`; it is exactly that opening when no visible field has a non-blank value, and otherwise continues with a blank line and the detail lines joined by newlines |
| PromptBuilder.FilledFieldInPrompt | src/pages/Poetry.jsx:111-128 | a filled visible field's `<label>: <trimmed value>` line occurs in the prompt |
| PromptBuilder.DetailsAppend | src/pages/Poetry.jsx:111-124 | detail lines come out in the order of the option's field list |
| PromptBuilder.DetailsMembership | src/pages/Poetry.jsx:111-124 | a detail line appears exactly when some visible field produces it |
| PromptBuilder.FieldShownIffFilled | src/pages/Poetry.jsx:113-115 | a visible field reaches the prompt as `<label>: <trimmed value>` when its trimmed value is non-empty, and contributes nothing when it is blank |
| PromptBuilder.FullIsHeaderPlusDemo | src/pages/demo/DemoPoetry.jsx:93-120 | the full page's prompt is the demo page's prompt behind the `[FOCUS AREA: …]` header |
| PromptBuilder.KnownOptionOpening | src/pages/Poetry.jsx:105-109 | a listed option's prompt opens with its label |
| PromptBuilder.FindLabelAt | src/pages/Poetry.jsx:105 | `find` returns the first entry whose value matches |
| PromptBuilder.UnknownOptionHasNoDetails | src/pages/Poetry.jsx:106 | an option missing from `fieldConfig` yields only the opening, whatever the form holds |
| Categories.DemoPromptIsFullPromptBody | src/pages/demo/DemoOnlineContent.jsx:27-50 | each demo page's tables build the same prompt body as its full page's tables |
| Categories.AllOptionCoversEveryField | src/pages/Poetry.jsx:38-44 | the `all` option shows every field the page has a label for |
| Api.SystemText | src/lib/api.js:58-70 | the system text is the content of the first system message, at whatever index it stands, or empty when there is none |
| Api.Conversation | src/lib/api.js:59 | a message is forwarded exactly when it is in the list and is not a system message; none forwarded has the system role |
| Api.ErrorText | src/lib/api.js:77-80 | a failed call's message is the body's error message when non-empty, else `API request failed`; never empty |
| Api.MakeRequest | src/lib/api.js:51-88 | no user or no session throws before any request; otherwise the split request is sent, and the result is the reply text exactly when the proxy answers OK |
| Api.ConversationAppend | src/lib/api.js:59 | the filter keeps the turns' order |
| Api.ConversationOfTurns | src/lib/api.js:59 | turns without a system role pass through unchanged |
| Api.SplitPageMessages | src/lib/api.js:59-74 | the proxy receives exactly the page's system prompt and its turns |
| Api.BuildRequest | src/lib/api.js:58-73 | the body names model `claude-sonnet-4-5-20250929` and 4000 tokens; its system text is the first system message's content (`SystemText`) and its messages are the non-system ones in their order (`Conversation`); a list without a system message goes out whole with an empty system text |
| DemoQuota.Count | src/lib/demo-api.js:5-8 | a missing or empty entry counts 0; otherwise the entry's decimal value, or NaN |
| DemoQuota.Remaining | src/lib/demo-api.js:17-19 | the remaining count is the limit minus the count while the count is at most seven, and 0 once it reaches seven; unknown for an unparsable count |
| DemoQuota.RemainingIffCanMake | src/lib/demo-api.js:17-23 | a demo request is allowed exactly when the remaining count is known and positive |
| DemoQuota.DemoRequest | src/lib/demo-api.js:29-67 | at the limit nothing is sent and the limit error is thrown; otherwise the split request is sent, and the count moves exactly on a successful reply |
| DemoQuota.Increment | src/lib/demo-api.js:10-15 | an increment always stores a value, and reads back as the previous count plus one |
| DemoQuota.Reset | src/lib/demo-api.js:25-27 | after a reset the counter reads 0 |
| DemoQuota.NaNIsSticky | src/lib/demo-api.js:5-23 | an unparsable count stays unparsable and closes the demo for good |
| DemoQuota.ResetReopens | src/lib/demo-api.js:25-27 | after a reset the full allowance is available again |
| DemoQuota.AtMostLimitSuccesses | src/lib/demo-api.js:21-33 | from any count, the count after a run of requests is the start plus the successes, and never passes the limit through successes |
| DemoQuota.FreshBrowserGetsSeven | src/lib/demo-api.js:3 | a fresh browser gets at most seven successful demo requests |
| Entitlement.Consume | src/lib/hooks/useQueries.js:139-142 | one query consumed: used plus one, remaining minus one and never below zero; flags kept |
| Entitlement.BumpLocal | src/lib/hooks/useQueries.js:150-154 | the local copy is consumed the same way; with no copy, the counters start from zero |
| Entitlement.HandleQuery | src/lib/hooks/useQueries.js:40-170 | granted exactly for a signed-in user with a readable, entitled row (and a successful write when saving); each refusal's reason; writes happen only on a granted saving call |
| Entitlement.SavingCallCharges | src/lib/hooks/useQueries.js:117-158 | a granted saving call charges a free-tier row exactly one query and never charges an admin or subscriber |
| Entitlement.FreeTierAllowance | src/lib/hooks/useQueries.js:72 | a free-tier row with n queries grants exactly n saving calls; counters after k calls |
| Entitlement.AfterSavesIsHookEffect | src/lib/hooks/useQueries.js:117-158 | each step of the allowance is the stored effect of one call through the hook |
| Entitlement.CheckOnlyCallsAreFree | src/lib/hooks/useQueries.js:72-78 | a check-only call writes nothing, changes no counter, and is granted exactly when the row is entitled |
| Entitlement.TrialExpiredMatchesGate | src/lib/hooks/useQueries.js:176 | `TrialExpiredView` (`isTrialExpired`) holds exactly when `CanQuery` refuses a loaded row, and is off when no row is loaded |
| Entitlement.RemainingViewMatchesGate | src/lib/hooks/useQueries.js:176-178 | `RemainingView` (`queriesRemaining`) is 0 with no row; on a loaded free-tier row it is positive exactly when `CanQuery` admits it, and not positive exactly when `TrialExpiredView` holds |
| Subscription.CeilDiv | src/lib/hooks/useSubscription.jsx:23 | the quotient rounded up: `(q-1)·b < a ≤ q·b` |
| Subscription.DaysRemaining | src/lib/hooks/useSubscription.jsx:18-25 | never negative; 0 exactly when there is no end or it has passed; otherwise the whole days to the end, rounded up |
| Subscription.Fetch | src/lib/hooks/useSubscription.jsx:27-77 | no user or no row gives the empty record; a failed read keeps the previous record; a row gives its subscription flag, trial end, customer and subscription ids, and the days left; loading is off afterwards |
| Subscription.AccessIsSubscriptionOrTrial | src/lib/hooks/useSubscription.jsx:85-101 | the three predicates `HasActiveAccess`, `IsTrialActive` and `IsTrialExpired`: active and expired trials exclude each other; access is a subscription or an active trial; an expired trial has no access |
| Subscription.LoadedTrialIsActiveOrExpired | src/lib/hooks/useSubscription.jsx:53-101 | a loaded trial is active exactly before its end and expired exactly after |
| Subscription.DaysRemainingMonotone | src/lib/hooks/useSubscription.jsx:18-25 | the days left never grow as time passes |
| Subscription.WholeDaysExact | src/lib/hooks/useSubscription.jsx:18-25 | an end exactly n days ahead shows n days |
| TrialBanner.Header | src/components/TrialStatusHeader.jsx:11-60 | the countdown shows exactly for a loaded active trial, with its days; the ended banner exactly for a loaded expired trial; nothing while loading or subscribed |
| TrialBanner.LoadedTrialShowsOneBanner | src/components/TrialStatusHeader.jsx:17-58 | a loaded unsubscribed trial shows the countdown before its end and the ended banner after |
| TrialBanner.BannerText | src/components/TrialStatusHeader.jsx:17-58 | the header renders text exactly when there is a banner to show |
| TrialBanner.CountdownWording | src/components/TrialStatusHeader.jsx:24 | one day reads `1 day`, any other count `days` |
| SubscriptionCard.CardDaysAsWritten | src/components/SubscriptionStatus.jsx:70-76 | the card's own countdown as written: whole days rounded up, unclamped |
| SubscriptionCard.CardDays | src/components/SubscriptionStatus.jsx:70-76 | the corrected countdown: never negative, equal to the written one before the end, 0 after |
| SubscriptionCard.View | src/components/SubscriptionStatus.jsx:116-178 | subscribed shows the active card; otherwise a known trial date shows the trial card with the card's own countdown as written, which agrees with the provider's before the end and is not positive after it; otherwise no subscription |
| SubscriptionCard.CorrectedView | src/components/SubscriptionStatus.jsx:134-138 | the same branches as `View`; the trial card shows the provider's days left, never negative, and equals the written card whenever that one is not negative |
| SubscriptionCard.ViewShowsNegativeDays | src/components/SubscriptionStatus.jsx:137 | as written, the trial card reads -2 days two days after the trial ended |
| SubscriptionCard.Unsubscribe | src/components/SubscriptionStatus.jsx:39-68 | `is_subscribed` is cleared for the user exactly when there is a user and the write succeeds |
| SubscriptionCard.SubscribeClick | src/components/SubscriptionStatus.jsx:78-104 | a signed-out user goes to sign-in; otherwise to the portal URL, or a non-empty error |
| SubscriptionCard.CardDaysAsWrittenGoesNegative | src/components/SubscriptionStatus.jsx:137 | two days after the end the written countdown reads -2 |
| SubscriptionCard.CardAgreesWithHeader | src/components/SubscriptionStatus.jsx:134-138 | the corrected card shows the days left the provider loads for the same trial |
| Wizard.Step | src/components/OnboardingWizard.jsx:74-99 | Next advances or completes on the last step; Back steps back but not below 1; Skip and category clicks report to the owner; the step stays in 1..4 |
| Wizard.Progress | src/components/OnboardingWizard.jsx:117-121 | segment i is lit exactly when i < step |
| Wizard.OpenedWizardStaysValid | src/components/OnboardingWizard.jsx:71-87 | the dialog opens on step 1 and stays within 1..4 whatever events follow |
| Wizard.RunKeepsStepValid | src/components/OnboardingWizard.jsx:74-87 | `Run`, the wizard over any sequence of events, keeps the step in 1..4 |
| Wizard.NextPresses | src/components/OnboardingWizard.jsx:74-80 | n presses of Next reach min(step+n, 4) and complete once per press made on the last step |
| Wizard.CaptionsMatchButtons | src/components/OnboardingWizard.jsx:399-425 | `NextCaption` reads `Start Writing` exactly where Next completes the tour and `Next` exactly where it advances; Back is disabled exactly where it would change nothing |
| Wizard.CardClickOpensItsPage | src/components/OnboardingWizard.jsx:25-99 | clicking a category card completes the tour and then navigates to that card's route, keeping the step; no two cards share a route |
| Wizard.BackUndoesNext | src/components/OnboardingWizard.jsx:74-87 | Back after Next returns to the same step, except on the last step |
| Wizard.ProgressCountsStep | src/components/OnboardingWizard.jsx:117-121 | the bar lights exactly as many segments as the step |
| Thread.ThreadId | src/pages/Poetry.jsx:190 | the session id when truthy, else a fresh id |
| Thread.SavedQueryTypeAsWritten | src/pages/StageScreen.jsx:142 | StageScreen stores its section, `stage`; the other pages store their query type |
| Thread.SavedQueryType | src/pages/Poetry.jsx:197 | the corrected query type; the same as written on the threaded pages |
| Thread.Pair | src/pages/Poetry.jsx:165-168 | an exchange is the user's turn then the reply, with the given contents |
| Thread.Seed | src/pages/Poetry.jsx:160-163 | a stored history is used as it is; a legacy root is seeded with its query and response |
| Thread.AsRead | src/pages/OnlineContent.jsx:151 | only Poetry selects `created_at`, so only its legacy seed carries a timestamp |
| Thread.SaveToHistory | src/pages/Poetry.jsx:134-227 | nothing without a user; a follow-up with a session appends one exchange to the stored thread; otherwise a new root row with the exchange; StageScreen writes a plain row per exchange; an inserted row carries the query type as written (StageScreen: its section, `stage`); Poetry warns exactly when nothing was written |
| Thread.CorrectedSave | src/pages/StageScreen.jsx:133-150 | the same write and warning as `SaveToHistory`, except that an inserted row carries the query type its section lists; nothing changes for the other pages |
| Thread.PageDownload | src/pages/Poetry.jsx:357-358 | there is a download exactly when the conversation is non-empty |
| Thread.FollowUpAppendsOneExchange | src/pages/Poetry.jsx:144-188 | a follow-up save keeps the earlier turns in order and adds exactly the question and the reply |
| Thread.SavesKeepThreadsAlternating | src/pages/Poetry.jsx:160-205 | every save keeps stored threads alternating user, assistant |
| Thread.TranscriptAppend | src/pages/Poetry.jsx:360-367 | the download of a longer conversation extends the shorter one's download by the new blocks |
| Thread.TranscriptOfExchanges | src/pages/Poetry.jsx:361-366 | in an alternating thread, exchange k is headed `User Query k+1` and every reply is followed by a separator |
| PageFlow.Messages | src/pages/Poetry.jsx:316-319 | the messages sent are the system prompt, then each turn's role and content |
| PageFlow.OrDefault | src/pages/Poetry.jsx:251 | a non-empty reason is shown as it is; otherwise the default |
| PageFlow.FullSubmit | src/pages/Poetry.jsx:229-289 | no option, no call; a refused query clears the thread and never reaches the model; a reply starts a new thread and is saved under the fresh id |
| PageFlow.FullFollowUp | src/pages/Poetry.jsx:291-334 | a blank question makes no call; a refused one changes nothing; the question stays on a failed call; a reply is appended and saved to the same thread |
| PageFlow.DemoFailure | src/pages/demo/DemoOnlineContent.jsx:178-192 | the limit toast shows exactly when the message contains the limit marker |
| PageFlow.DemoCall | src/pages/demo/DemoOnlineContent.jsx:159-177 | the quota moves only on a reply; a reply is shown after the turns so far and only then tracked |
| PageFlow.TrackAfter | src/pages/demo/DemoOnlineContent.jsx:172 | only the demo content page reports its events |
| PageFlow.DemoSubmit | src/pages/demo/DemoOnlineContent.jsx:134-196 | the option is checked, then the quota; a request is made exactly when both pass; a success shows the new exchange and moves the count by one |
| PageFlow.DemoFollowUp | src/pages/demo/DemoOnlineContent.jsx:198-255 | the blank check, then the quota; a success appends the exchange and moves the count by one |
| PageFlow.GatedByEntitlement | src/pages/Poetry.jsx:247-256 | the model is reached exactly when the hook would grant a signed-in user's entitled row, and the check writes nothing |
| PageFlow.SubmitMatchesStoredRoot | src/pages/Poetry.jsx:264-273 | a new root row holds the same exchange as the page, under the page's thread id |
| PageFlow.FollowUpKeepsStoreInStep | src/pages/Poetry.jsx:311-325 | if the stored thread held the page's conversation, it holds the longer conversation after a follow-up |
| PageFlow.DemoGuardOrder | src/pages/demo/DemoPoetry.jsx:122-140 | at the limit, a missing option or blank question is still reported first |
| HistoryText.LabelRule | src/pages/UnifiedHistory.jsx:148-175 | a rule fires exactly on a line starting `Old: ` followed by at least one character, and rewrites it to `**New:** value`; other lines are kept |
| HistoryText.CutFollowUps | src/pages/UnifiedHistory.jsx:181 | the text before the first `--- Follow-ups ---` marker, or all of it when there is none |
| HistoryText.Collapse | src/pages/UnifiedHistory.jsx:184 | the result has no run of three newlines and starts with the same character when the text does not start with a newline |
| HistoryText.CollapseRuns | src/pages/UnifiedHistory.jsx:184 | a maximal run of n newlines becomes exactly two newlines when n is three or more and is kept as it is when shorter; the text on either side collapses on its own |
| HistoryText.CollapseAppend | src/pages/UnifiedHistory.jsx:184 | collapsing works piecewise when the cut is not inside a run of newlines |
| HistoryText.CleanText | src/pages/UnifiedHistory.jsx:134-186 | empty for a missing or empty text; the result is trimmed and has no run of three newlines |
| HistoryText.LabelRulesArePlain | src/pages/UnifiedHistory.jsx:148-175 | every label the rules match starts with a letter and holds no colon |
| HistoryText.CollapseKeepsText | src/pages/UnifiedHistory.jsx:184 | collapsing removes only newlines |
| HistoryText.CollapseOfNoTriple | src/pages/UnifiedHistory.jsx:184 | a text without a run of three newlines is left as it is |
| HistoryText.CollapseIdempotent | src/pages/UnifiedHistory.jsx:184 | collapsing twice is collapsing once |
| HistoryText.ApplyLabelsToLabelLine | src/pages/UnifiedHistory.jsx:148-175 | on a line `name: v`, the first rule for `name` fires and no later rule touches the result |
| HistoryText.EarlyRulesSkipLabelLine | src/pages/UnifiedHistory.jsx:139-142 | the request and parameter rules leave a label line alone |
| HistoryText.LabelLineRewritten | src/pages/UnifiedHistory.jsx:139-178 | a whole line `Label: v` with a listed label becomes `**New:** v`; an unlisted label is left as it is |
| HistoryText.RewriteLine | src/pages/UnifiedHistory.jsx:139-175 | the line rules leave a line that starts with the bullet as it is |
| HistoryText.BulletRule | src/pages/UnifiedHistory.jsx:178 | the bullet rule on one line keeps every line that does not start with the bullet, and a rewritten line starts `- **` and is four characters longer |
| HistoryText.BulletRuleFires | src/pages/UnifiedHistory.jsx:178 | on one line, `• Label: v` becomes `- **Label:** v`, taking the whole label |
| HistoryText.BulletPass | src/pages/UnifiedHistory.jsx:178 | the bullet rule over the whole text leaves a text without the bullet character as it is |
| HistoryText.BulletPassByLines | src/pages/UnifiedHistory.jsx:178 | on lines whose bullet labels stop within the line, the pass over the whole text is the one-line rule applied to each line, in order |
| HistoryText.BulletPassOfBulletLine | src/pages/UnifiedHistory.jsx:178 | `• name: v` with a one-line value becomes `- **name:** v`, where the name of letters and whitespace may span lines |
| HistoryText.BulletLabelCrossesLines | src/pages/UnifiedHistory.jsx:178 | `• Key elements` followed by the line `Mood: dark` becomes `- **Key elements` and `Mood:** dark`: the label class `\s` takes the line break |
| HistoryText.BulletLineRewritten | src/pages/UnifiedHistory.jsx:139-178 | a one-line bullet line with a label of letters and spaces comes out of all rewrites as `- **Label:** v` |
| HistoryText.UnmatchedLineKept | src/pages/UnifiedHistory.jsx:139-175 | a line none of the line patterns matches is kept as it is by the line rules |
| HistoryText.RewriteByLines | src/pages/UnifiedHistory.jsx:137-178 | `Rewrite`: the line rules rewrite each line of the text on its own, keeping the lines' number and order, and the bullet rule then runs over the whole text they make |
| HistoryEntry.NonBlankLines | src/lib/utils.js:19 | the lines kept are exactly the non-blank lines of the part |
| HistoryEntry.KeptLines | src/lib/utils.js:22-26 | the initial prompt keeps exactly the non-blank lines that are not metadata |
| HistoryEntry.InitialSection | src/lib/utils.js:21-28 | the initial section is present exactly when the main part has a non-blank line |
| HistoryEntry.FirstUserLine | src/lib/utils.js:34 | the first line tagged `**User:**`, or none when no line is tagged |
| HistoryEntry.Question | src/lib/utils.js:34-38 | a part has a question exactly when it has a tagged line; the question is the text after the `**User:**` tag of the first non-blank line that starts with it, trimmed |
| HistoryEntry.FollowUpSection | src/lib/utils.js:32-40 | a part gives one section, numbered by the part, exactly when it has a tagged line |
| HistoryEntry.CleanEntry | src/lib/utils.js:8-53 | an empty query gives an empty prompt; the response passes through, `undefined` as empty |
| HistoryEntry.MainPartIsTextBeforeMarker | src/lib/utils.js:16-17 | the main part is exactly the text before the first marker, as `cleanHistoryText` cuts it |
| HistoryEntry.UntaggedPartsGiveNothing | src/lib/utils.js:30-42 | parts without a tagged line contribute no section |
| HistoryEntry.TaggedPartsNumbered | src/lib/utils.js:30-42 | when every part is tagged, each gives one section and they are numbered consecutively |
| HistoryEntry.NoMarkerNoFollowUps | src/lib/utils.js:16-28 | a query without the marker gives the initial section alone |
| History.QueryTypesFor | src/pages/UnifiedHistory.jsx:225-227 | a known section lists its table entry; another lists itself and its `_unified` form |
| History.LabelFor | src/pages/UnifiedHistory.jsx:131 | the display name, or the query type itself |
| History.Fetch | src/pages/UnifiedHistory.jsx:229-235 | exactly the user's rows of a listed type that are thread roots or predate threads |
| History.Normalize | src/pages/UnifiedHistory.jsx:240-248 | a fetched row keeps its id, type and stored conversation, with its label and cleaned texts |
| History.Load | src/pages/UnifiedHistory.jsx:215-266 | nothing without a user or on a failed read; otherwise every listed row, normalised, in order |
| History.Remove | src/pages/UnifiedHistory.jsx:268-288 | after a successful delete exactly the entries of other ids remain |
| History.Download | src/pages/UnifiedHistory.jsx:290-305 | an entry with a non-empty conversation downloads the same transcript as the page; otherwise the download is `**Prompt:**`, the cleaned prompt, a blank line, `**Response:**` and the cleaned response |
| History.Preview | src/pages/UnifiedHistory.jsx:384 | a prefix of the cleaned prompt of exactly min(150, its length) characters, then an ellipsis even when nothing was cut; a prompt of at most 150 characters is shown whole |
| History.FetchAppend | src/pages/UnifiedHistory.jsx:229-235 | the listing keeps the store's order |
| History.RemoveExactlyOne | src/pages/UnifiedHistory.jsx:278 | deleting an id present once removes exactly that entry and keeps the rest in order |
| History.RemoveAppend | src/pages/UnifiedHistory.jsx:278 | removal distributes over concatenation |
| History.RemoveNone | src/pages/UnifiedHistory.jsx:278 | deleting an absent id changes nothing |
| History.HeadingsMatchTranscript | src/pages/UnifiedHistory.jsx:436-449 | `TurnHeading` in an alternating thread: exchange 0 is headed `Initial Prompt:`, exchange k > 0 `Follow-up k:`, every reply `Response:`, numbering the exchanges as the download does |
| History.FallbackListsSection | src/pages/UnifiedHistory.jsx:225-227 | an unknown section lists its name and its `_unified` form |
| History.SavedRowsAreListed | src/pages/UnifiedHistory.jsx:229-234 | every row Poetry, OnlineContent or Songwriting inserts appears on that page's history list; with the corrected save, so does every row StageScreen inserts |
| History.SavedTypeListed | src/pages/UnifiedHistory.jsx:25-70 | each page's corrected query type is in its section's list |
| History.StageRowsHiddenAsWritten | src/pages/UnifiedHistory.jsx:64-78 | rows StageScreen saves as written appear on neither stage list |
| DemoTracking.GetSessionId | src/lib/demo-tracking.js:10-20 | a stored id is reused unchanged; otherwise `demo_` and a fresh UUID is stored and returned |
| DemoTracking.Track | src/lib/demo-tracking.js:49-81 | a signed-in browser sends nothing; otherwise one event with the session id, page, type and excerpt |
| DemoTracking.TrackPageView | src/lib/demo-tracking.js:86-88 | a page view is a `start_demo` event without an excerpt, sent exactly when the browser is not signed in |
| DemoTracking.TrackPrompt | src/lib/demo-tracking.js:93-102 | a generation is a `generate_content` event and a follow-up a `follow_up` event, each carrying the text, sent exactly when the browser is not signed in |
| DemoTracking.SessionIdIsStable | src/lib/demo-tracking.js:10-20 | asking twice gives the same id |
| DemoTracking.EventsShareSession | src/lib/demo-tracking.js:49-72 | consecutive events of one browser carry the same session id |
| DemoTracking.SessionIdNonEmpty | src/lib/demo-tracking.js:15 | the session id is never empty |
| TrackUsage.Excerpt | supabase/functions/track-demo-usage/index.ts:46-48 | a given excerpt is cut to its first 100 characters; a missing or empty one is stored as null |
| TrackUsage.Handle | supabase/functions/track-demo-usage/index.ts:9-92 | preflight answers 200; other verbs than POST 405; a missing field 400; a stored event 200; a failed insert 500 |
| TrackUsage.Received | src/lib/demo-tracking.js:65-71 | the handler receives the fields the client sends |
| TrackUsage.ExcerptIdempotent | supabase/functions/track-demo-usage/index.ts:46-48 | cutting an excerpt twice is cutting it once |
| TrackUsage.ClientEventsAreStored | supabase/functions/track-demo-usage/index.ts:35-75 | every event an anonymous browser sends passes the field check and is stored |
| Auth.SignUpCheck | src/pages/AuthPage.jsx:105-132 | empty fields, then a mismatch, then a password shorter than six; each rejection exactly when it applies |
| Auth.SignUpPageCheckAsWritten | src/pages/SignUp.jsx:18-36 | the standalone page accepts exactly non-empty matching fields, with no length check |
| Auth.ResetCheck | src/components/PasswordResetForm.jsx:15-39 | accepted exactly when the fields match and have at least six characters |
| Auth.NormalizeEmail | src/pages/AuthPage.jsx:137 | the normalised address is the trimmed input with every ASCII capital lowered, character by character: trimmed, as long as the trimmed input, no longer than the input |
| Auth.InitialRow | src/pages/AuthPage.jsx:147-157 | a new account is admin exactly for the admin address, unsubscribed, with five queries and none used |
| Auth.SessionEntries | src/pages/AuthPage.jsx:163-167 | sign-up stores exactly five keys: the user id, signed in, the admin flag, not subscribed, five queries |
| Auth.DefaultTab | src/pages/AuthPage.jsx:27 | the `tab` parameter when given, otherwise sign-in |
| Auth.SignIn | src/pages/AuthPage.jsx:71-103 | empty fields make no call; otherwise the credentials go as typed, and the dashboard opens exactly on success |
| Auth.SignUp | src/pages/AuthPage.jsx:105-180 | rejected input makes no call; the normalised address is sent; a row is inserted exactly for a returned user; the dashboard opens and storage is written exactly when the insert succeeds |
| Auth.PasswordReset | src/components/PasswordResetForm.jsx:13-70 | rejected input makes no call; the fields are cleared exactly on success |
| Auth.ChecksDifferOnlyOnLength | src/pages/SignUp.jsx:18-36 | the two sign-up forms disagree exactly on a matching password shorter than six |
| Auth.ShortPasswordAcceptedAsWritten | src/pages/SignUp.jsx:29-39 | `abc` passes the standalone page but not the authentication page |
| Auth.ResetAgreesWithSignUpRules | src/components/PasswordResetForm.jsx:15-39 | the reset form refuses the same inputs for the same reasons as sign-up |
| Auth.NormalizeEmailIdempotent | src/pages/AuthPage.jsx:137 | normalising twice is normalising once |
| Auth.AdminFlagIgnoresCase | src/pages/AuthPage.jsx:152 | `IsAdminEmail` compares the lower-cased address, so an address and its lower-cased form get the same flag |
| Auth.AdminFlagIgnoresTrim | src/pages/AuthPage.jsx:137-152 | the admin address typed with a leading space signs up as the admin address without the admin flag |
| Auth.NewAccountGetsFiveQueries | src/pages/AuthPage.jsx:147-157 | a new non-admin account is granted exactly its first five saving calls |
| Auth.SignUpTurnsOffTracking | src/pages/AuthPage.jsx:163-167 | after sign-up the browser no longer sends anonymous demo events |
| PortalSession.ReturnUrl | supabase/functions/create-portal-session/index.ts:41-43 | the body's return URL, else the origin's dashboard, else the site's dashboard; never empty |
| PortalSession.CheckoutFor | supabase/functions/create-portal-session/index.ts:104-115 | a checkout for the monthly price with no trial, returning to the return URL |
| PortalSession.Handle | supabase/functions/create-portal-session/index.ts:9-146 | Stripe is called only for an authenticated user whose row was read, with the key set; the portal for a customer, checkout otherwise; every error answers 400 with a message |
| PortalSession.BothBranchesReturnToTheSamePage | supabase/functions/create-portal-session/index.ts:66-115 | portal and checkout both return to the same page |
| PortalSession.MissingRowIsRefused | supabase/functions/create-portal-session/index.ts:50-59 | a user without a subscription row is refused and Stripe is not called |
| CreateSubscription.OriginText | supabase/functions/create-subscription/index.ts:40-41 | the origin header, or `null` when absent |
| CreateSubscription.StripeTrialDays | supabase/functions/create-subscription/index.ts:39 | the text parses back to 0 once the trial has ended, else to the trial days |
| CreateSubscription.Handle | supabase/functions/create-subscription/index.ts:9-87 | a checkout exactly for a body with user id and email; the trial end is stored exactly when Stripe answers; 200 exactly for preflight or a stored checkout |
| CreateSubscription.TrialEndAgreesWithStripe | supabase/functions/create-subscription/index.ts:39-61 | no end is stored exactly when the trial has ended; otherwise the end lies as many days ahead as Stripe's trial |
| CreateSubscription.StoredTrialShowsGrantedDays | supabase/functions/create-subscription/index.ts:55-61 | the stored end, read back at once, shows exactly the granted days |
| CreateSubscription.ClientRequestsGetCheckout | src/lib/stripe.js:6-56 | the browser's request (thirty days) always gets the checkout URL when Stripe answers |
| ApiKey.GetApiKey | src/lib/api.js:3-49 | the key is handed out exactly to a user with a configured key and an entitled, readable row; otherwise, in the source's order, `No user found`, the settings failure, `No API key found in settings`, `Failed to check subscription status` on a failed subscription read, and the subscribe message for a missing or unentitled row |
| ApiKey.KeyFollowsHookGate | src/lib/api.js:36-44 | the key is handed out exactly when the query hook grants a check-only call |
| ApiKey.MissingRowMeansSubscribe | src/lib/api.js:36-44 | a user without a row is asked to subscribe |
| Seo.Robots | src/components/SEO.jsx:17 | the directive starts with `n` exactly for noindex |
| Seo.FullCanonical | src/components/SEO.jsx:14-15 | the site URL and path exactly when a path is given |
| Seo.OgType | src/components/SEO.jsx:10 | `website` when the prop is absent, else the prop |
| Seo.Tags | src/components/SEO.jsx:19-33 | the robots tag is always there; the title exactly when given |
| Seo.RobotsDetermineFlags | src/components/SEO.jsx:17 | two directives are equal exactly when both flags agree |
| Seo.OgUrlFollowsCanonical | src/components/SEO.jsx:24-29 | the `og:url` tag and the canonical link appear together, once each, exactly when a path is given, with the same URL |

## Left out

- Rendering, animation, toasts' titles and wording beyond what the handlers branch on, routing details, and the `onLogin` callback and gtag conversion tracking are not modelled.
- Network calls, the database, Supabase Auth, Stripe and the model proxy are parameters: their answers are inputs, their internals are out of scope.
- The clock, `crypto.randomUUID` and the browser metadata object (`getMetadata`) are parameters; the metadata is an opaque map.
- `makeClaudeRequest`, which the full pages import from `src/lib/api.js`, is not exported there; the model uses the shape of `makeOpenAIRequest` for it.
- `createPortalSession`, which `SubscriptionStatus.jsx` imports from `src/lib/stripe.js`, is not defined there; `SubscriptionCard.SubscribeClick` takes its answer as a parameter.
- The pages' system-prompt loading (`getSystemPrompt`) is a parameter: the system prompt text.
- Fictional Prose and Nonfiction pages, the dashboard, blog and resources pages are not part of this model.
- Entitlement.HandleQuery: the pages always pass `shouldSave = false`; the saving branch is modelled but no page reaches it.
- PageFlow.FullFollowUp: a follow-up whose model call fails keeps the question on screen, as the pages do; no retry is modelled.
- History.Load: the store's `created_at` descending ordering is the store's; rows are taken in the order given.
- HistoryText.RewriteByLines: the line rules are modelled on `\n` line breaks only; for them `\r` and the Unicode line and paragraph separators are ordinary characters. The bullet rule, which runs over the whole text, treats all four ECMAScript line terminators as line ends.
- HistoryText.Collapse: its own contract states what the result keeps (no run of three newlines, the first character); the run-by-run rewrite, three or more newlines to exactly two and shorter runs kept, is the contract of `HistoryText.CollapseRuns` and `HistoryText.CollapseAppend`.
- HistoryText.CleanText: its own contract states the empty cases, trimming and the absence of triple newlines; what the rules do to the lines is stated by `HistoryText.RewriteByLines`, `HistoryText.BulletPassOfBulletLine`, `HistoryText.BulletLabelCrossesLines` and the collapsing lemmas.
- Text.ToLower: `toLowerCase` is modelled on ASCII letters only.
- TrackUsage.Excerpt: JavaScript's `substring(0, 100)` counts UTF-16 code units; here it counts characters, so an excerpt holding characters outside the Basic Multilingual Plane is cut later than the function cuts it.
- Auth.SignUpCheck: `password.length < 6` counts UTF-16 code units; here it counts characters, so a password of three astral characters (six code units) is refused here and accepted by the page.
- History.Preview: `substring(0, 150)` counts UTF-16 code units and can split a surrogate pair; here the cut is at 150 characters, so a prompt holding characters outside the Basic Multilingual Plane is cut later here than on the page.
- PortalSession.Handle: `returnUrl` is modelled as an optional string, and a body that does not parse as an absent field. A body that parses to JSON `null` makes the destructuring throw, which the function answers with 400; a truthy `returnUrl` that is not a string is passed to Stripe as given. Neither is modelled.
- Auth.ResetCheck: `newPassword.length < 6` counts UTF-16 code units as well; here it counts characters, with the same astral-character difference.
- TrackUsage.Handle: the body is modelled as optional strings. JSON of other types is not: a non-string `prompt_excerpt` makes `.substring` throw (a 500), a non-empty non-string `session_id`, `page` or `event_type` passes the field check, and a `null` body makes the destructuring throw (a 500).
- DemoQuota.Increment and DemoQuota.Count: the counter is an unbounded integer, while JavaScript numbers are doubles. From 10^21 on, `toString` writes an exponent (`1e+21`) that `parseInt` reads back as 1, and above 2^53 adding one may not change the value; both need a tampered local storage, and the read-back contract does not hold there.
- CreateSubscription.StripeTrialDays: `trial_days` is an unbounded integer here; the double's exponent notation for very large values is not modelled.
- Entitlement.Row: `is_admin`, `is_subscribed`, `queries_remaining` and `queries_used` are nullable columns; the row takes them as plain booleans and integers, so a null read as falsy or as `NaN` arithmetic is not modelled.
- CreateSubscription.Handle: `trial_days` is an integer and `has_trial_ended` a boolean; other JSON types and their truthiness are not modelled. `setDate` is modelled as adding whole days of 86 400 000 ms (no daylight-saving or calendar effects). The Stripe key is not modelled: the function calls Stripe even when it is unset.
- Auth.IsAdminEmail: the admin flag compares the untrimmed lower-cased address, as the pages do (see `Auth.AdminFlagIgnoresTrim`).
- Thread.AsRead: Online Content and Songwriting do not select `created_at`, so their legacy seeds carry no timestamp; this is modelled, not corrected.
- JavaScript object-prototype keys (`fieldConfig["constructor"]` and the like) are not modelled: map lookups miss for any key not in the tables.

## Findings

| source | as written | input that shows it | evidently intended | confidence | as-written member | corrected member |
|---|---|---|---|---|---|---|
| src/pages/StageScreen.jsx:142 | saves `query_type: SECTION`, which is `stage`, a type the stage history lists (src/pages/UnifiedHistory.jsx:64-78) do not hold | any saved Stage & Screen generation | save `QUERY_TYPE` (`stage_screen_unified`) like the other pages, so the row appears on the stage history page | high; not executed | Thread.SavedQueryTypeAsWritten, Thread.SaveToHistory, History.StageRowsHiddenAsWritten | Thread.SavedQueryType, Thread.CorrectedSave, History.SavedTypeListed, History.SavedRowsAreListed |
| src/components/SubscriptionStatus.jsx:70-76 | the card's countdown is `Math.ceil` of the time left with no lower bound | a trial that ended two days ago shows `-2 days remaining` | clamp at zero as the provider's `getDaysRemaining` does | high; not executed | SubscriptionCard.CardDaysAsWritten, SubscriptionCard.View, SubscriptionCard.ViewShowsNegativeDays | SubscriptionCard.CardDays, SubscriptionCard.CorrectedView, SubscriptionCard.CardAgreesWithHeader |
| src/pages/SignUp.jsx:29-39 | the standalone sign-up page has no minimum password length | email `a@b.co`, password and confirmation `abc` pass the checks | refuse passwords shorter than six characters as the authentication page and the reset form do | medium; not executed | Auth.SignUpPageCheckAsWritten, Auth.ShortPasswordAcceptedAsWritten | Auth.SignUpCheck, Auth.ChecksDifferOnlyOnLength |

=== FILE: api.dfy ===
/** The client side of the model proxy (`makeOpenAIRequest`, shared in shape
    with the demo request): the message list a page assembles is split into
    the system text and the conversation, and a failed response becomes an
    error message. The proxy itself is a parameter: its reply. */
module Api {
  import opened Wrappers
  import Seqs

  datatype Message = Message(role: string, content: string)

  /** The body POSTed to the proxy. */
  datatype Request = Request(messages: seq<Message>, system: string, model: string, maxTokens: int)

  /** What the proxy answers: the first content block's text, or a non-OK
      status with the body's `error.message` when there is one. */
  datatype Reply = Ok(text: string) | NotOk(errorMessage: Option<string>)

  const ModelName := "claude-sonnet-4-5-20250929"
  const MaxTokens := 4000
  const RequestFailed := "API request failed"
  const NoUser := "No user found"
  const NoSession := "No session found"

  /** `messages.find(m => m.role === 'system')?.content || ""`. */
  function SystemText(ms: seq<Message>): (s: string)
    ensures (forall i :: 0 <= i < |ms| ==> ms[i].role != "system") ==> s == ""
    ensures forall i :: 0 <= i < |ms| && ms[i].role == "system" && NoSystemTurn(ms[..i]) ==> s == ms[i].content
  {
    if ms == [] then ""
    else if ms[0].role == "system" then ms[0].content
    else
      var s := SystemText(ms[1..]);
      assert forall i :: 1 <= i < |ms| ==> ms[1..][i - 1] == ms[i] && ms[1..][..i - 1] == ms[1..i];
      s
  }

  /** A message the filter keeps: any role but `system`. */
  predicate IsTurn(m: Message) {
    m.role != "system"
  }

  /** `messages.filter(m => m.role !== 'system')`. */
  function Conversation(ms: seq<Message>): (c: seq<Message>)
    ensures |c| <= |ms|
    ensures NoSystemTurn(c)
    ensures forall m :: m in c <==> m in ms && m.role != "system"
  {
    var c := Seqs.Filter(IsTurn, ms);
    assert forall i :: 0 <= i < |c| ==> c[i] in c;
    c
  }

  /** The JSON body: the conversation, the system text, the fixed model
      and the token cap. */
  function BuildRequest(ms: seq<Message>): (r: Request)
    ensures r.model == "claude-sonnet-4-5-20250929" && r.maxTokens == 4000
    ensures r.system == SystemText(ms) && r.messages == Conversation(ms)
    ensures forall m :: m in r.messages <==> m in ms && m.role != "system"
    ensures (forall i :: 0 <= i < |ms| ==> ms[i].role != "system") ==> r.system == "" && r.messages == ms
  {
    var c := Conversation(ms);
    if forall i :: 0 <= i < |ms| ==> ms[i].role != "system" then
      ConversationOfTurns(ms);
      Request(c, SystemText(ms), ModelName, MaxTokens)
    else
      Request(c, SystemText(ms), ModelName, MaxTokens)
  }

  /** `errorData.error?.message || 'API request failed'`. */
  function ErrorText(errorMessage: Option<string>): (e: string)
    ensures e != ""
    ensures errorMessage.Some? && errorMessage.value != "" ==> e == errorMessage.value
  {
    match errorMessage
    case Some(m) => if m != "" then m else RequestFailed
    case None => RequestFailed
  }

  /** `makeOpenAIRequest(messages)`: the request sent (if any) and the reply
      text or the thrown message. */
  function MakeRequest(hasUser: bool, hasSession: bool, ms: seq<Message>, reply: Reply)
    : (out: (Option<Request>, Result<string, string>))
    ensures out.0.Some? <==> hasUser && hasSession
    ensures out.0.Some? ==> out.0.value == BuildRequest(ms)
    ensures !hasUser ==> out.1 == Failure(NoUser)
    ensures hasUser && !hasSession ==> out.1 == Failure(NoSession)
    ensures out.1.Success? <==> hasUser && hasSession && reply.Ok?
    ensures out.1.Success? ==> out.1.value == reply.text
  {
    if !hasUser then (None, Failure(NoUser))
    else if !hasSession then (None, Failure(NoSession))
    else
      var req := BuildRequest(ms);
      match reply
      case Ok(t) => (Some(req), Success(t))
      case NotOk(m) => (Some(req), Failure(ErrorText(m)))
  }

  /** The list every page sends: its system prompt, then the turns so far. */
  function PageMessages(systemPrompt: string, turns: seq<Message>): seq<Message> {
    [Message("system", systemPrompt)] + turns
  }

  /** No turn of the list claims the system role. */
  predicate NoSystemTurn(turns: seq<Message>) {
    forall i :: 0 <= i < |turns| ==> turns[i].role != "system"
  }

  // ---------------------------------------------------------------------------
  // Properties
  // ---------------------------------------------------------------------------

  /** Filtering distributes over concatenation, so the conversation keeps
      the order of the turns. */
  lemma ConversationAppend(a: seq<Message>, b: seq<Message>)
    ensures Conversation(a + b) == Conversation(a) + Conversation(b)
  {
    Seqs.FilterAppend(IsTurn, a, b);
  }

  /** A list without system turns passes through the filter unchanged. */
  lemma ConversationOfTurns(turns: seq<Message>)
    requires NoSystemTurn(turns)
    ensures Conversation(turns) == turns
  {
    Seqs.FilterKeepsAll(IsTurn, turns);
  }

  /** Splitting what a page assembles gives back exactly its system prompt
      and its turns: the proxy sees the page's conversation unchanged. */
  lemma SplitPageMessages(systemPrompt: string, turns: seq<Message>)
    requires NoSystemTurn(turns)
    ensures BuildRequest(PageMessages(systemPrompt, turns)).system == systemPrompt
    ensures BuildRequest(PageMessages(systemPrompt, turns)).messages == turns
  {
    var ms := PageMessages(systemPrompt, turns);
    assert ms[1..] == turns;
    ConversationOfTurns(turns);
  }
}

=== FILE: api_key.dfy ===
/** `getApiKey()`: the shared model key from the settings table, handed out
    only to a signed-in user whose subscription row entitles them to a
    query. The settings and subscription reads are parameters. */
module ApiKey {
  import opened Wrappers
  import Entitlement

  const NoUser := "No user found"
  const SettingsFailed := "Failed to retrieve API key from settings"
  const NoKey := "No API key found in settings"
  const CheckFailed := "Failed to check subscription status"
  const SubscribeFirst := "Please subscribe to continue using the service"

  /** The key, or the message thrown. `settings` is the settings read
      (the stored key, absent when the column is null), `sub` the
      subscription read, whose no-row error is tolerated. */
  function GetApiKey(user: Option<string>, settings: Result<Option<string>, string>,
                     sub: Entitlement.RowRead): (r: Result<string, string>)
    ensures user.None? ==> r == Failure(NoUser)
    ensures user.Some? && settings.Failure? ==> r == Failure(SettingsFailed)
    ensures user.Some? && settings.Success? && (settings.value.None? || settings.value.value == "")
            ==> r == Failure(NoKey)
    ensures user.Some? && settings.Success? && settings.value.Some? && settings.value.value != ""
            && sub == Entitlement.ReadError
            ==> r == Failure(CheckFailed)
    ensures r.Success? <==>
              user.Some? && settings.Success? && settings.value.Some? && settings.value.value != ""
              && sub != Entitlement.ReadError && Entitlement.CanQuery(Entitlement.RowOf(sub))
    ensures r.Success? ==> r.value == settings.value.value
    ensures user.Some? && settings.Success? && settings.value.Some? && settings.value.value != ""
            && sub != Entitlement.ReadError && !Entitlement.CanQuery(Entitlement.RowOf(sub))
            ==> r == Failure(SubscribeFirst)
  {
    if user.None? then Failure(NoUser)
    else
      match settings
      case Failure(_) => Failure(SettingsFailed)
      case Success(key) =>
        if key.None? || key.value == "" then Failure(NoKey)
        else if sub == Entitlement.ReadError then Failure(CheckFailed)
        else
          match sub
          case Found(row) =>
            if row.isAdmin || row.isSubscribed || row.queriesRemaining > 0 then Success(key.value)
            else Failure(SubscribeFirst)
          case _ => Failure(SubscribeFirst)
  }

  // ---------------------------------------------------------------------------
  // Properties
  // ---------------------------------------------------------------------------

  /** With a key configured, the key is handed out exactly when the query
      hook's gate grants a check-only call for the same user and row: both
      follow the same entitlement rule. */
  lemma KeyFollowsHookGate(user: Option<string>, key: string, sub: Entitlement.RowRead,
                           local: Option<Entitlement.Row>, queryType: string, q: string)
    requires key != ""
    ensures GetApiKey(user, Success(Some(key)), sub).Success?
            <==> Entitlement.HandleQuery(user, sub, local, queryType, q, "", false, None, Success(()), true).result.Granted?
  {
    Entitlement.CheckOnlyCallsAreFree(user, sub, local, queryType, q, Success(()), true);
  }

  /** A user without a subscription row is refused, like one whose free
      queries are used up, and not told that the check failed. */
  lemma MissingRowMeansSubscribe(user: string, key: string)
    requires key != ""
    ensures GetApiKey(Some(user), Success(Some(key)), Entitlement.NoRow) == Failure(SubscribeFirst)
  {
  }
}

=== FILE: auth.dfy ===
/** Accounts: the sign-in and sign-up forms of the authentication page, the
    standalone sign-up page, and the password-reset form. Each form checks
    its fields in a fixed order before it calls Supabase Auth; the sign-up
    forms then insert the new account's subscription row and record the
    session in local storage. The auth service, the insert and the password
    update are parameters. */
module Auth {
  import opened Wrappers
  import opened Text
  import Entitlement
  import DemoTracking

  const AdminEmail := "steven.j.reitz@gmail.com"
  const MinPasswordLength := 6
  const FreeQueries := 5

  /** Why a form refused to submit, in the order the checks run. */
  datatype Rejection = EmptyField | Mismatch | TooShort

  /** What the user is told. */
  datatype Notice = Rejected(message: string) | Failed(message: string) | Welcome

  // ---------------------------------------------------------------------------
  // Field checks
  // ---------------------------------------------------------------------------

  /** The sign-up checks of the authentication page: any empty field, then a
      mismatch, then a password shorter than six characters. The first
      failing check decides. */
  function SignUpCheck(email: string, password: string, confirm: string): (r: Option<Rejection>)
    ensures r == Some(EmptyField) <==> email == "" || password == "" || confirm == ""
    ensures r == Some(Mismatch) <==> email != "" && password != "" && confirm != "" && password != confirm
    ensures r == Some(TooShort) <==>
              email != "" && password != "" && password == confirm && |password| < MinPasswordLength
    ensures r.None? <==> email != "" && password == confirm && |password| >= MinPasswordLength
  {
    if email == "" || password == "" || confirm == "" then Some(EmptyField)
    else if password != confirm then Some(Mismatch)
    else if |password| < MinPasswordLength then Some(TooShort)
    else None
  }

  /** The checks of the standalone sign-up page as written: empty fields,
      then a mismatch, and no minimum length. */
  function SignUpPageCheckAsWritten(email: string, password: string, confirm: string): (r: Option<Rejection>)
    ensures r != Some(TooShort)
    ensures r.None? <==> email != "" && password != "" && password == confirm
  {
    if email == "" || password == "" || confirm == "" then Some(EmptyField)
    else if password != confirm then Some(Mismatch)
    else None
  }

  /** The password-reset checks: either field empty, then a mismatch, then
      a password shorter than six characters. */
  function ResetCheck(password: string, confirm: string): (r: Option<Rejection>)
    ensures r.None? <==> password == confirm && |password| >= MinPasswordLength
    ensures r == Some(EmptyField) <==> password == "" || confirm == ""
  {
    if password == "" || confirm == "" then Some(EmptyField)
    else if password != confirm then Some(Mismatch)
    else if |password| < MinPasswordLength then Some(TooShort)
    else None
  }

  /** The authentication page's messages. */
  function SignUpMessage(r: Rejection): string {
    match r
    case EmptyField => "Please fill in all fields"
    case Mismatch => "Passwords do not match"
    case TooShort => "Password must be at least 6 characters"
  }

  /** The password-reset form's messages. */
  function ResetMessage(r: Rejection): string {
    match r
    case EmptyField => "Please fill in both password fields."
    case Mismatch => "Passwords do not match."
    case TooShort => "Password must be at least 6 characters long."
  }

  /** `error.message || fallback`. */
  function MessageOr(error: string, fallback: string): (m: string)
    ensures error != "" ==> m == error
    ensures error == "" ==> m == fallback
  {
    if error != "" then error else fallback
  }

  // ---------------------------------------------------------------------------
  // Email and the new account
  // ---------------------------------------------------------------------------

  /** The address sent to the auth service: `email.trim().toLowerCase()`. */
  function NormalizeEmail(email: string): (r: string)
    ensures |r| <= |email|
    ensures IsTrimmed(r)
    ensures |r| == |Trim(email)| && forall i :: 0 <= i < |r| ==> r[i] == LowerChar(Trim(email)[i])
  {
    var t := Trim(email);
    LowerKeepsTrimmed(t);
    ToLower(t)
  }

  /** The admin flag: `email.toLowerCase() === AdminEmail`, on the address
      as typed, without trimming. */
  predicate IsAdminEmail(email: string) {
    ToLower(email) == AdminEmail
  }

  /** The subscription row a new account starts with. */
  function InitialRow(email: string): (r: Entitlement.Row)
    ensures r.isAdmin <==> IsAdminEmail(email)
    ensures !r.isSubscribed && r.queriesRemaining == FreeQueries && r.queriesUsed == 0
  {
    Entitlement.Row(IsAdminEmail(email), false, FreeQueries, 0)
  }

  /** The local-storage entries a successful sign-up writes. */
  function SessionEntries(store: DemoTracking.Storage, userId: string, email: string): (s: DemoTracking.Storage)
    ensures s.Keys == store.Keys + {"userId", "isAuthenticated", "isAdmin", "isSubscribed", "queriesRemaining"}
    ensures s["userId"] == userId && s["isAuthenticated"] == "true" && s["isSubscribed"] == "false"
    ensures s["queriesRemaining"] == "5"
    ensures s["isAdmin"] == (if IsAdminEmail(email) then "true" else "false")
  {
    store["userId" := userId]["isAuthenticated" := "true"]
         ["isAdmin" := if IsAdminEmail(email) then "true" else "false"]
         ["isSubscribed" := "false"]["queriesRemaining" := "5"]
  }

  // ---------------------------------------------------------------------------
  // The forms
  // ---------------------------------------------------------------------------

  /** The tab the authentication page opens on: the `tab` query parameter
      when it is given and non-empty, otherwise sign-in. */
  function DefaultTab(tab: Option<string>): (r: string)
    ensures r != ""
    ensures tab.Some? && tab.value != "" ==> r == tab.value
    ensures r != "signin" ==> tab == Some(r)
  {
    if tab.Some? && tab.value != "" then tab.value else "signin"
  }

  /** One sign-in: the credentials passed to the auth service (the email as
      typed), what the user is told, and where the page goes. */
  datatype SignInOutcome = SignInOutcome(call: Option<(string, string)>, notice: Notice, navigate: Option<string>)

  /** `handleSignIn`; `auth` is the service's answer, failing with its
      error message. */
  function SignIn(email: string, password: string, auth: Result<(), string>): (out: SignInOutcome)
    ensures out.call.None? <==> email == "" || password == ""
    ensures out.call.None? ==> out == SignInOutcome(None, Rejected("Please fill in all fields"), None)
    ensures out.call.Some? ==> out.call.value == (email, password)
    ensures out.navigate.Some? <==> out.call.Some? && auth.Success?
    ensures out.navigate.Some? ==> out.navigate.value == "/dashboard" && out.notice == Welcome
    ensures out.call.Some? && auth.Failure? ==> out.notice == Failed(MessageOr(auth.error, "Invalid email or password."))
  {
    if email == "" || password == "" then SignInOutcome(None, Rejected("Please fill in all fields"), None)
    else
      match auth
      case Failure(e) => SignInOutcome(Some((email, password)), Failed(MessageOr(e, "Invalid email or password.")), None)
      case Success(_) => SignInOutcome(Some((email, password)), Welcome, Some("/dashboard"))
  }

  /** One sign-up: the credentials sent to the auth service, the row
      inserted for the new user, the local storage after, the notice, and
      where the page goes. */
  datatype SignUpOutcome = SignUpOutcome(
    call: Option<(string, string)>,
    insert: Option<(string, Entitlement.Row)>,
    store: DemoTracking.Storage,
    notice: Notice,
    navigate: Option<string>)

  const SignUpFailed := "Failed to sign up. Please try again."
  const NoUserData := "No user data received after sign up"

  /** The sign-up handler of the authentication page, after its checks.
      `auth` is the service's answer (the new user's id, absent when the
      answer carries none), `insert` the outcome of the row insert. */
  function SignUp(email: string, password: string, confirm: string, store: DemoTracking.Storage,
                  auth: Result<Option<string>, string>, insert: Result<(), string>): (out: SignUpOutcome)
    ensures out.call.None? <==> SignUpCheck(email, password, confirm).Some?
    ensures out.call.None? ==>
              out == SignUpOutcome(None, None, store, Rejected(SignUpMessage(SignUpCheck(email, password, confirm).value)), None)
    ensures out.call.Some? ==> out.call.value == (NormalizeEmail(email), password)
    ensures out.insert.Some? <==>
              out.call.Some? && auth.Success? && auth.value.Some? && auth.value.value != ""
    ensures out.insert.Some? ==> out.insert.value == (auth.value.value, InitialRow(email))
    ensures out.call.Some? && auth.Success? && !(auth.value.Some? && auth.value.value != "")
            ==> out.notice == Failed(NoUserData)
    ensures out.navigate.Some? <==> out.insert.Some? && insert.Success?
    ensures out.navigate.Some? ==>
              out.navigate.value == "/dashboard" && out.notice == Welcome
              && out.store == SessionEntries(store, out.insert.value.0, email)
    ensures out.navigate.None? ==> out.store == store && out.notice != Welcome
  {
    match SignUpCheck(email, password, confirm)
    case Some(r) => SignUpOutcome(None, None, store, Rejected(SignUpMessage(r)), None)
    case None =>
      var call := Some((NormalizeEmail(email), password));
      match auth
      case Failure(e) => SignUpOutcome(call, None, store, Failed(MessageOr(e, SignUpFailed)), None)
      case Success(user) =>
        if !(user.Some? && user.value != "") then
          SignUpOutcome(call, None, store, Failed(NoUserData), None)
        else
          var id := user.value;
          var row := Some((id, InitialRow(email)));
          match insert
          case Failure(e) => SignUpOutcome(call, row, store, Failed(MessageOr(e, SignUpFailed)), None)
          case Success(_) => SignUpOutcome(call, row, SessionEntries(store, id, email), Welcome, Some("/dashboard"))
  }

  /** One password update: the password sent to the service, the notice,
      and the two fields after. */
  datatype ResetOutcome = ResetOutcome(update: Option<string>, notice: Notice, password: string, confirm: string)

  /** `handlePasswordUpdate`; `update` is the service's answer. */
  function PasswordReset(password: string, confirm: string, update: Result<(), string>): (out: ResetOutcome)
    ensures out.update.None? <==> ResetCheck(password, confirm).Some?
    ensures out.update.None? ==> out.notice == Rejected(ResetMessage(ResetCheck(password, confirm).value))
    ensures out.update.Some? ==> out.update.value == password
    ensures out.notice == Welcome <==> out.update.Some? && update.Success?
    ensures out.notice == Welcome ==> out.password == "" && out.confirm == ""
    ensures out.notice != Welcome ==> out.password == password && out.confirm == confirm
  {
    match ResetCheck(password, confirm)
    case Some(r) => ResetOutcome(None, Rejected(ResetMessage(r)), password, confirm)
    case None =>
      match update
      case Failure(e) =>
        ResetOutcome(Some(password), Failed(MessageOr(e, "Failed to update password. Please try again.")), password, confirm)
      case Success(_) => ResetOutcome(Some(password), Welcome, "", "")
  }

  // ---------------------------------------------------------------------------
  // Properties
  // ---------------------------------------------------------------------------

  /** The standalone sign-up page and the authentication page agree on
      every input except a matching password shorter than six characters,
      which only the authentication page refuses. */
  lemma ChecksDifferOnlyOnLength(email: string, password: string, confirm: string)
    ensures SignUpPageCheckAsWritten(email, password, confirm) != SignUpCheck(email, password, confirm)
            <==> SignUpCheck(email, password, confirm) == Some(TooShort)
    ensures SignUpCheck(email, password, confirm) == Some(TooShort)
            ==> SignUpPageCheckAsWritten(email, password, confirm).None?
  {
  }

  /** A three-character password passes the standalone page's checks and
      reaches the auth service, while the authentication page refuses it. */
  lemma ShortPasswordAcceptedAsWritten()
    ensures SignUpPageCheckAsWritten("a@b.co", "abc", "abc").None?
    ensures SignUpCheck("a@b.co", "abc", "abc") == Some(TooShort)
  {
  }

  /** The reset form applies the sign-up rules to its two fields: with the
      email given, both refuse the same inputs for the same reason. */
  lemma ResetAgreesWithSignUpRules(email: string, password: string, confirm: string)
    requires email != ""
    ensures ResetCheck(password, confirm) == SignUpCheck(email, password, confirm)
  {
  }

  /** Normalising an address twice changes nothing. */
  lemma NormalizeEmailIdempotent(email: string)
    ensures NormalizeEmail(NormalizeEmail(email)) == NormalizeEmail(email)
  {
    var n := NormalizeEmail(email);
    TrimOfTrimmed(n);
    ToLowerIdempotent(Trim(email));
  }

  /** The admin flag ignores letter case: an address and its lower-cased
      form get the same flag. */
  lemma AdminFlagIgnoresCase(email: string)
    ensures IsAdminEmail(ToLower(email)) <==> IsAdminEmail(email)
  {
    ToLowerIdempotent(email);
  }

  /** The admin flag reads the address as typed, so the admin's address
      typed with a leading space signs up under the admin address but
      without the admin flag. */
  lemma AdminFlagIgnoresTrim(email: string)
    requires IsAdminEmail(email) && IsTrimmed(email)
    ensures NormalizeEmail(" " + email) == AdminEmail
    ensures !IsAdminEmail(" " + email)
  {
    var s := " " + email;
    assert s[1..] == email;
    assert TrimStart(s) == TrimStart(email);
    TrimOfTrimmed(email);
    assert TrimStart(email) == email;
    assert ToLower(s)[0] == ' ';
    assert AdminEmail[0] == 's';
  }

  /** A new non-admin account is on the free tier with five queries: the
      gate grants its first five saving calls and refuses from the sixth. */
  lemma NewAccountGetsFiveQueries(email: string, k: nat)
    requires !IsAdminEmail(email)
    ensures Entitlement.OnFreeTier(InitialRow(email))
    ensures Entitlement.CanQuery(Some(Entitlement.AfterSaves(InitialRow(email), k))) <==> k < FreeQueries
  {
    Entitlement.FreeTierAllowance(InitialRow(email), k);
  }

  /** After a successful sign-up the browser counts as signed in, so the
      demo pages stop sending anonymous usage events. */
  lemma SignUpTurnsOffTracking(email: string, password: string, confirm: string, store: DemoTracking.Storage,
                               id: string, page: string, eventType: string, excerpt: Option<string>,
                               uuid: string, meta: map<string, string>)
    requires SignUpCheck(email, password, confirm).None? && id != ""
    ensures var out := SignUp(email, password, confirm, store, Success(Some(id)), Success(()));
            && out.notice == Welcome
            && DemoTracking.IsUserAuthenticated(out.store)
            && DemoTracking.Track(out.store, page, eventType, excerpt, uuid, meta) == (None, out.store)
  {
  }
}

=== FILE: categories.dfy ===
/** The four writing pages' static tables: their option lists, `fieldConfig`
    maps and `switch` labels, with the `SECTION` and `QUERY_TYPE` constants
    each page uses for its system prompt and its history rows. The demo pages
    carry their own copies of three of the tables. */
module Categories {
  import opened PromptBuilder

  datatype Page = Poetry | OnlineContent | Songwriting | StageScreen

  /** The page's `SECTION` constant (its history route segment). */
  function Section(p: Page): string {
    match p
    case Poetry => "poetry"
    case OnlineContent => "content"
    case Songwriting => "songwriting"
    case StageScreen => "stage"
  }

  /** The page's `QUERY_TYPE` constant: the key of its system prompt and the
      `query_type` it passes to the entitlement check. */
  function QueryType(p: Page): string {
    match p
    case Poetry => "poetry_unified"
    case OnlineContent => "content_creation_unified"
    case Songwriting => "songwriting_unified"
    case StageScreen => "stage_screen_unified"
  }

  function Table(p: Page): Category {
    match p
    case Poetry => PoetryTable
    case OnlineContent => ContentTable
    case Songwriting => SongwritingTable
    case StageScreen => StageTable
  }

  const PoetryTable := Category(
    [ OptionEntry("poem", "Poem"),
      OptionEntry("imagery", "Imagery suggestions"),
      OptionEntry("rhyme_meter", "Rhyme/Meter guidance"),
      OptionEntry("style_tone", "Style/Tone suggestions"),
      OptionEntry("all", "All of the above") ],
    map[
      "poem" := ["premise", "theme", "tone", "length", "rhymeScheme", "poetryStyle", "meter"],
      "imagery" := ["premise", "theme", "tone"],
      "rhyme_meter" := ["rhymeScheme", "meter", "poetryStyle", "premise"],
      "style_tone" := ["tone", "poetryStyle", "premise"],
      "all" := ["premise", "theme", "tone", "length", "rhymeScheme", "poetryStyle", "meter"]],
    map[
      "premise" := "Premise", "theme" := "Theme", "tone" := "Tone", "length" := "Length",
      "rhymeScheme" := "Rhyme scheme", "poetryStyle" := "Style", "meter" := "Meter"])

  const ContentTable := Category(
    [ OptionEntry("strategy", "Audience/Platform Strategy"),
      OptionEntry("ideas", "Content Ideas"),
      OptionEntry("script", "Script/Storyboard"),
      OptionEntry("production", "Filming & Production Tips"),
      OptionEntry("growth", "Posting/Optimization & Growth"),
      OptionEntry("all", "All of the above") ],
    map[
      "strategy" := ["audience", "platform", "theme", "growthObjectives"],
      "ideas" := ["audience", "platform", "theme", "format", "tone"],
      "script" := ["theme", "format", "tone", "length", "audience"],
      "production" := ["format", "budget", "platform"],
      "growth" := ["platform", "audience", "schedule", "growthObjectives"],
      "all" := ["audience", "platform", "theme", "format", "tone", "length", "budget", "schedule", "growthObjectives"]],
    map[
      "audience" := "Target audience", "platform" := "Platform", "theme" := "Theme",
      "format" := "Format", "tone" := "Tone", "length" := "Length", "budget" := "Budget",
      "schedule" := "Schedule", "growthObjectives" := "Growth objectives"])

  const SongwritingTable := Category(
    [ OptionEntry("theme", "Theme/Concept"),
      OptionEntry("lyrics", "Lyrics & Wordcraft"),
      OptionEntry("melody", "Melody & Hook"),
      OptionEntry("structure", "Structure/Arrangement"),
      OptionEntry("style", "Style/Genre & Performance tips"),
      OptionEntry("all", "All of the above") ],
    map[
      "theme" := ["genre", "theme", "mood"],
      "lyrics" := ["genre", "theme", "mood", "structure", "length"],
      "melody" := ["genre", "theme", "mood", "melody"],
      "structure" := ["genre", "theme", "structure", "length"],
      "style" := ["genre", "mood", "performanceContext"],
      "all" := ["genre", "theme", "mood", "length", "structure", "melody", "performanceContext"]],
    map[
      "genre" := "Genre", "theme" := "Theme", "mood" := "Mood", "length" := "Length",
      "structure" := "Structure", "melody" := "Melody idea",
      "performanceContext" := "Performance context"])

  const StageTable := Category(
    [ OptionEntry("structure", "Scene Structure & Pacing"),
      OptionEntry("dialogue", "Dialogue Crafting"),
      OptionEntry("characters", "Character Arcs & Dynamics"),
      OptionEntry("visuals", "Visual & Staging Suggestions"),
      OptionEntry("all", "All of the above") ],
    map[
      "structure" := ["premise", "medium", "genre", "structure", "characters"],
      "dialogue" := ["premise", "genre", "tone", "characters", "dialogueStyle"],
      "characters" := ["premise", "genre", "characters"],
      "visuals" := ["premise", "medium", "genre", "tone", "visuals"],
      "all" := ["premise", "medium", "genre", "tone", "characters", "structure", "dialogueStyle", "visuals"]],
    map[
      "premise" := "Premise", "medium" := "Medium", "genre" := "Genre", "tone" := "Tone",
      "characters" := "Characters", "structure" := "Structure",
      "dialogueStyle" := "Dialogue style", "visuals" := "Visual preferences"])

  /** The demo pages' own copies of the tables. */
  const DemoPoetryTable := Category(
    [ OptionEntry("poem", "Poem"),
      OptionEntry("imagery", "Imagery suggestions"),
      OptionEntry("rhyme_meter", "Rhyme/Meter guidance"),
      OptionEntry("style_tone", "Style/Tone suggestions"),
      OptionEntry("all", "All of the above") ],
    map[
      "poem" := ["premise", "theme", "tone", "length", "rhymeScheme", "poetryStyle", "meter"],
      "imagery" := ["premise", "theme", "tone"],
      "rhyme_meter" := ["rhymeScheme", "meter", "poetryStyle", "premise"],
      "style_tone" := ["tone", "poetryStyle", "premise"],
      "all" := ["premise", "theme", "tone", "length", "rhymeScheme", "poetryStyle", "meter"]],
    map[
      "premise" := "Premise", "theme" := "Theme", "tone" := "Tone", "length" := "Length",
      "rhymeScheme" := "Rhyme scheme", "poetryStyle" := "Style", "meter" := "Meter"])

  const DemoContentTable := Category(
    [ OptionEntry("strategy", "Audience/Platform Strategy"),
      OptionEntry("ideas", "Content Ideas"),
      OptionEntry("script", "Script/Storyboard"),
      OptionEntry("production", "Filming & Production Tips"),
      OptionEntry("growth", "Posting/Optimization & Growth"),
      OptionEntry("all", "All of the above") ],
    map[
      "strategy" := ["audience", "platform", "theme", "growthObjectives"],
      "ideas" := ["audience", "platform", "theme", "format", "tone"],
      "script" := ["theme", "format", "tone", "length", "audience"],
      "production" := ["format", "budget", "platform"],
      "growth" := ["platform", "audience", "schedule", "growthObjectives"],
      "all" := ["audience", "platform", "theme", "format", "tone", "length", "budget", "schedule", "growthObjectives"]],
    map[
      "audience" := "Target audience", "platform" := "Platform", "theme" := "Theme",
      "format" := "Format", "tone" := "Tone", "length" := "Length", "budget" := "Budget",
      "schedule" := "Schedule", "growthObjectives" := "Growth objectives"])

  const DemoSongwritingTable := Category(
    [ OptionEntry("theme", "Theme/Concept"),
      OptionEntry("lyrics", "Lyrics & Wordcraft"),
      OptionEntry("melody", "Melody & Hook"),
      OptionEntry("structure", "Structure/Arrangement"),
      OptionEntry("style", "Style/Genre & Performance tips"),
      OptionEntry("all", "All of the above") ],
    map[
      "theme" := ["genre", "theme", "mood"],
      "lyrics" := ["genre", "theme", "mood", "structure", "length"],
      "melody" := ["genre", "theme", "mood", "melody"],
      "structure" := ["genre", "theme", "structure", "length"],
      "style" := ["genre", "mood", "performanceContext"],
      "all" := ["genre", "theme", "mood", "length", "structure", "melody", "performanceContext"]],
    map[
      "genre" := "Genre", "theme" := "Theme", "mood" := "Mood", "length" := "Length",
      "structure" := "Structure", "melody" := "Melody idea",
      "performanceContext" := "Performance context"])

  /** The table a demo page uses, for the pages that have a demo. */
  function DemoTable(p: Page): Category
    requires p != StageScreen
  {
    match p
    case Poetry => DemoPoetryTable
    case OnlineContent => DemoContentTable
    case Songwriting => DemoSongwritingTable
  }

  // ---------------------------------------------------------------------------
  // Properties
  // ---------------------------------------------------------------------------

  /** A demo page builds the same prompt body as its full page: the copies of
      the tables agree. */
  lemma DemoPromptIsFullPromptBody(p: Page, outputType: string, form: Form)
    requires p != StageScreen
    ensures BuildPrompt(DemoTable(p), outputType, form, false)
            == BuildPrompt(Table(p), outputType, form, false)
    ensures BuildPrompt(Table(p), outputType, form, true)
            == FocusHeader(Table(p), outputType) + BuildPrompt(DemoTable(p), outputType, form, false)
  {
    FullIsHeaderPlusDemo(Table(p), outputType, form);
  }

  /** The "all" option of each page considers every field the page has a
      label for, so any of them that is filled reaches the prompt. */
  lemma AllOptionCoversEveryField(p: Page)
    ensures VisibleFields(Table(p), "all") != []
    ensures forall f :: f in Table(p).labels ==> f in VisibleFields(Table(p), "all")
  {
  }
}

=== FILE: create_subscription.dfy ===
/** The `create-subscription` edge function: it opens a Stripe checkout for
    the monthly price with a trial of `trial_days` days (none once the trial
    has ended) and records the trial's end on the user's subscription row.
    The body's JSON parse, Stripe's answer and the clock are parameters;
    the row update's outcome is only logged, so it is not one. Instants are
    milliseconds. */
module CreateSubscription {
  import opened Wrappers
  import opened Text
  import Subscription

  /** The parsed body; a field that is absent is `None`. */
  datatype Body = Body(userId: Option<string>, email: Option<string>,
                       trialDays: Option<int>, hasTrialEnded: Option<bool>)

  datatype Checkout = Checkout(customerEmail: string, price: string, trialDays: string,
                               successUrl: string, cancelUrl: string, userId: string)

  /** The row update: the trial's end (`null` once the trial has ended). */
  datatype TrialUpdate = TrialUpdate(userId: string, trialEnd: Option<int>)

  datatype Payload = Ok | CheckoutUrl(url: string) | ErrorBody(message: string)

  datatype Response = Response(status: int, payload: Payload)

  const Price := "price_1RHtBRC8j5ZYmSqnvXQJYGzH"
  const DefaultTrialDays := 30
  const MissingFields := "Missing required fields: user_id and email"

  predicate Given(s: Option<string>) {
    s.Some? && s.value != ""
  }

  /** A template literal of the `origin` header: the text `null` when the
      header is absent. */
  function OriginText(origin: Option<string>): (r: string)
    ensures origin.Some? ==> r == origin.value
    ensures origin.None? ==> r == "null"
  {
    if origin.Some? then origin.value else "null"
  }

  /** The trial length Stripe is asked for: `0` once the trial has ended,
      otherwise `trial_days` in decimal. */
  function StripeTrialDays(days: int, ended: bool): (r: string)
    ensures ended ==> ParseInt(r) == Some(0)
    ensures !ended ==> ParseInt(r) == Some(days)
  {
    if ended then
      ParseIntOfIntToString(0);
      IntToString(0)
    else
      ParseIntOfIntToString(days);
      IntToString(days)
  }

  /** The checkout session asked of Stripe for the body `b`: the monthly
      price, the trial Stripe is to grant, and the dashboard of the
      caller's origin on success and on cancel. */
  function CheckoutOf(b: Body, origin: Option<string>): (c: Checkout)
    ensures c.price == Price
    ensures b.hasTrialEnded == Some(true) ==> ParseInt(c.trialDays) == Some(0)
    ensures b.hasTrialEnded != Some(true) ==> ParseInt(c.trialDays) == Some(b.trialDays.GetOr(DefaultTrialDays))
    ensures c.successUrl == OriginText(origin) + "/dashboard?session_id={CHECKOUT_SESSION_ID}"
    ensures c.cancelUrl == OriginText(origin) + "/dashboard"
  {
    var site := OriginText(origin);
    Checkout(b.email.GetOr(""), Price, StripeTrialDays(b.trialDays.GetOr(DefaultTrialDays), b.hasTrialEnded.GetOr(false)),
             site + "/dashboard?session_id={CHECKOUT_SESSION_ID}", site + "/dashboard", b.userId.GetOr(""))
  }

  /** The trial end the row update records: none once the trial has ended,
      otherwise `trial_days` whole days from now (`setDate`). */
  function TrialEndOf(b: Body, now: int): (r: Option<int>)
    ensures r.None? <==> b.hasTrialEnded == Some(true)
    ensures r.Some? ==> r.value == now + b.trialDays.GetOr(DefaultTrialDays) * Subscription.MsPerDay
  {
    if b.hasTrialEnded.GetOr(false) then None else Some(now + b.trialDays.GetOr(DefaultTrialDays) * Subscription.MsPerDay)
  }

  /** The handler. `body` fails with the parse error's message; `stripe`
      is the checkout URL or Stripe's response text; `now` is the clock.
      Returns the checkout requested, the row update made, and the
      response. The outcome of the update is not a parameter: the handler
      logs a failed update and answers the same way. */
  function Handle(isOptions: bool, body: Result<Body, string>, origin: Option<string>,
                  stripe: Result<string, string>, now: int)
    : (out: (Option<Checkout>, Option<TrialUpdate>, Response))
    ensures isOptions ==> out == (None, None, Response(200, Ok))
    ensures !isOptions && body.Failure? ==> out == (None, None, Response(400, ErrorBody(body.error)))
    ensures out.0.Some? <==>
              !isOptions && body.Success? && Given(body.value.userId) && Given(body.value.email)
    ensures out.0.Some? ==>
              out.0.value == CheckoutOf(body.value, origin)
              && out.0.value.customerEmail == body.value.email.value && out.0.value.userId == body.value.userId.value
    ensures !isOptions && body.Success? && out.0.None? ==> out.2 == Response(400, ErrorBody(MissingFields))
    ensures out.1.Some? <==> out.0.Some? && stripe.Success?
    ensures out.1.Some? ==> out.1.value == TrialUpdate(body.value.userId.value, TrialEndOf(body.value, now))
    ensures out.2.status == 200 <==> isOptions || out.1.Some?
    ensures out.1.Some? ==> out.2 == Response(200, CheckoutUrl(stripe.value))
    ensures out.0.Some? && stripe.Failure? ==> out.2 == Response(400, ErrorBody("Stripe API error: " + stripe.error))
  {
    if isOptions then (None, None, Response(200, Ok))
    else
      match body
      case Failure(e) => (None, None, Response(400, ErrorBody(e)))
      case Success(b) =>
        if !(Given(b.userId) && Given(b.email)) then (None, None, Response(400, ErrorBody(MissingFields)))
        else
          var checkout := CheckoutOf(b, origin);
          match stripe
          case Failure(text) => (Some(checkout), None, Response(400, ErrorBody("Stripe API error: " + text)))
          case Success(url) => (Some(checkout), Some(TrialUpdate(b.userId.value, TrialEndOf(b, now))), Response(200, CheckoutUrl(url)))
  }

  // ---------------------------------------------------------------------------
  // Properties
  // ---------------------------------------------------------------------------

  /** The trial Stripe is asked for and the trial end stored agree: no end
      is stored exactly when the trial has ended, and then Stripe is asked
      for no trial; otherwise the stored end lies as many days ahead as
      Stripe's trial lasts. */
  lemma TrialEndAgreesWithStripe(body: Body, origin: Option<string>, url: string, now: int)
    requires Given(body.userId) && Given(body.email)
    ensures var out := Handle(false, Success(body), origin, Success(url), now);
            var c := out.0.value;
            var u := out.1.value;
            && (u.trialEnd.None? <==> body.hasTrialEnded == Some(true))
            && (u.trialEnd.None? ==> ParseInt(c.trialDays) == Some(0))
            && (u.trialEnd.Some? ==>
                  ParseInt(c.trialDays).Some?
                  && u.trialEnd.value == now + ParseInt(c.trialDays).value * Subscription.MsPerDay)
  {
  }

  /** Read back straight away, the stored trial end shows exactly the
      granted number of days left: `trial_days` when given, thirty when
      not. */
  lemma StoredTrialShowsGrantedDays(body: Body, origin: Option<string>, url: string, now: int)
    requires Given(body.userId) && Given(body.email) && body.hasTrialEnded != Some(true)
    requires body.trialDays.GetOr(DefaultTrialDays) >= 0
    ensures var u := Handle(false, Success(body), origin, Success(url), now).1.value;
            Subscription.DaysRemaining(u.trialEnd, now) == body.trialDays.GetOr(DefaultTrialDays)
  {
    var out := Handle(false, Success(body), origin, Success(url), now);
    assert out.1.value.trialEnd == TrialEndOf(body, now);
    TrialEndShowsGrantedDays(body, now);
  }

  lemma TrialEndShowsGrantedDays(body: Body, now: int)
    requires body.hasTrialEnded != Some(true) && body.trialDays.GetOr(DefaultTrialDays) >= 0
    ensures Subscription.DaysRemaining(TrialEndOf(body, now), now) == body.trialDays.GetOr(DefaultTrialDays)
  {
    var days: nat := body.trialDays.GetOr(DefaultTrialDays);
    assert TrialEndOf(body, now) == Some(now + days * Subscription.MsPerDay);
    Subscription.WholeDaysExact(now, days);
  }

  /** The request the browser sends (`createSubscription`): thirty trial
      days, the flag as given, and the user's id and email. A signed-in
      user with an email always gets a checkout URL when Stripe answers. */
  lemma ClientRequestsGetCheckout(userId: string, email: string, ended: bool, origin: Option<string>,
                                  url: string, now: int)
    requires userId != "" && email != ""
    ensures var out := Handle(false, Success(Body(Some(userId), Some(email), Some(30), Some(ended))), origin, Success(url), now);
            && out.2 == Response(200, CheckoutUrl(url))
            && ParseInt(out.0.value.trialDays) == Some(if ended then 0 else 30)
  {
  }
}

=== FILE: demo_quota.dfy ===
/** The demo pages' browser-local quota (`demo-api.js`): a counter kept as
    text under `demo_query_count`, a limit of seven, and the demo request
    that refuses once the limit is reached and counts only successful
    replies. JavaScript's `NaN` is `None`. */
module DemoQuota {
  import opened Wrappers
  import opened Text
  import Api

  const DemoQueryLimit := 7
  const LimitReached := "Demo query limit reached. Please sign up to continue."

  /** The value stored under `demo_query_count`, if any. */
  type Store = Option<string>

  /** `getDemoQueryCount()`: `count ? parseInt(count, 10) : 0`, so a missing
      or empty entry reads as 0 and an unparsable one as `NaN`. */
  function Count(store: Store): (c: Option<int>)
    ensures store.None? || store == Some("") ==> c == Some(0)
    ensures store.Some? && store.value != "" ==> c == ParseInt(store.value)
  {
    match store
    case None => Some(0)
    case Some(s) => if s == "" then Some(0) else ParseInt(s)
  }

  /** `canMakeDemoQuery()`: `count < 7`, which is false for `NaN`. */
  predicate CanMake(store: Store) {
    Count(store).Some? && Count(store).value < DemoQueryLimit
  }

  /** `getDemoQueriesRemaining()`: `Math.max(0, 7 - count)`, `NaN` for `NaN`. */
  function Remaining(store: Store): (r: Option<int>)
    ensures r.Some? <==> Count(store).Some?
    ensures r.Some? ==> r.value >= 0 && r.value >= DemoQueryLimit - Count(store).value
    ensures r.Some? && Count(store).value <= DemoQueryLimit
            ==> r.value + Count(store).value == DemoQueryLimit
    ensures r.Some? && Count(store).value >= DemoQueryLimit ==> r.value == 0
  {
    match Count(store)
    case Some(c) => Some(if DemoQueryLimit - c > 0 then DemoQueryLimit - c else 0)
    case None => None
  }

  /** `incrementDemoQueryCount()`: stores `(count + 1).toString()`; `NaN + 1`
      is stored as the text `NaN`. The counter written back is read back as
      one more: the text round trip through local storage loses nothing. */
  function Increment(store: Store): (r: Store)
    ensures r.Some?
    ensures Count(store).Some? ==> Count(r) == Some(Count(store).value + 1)
  {
    match Count(store)
    case Some(c) =>
      ParseIntOfIntToString(c + 1);
      Some(IntToString(c + 1))
    case None => Some("NaN")
  }

  /** `resetDemoQueryCount()`: the entry is removed, so the counter reads 0. */
  function Reset(store: Store): (r: Store)
    ensures Count(r) == Some(0)
  {
    None
  }

  /** `makeClaudeDemoRequest(messages)`: the request sent (if any), the reply
      text or the thrown message, and the store afterwards. */
  function DemoRequest(store: Store, ms: seq<Api.Message>, reply: Api.Reply)
    : (out: (Option<Api.Request>, Result<string, string>, Store))
    ensures !CanMake(store) ==> out == (None, Failure(LimitReached), store)
    ensures CanMake(store) ==> out.0 == Some(Api.BuildRequest(ms))
    ensures out.1.Success? <==> CanMake(store) && reply.Ok?
    ensures out.2 == (if out.1.Success? then Increment(store) else store)
  {
    if !CanMake(store) then (None, Failure(LimitReached), store)
    else
      var req := Api.BuildRequest(ms);
      match reply
      case Ok(t) => (Some(req), Success(t), Increment(store))
      case NotOk(m) => (Some(req), Failure(Api.ErrorText(m)), store)
  }

  /** The store after a sequence of demo requests, one per reply. */
  function Run(store: Store, replies: seq<Api.Reply>): Store
    decreases |replies|
  {
    if replies == [] then store
    else Run(DemoRequest(store, [], replies[0]).2, replies[1..])
  }

  /** How many of those requests succeeded. */
  function Successes(store: Store, replies: seq<Api.Reply>): nat
    decreases |replies|
  {
    if replies == [] then 0
    else
      var out := DemoRequest(store, [], replies[0]);
      (if out.1.Success? then 1 else 0) + Successes(out.2, replies[1..])
  }

  // ---------------------------------------------------------------------------
  // Properties
  // ---------------------------------------------------------------------------

  /** A demo request is allowed exactly when some of the allowance is left. */
  lemma RemainingIffCanMake(store: Store)
    ensures Remaining(store).Some? && Remaining(store).value > 0 <==> CanMake(store)
  {
  }

  /** Once the counter is unreadable it stays unreadable, and no request is
      ever made again until it is reset. */
  lemma NaNIsSticky(store: Store)
    requires Count(store).None?
    ensures Count(Increment(store)).None?
    ensures !CanMake(store) && Remaining(store).None?
  {
    ParseIntOfNaN();
    assert Increment(store) == Some("NaN");
  }

  /** Resetting the counter re-opens the full allowance. */
  lemma ResetReopens(store: Store)
    ensures CanMake(Reset(store)) && Remaining(Reset(store)) == Some(DemoQueryLimit)
  {
  }

  /** From a store reading `c` (with `0 <= c`), any sequence of demo requests
      succeeds at most `7 - c` times, and the counter then reads exactly `c`
      plus the number of successes. */
  lemma {:induction false} AtMostLimitSuccesses(store: Store, replies: seq<Api.Reply>)
    requires Count(store).Some? && 0 <= Count(store).value
    ensures Count(Run(store, replies)).Some?
    ensures Count(Run(store, replies)).value == Count(store).value + Successes(store, replies)
    ensures Count(store).value <= DemoQueryLimit
            ==> Successes(store, replies) <= DemoQueryLimit - Count(store).value
    ensures Count(store).value > DemoQueryLimit ==> Successes(store, replies) == 0
    decreases |replies|
  {
    if replies != [] {
      var out := DemoRequest(store, [], replies[0]);
      AtMostLimitSuccesses(out.2, replies[1..]);
    }
  }

  /** A fresh browser gets at most seven demo answers. */
  lemma FreshBrowserGetsSeven(replies: seq<Api.Reply>)
    ensures Successes(None, replies) <= DemoQueryLimit
  {
    AtMostLimitSuccesses(None, replies);
  }
}

=== FILE: demo_tracking.dfy ===
/** Anonymous usage tracking of the demo pages (`demo-tracking.js`): a
    session id created once per browser, the signed-in test that switches
    tracking off, and the event wrappers. Local storage is a map;
    `crypto.randomUUID` is a parameter. The request itself is sent and its
    failures swallowed, so the caller never sees an outcome. */
module DemoTracking {
  import opened Wrappers

  /** The browser's local storage. */
  type Storage = map<string, string>

  const SessionKey := "demo_session_id"

  /** The body POSTed to the tracking function. The browser metadata is
      opaque here: a map of text fields. */
  datatype Body = Body(
    sessionId: string,
    page: string,
    eventType: string,
    promptExcerpt: Option<string>,
    metadata: map<string, string>)

  /** `getSessionId()`: the stored id when there is a non-empty one,
      otherwise `demo_` and a fresh UUID, stored for next time. */
  function GetSessionId(store: Storage, uuid: string): (out: (string, Storage))
    ensures SessionKey in store && store[SessionKey] != "" ==> out == (store[SessionKey], store)
    ensures !(SessionKey in store && store[SessionKey] != "") ==>
              out.0 == "demo_" + uuid && out.1 == store[SessionKey := out.0]
  {
    if SessionKey in store && store[SessionKey] != "" then (store[SessionKey], store)
    else
      var id := "demo_" + uuid;
      (id, store[SessionKey := id])
  }

  /** `isUserAuthenticated()`: the `isAuthenticated` flag is the text `true`,
      or a `userId` is stored at all. */
  predicate IsUserAuthenticated(store: Storage) {
    ("isAuthenticated" in store && store["isAuthenticated"] == "true") || "userId" in store
  }

  /** `trackDemoUsage(page, eventType, promptExcerpt)`: nothing for a
      signed-in browser; otherwise the body sent, and the storage with the
      session id it used. */
  function Track(store: Storage, page: string, eventType: string, excerpt: Option<string>,
                 uuid: string, metadata: map<string, string>): (out: (Option<Body>, Storage))
    ensures IsUserAuthenticated(store) ==> out == (None, store)
    ensures !IsUserAuthenticated(store) ==>
              out.0.Some?
              && out.0.value == Body(GetSessionId(store, uuid).0, page, eventType, excerpt, metadata)
              && out.1 == GetSessionId(store, uuid).1
  {
    if IsUserAuthenticated(store) then (None, store)
    else
      var (id, after) := GetSessionId(store, uuid);
      (Some(Body(id, page, eventType, excerpt, metadata)), after)
  }

  /** `trackDemoPageView(page)`. */
  function TrackPageView(store: Storage, page: string, uuid: string, metadata: map<string, string>)
    : (out: (Option<Body>, Storage))
    ensures out.0.None? <==> IsUserAuthenticated(store)
    ensures out.0.Some? ==> out.0.value.eventType == "start_demo" && out.0.value.promptExcerpt.None?
  {
    Track(store, page, "start_demo", None, uuid, metadata)
  }

  /** The two events that carry the user's text. */
  datatype PromptEvent = Generation | FollowUp

  /** The event type each is sent as. */
  function EventName(e: PromptEvent): string {
    match e
    case Generation => "generate_content"
    case FollowUp => "follow_up"
  }

  /** `trackDemoGeneration(page, promptExcerpt)` and
      `trackDemoFollowUp(page, promptExcerpt)`: the same call with the event
      type fixed. */
  function TrackPrompt(e: PromptEvent, store: Storage, page: string, excerpt: string, uuid: string,
                       metadata: map<string, string>): (out: (Option<Body>, Storage))
    ensures out.0.None? <==> IsUserAuthenticated(store)
    ensures out.0.Some? ==> out.0.value.eventType == EventName(e) && out.0.value.promptExcerpt == Some(excerpt)
  {
    Track(store, page, EventName(e), Some(excerpt), uuid, metadata)
  }

  // ---------------------------------------------------------------------------
  // Properties
  // ---------------------------------------------------------------------------

  /** The id is created once: a second call, with any fresh UUID, returns
      the id of the first and leaves the storage as the first left it. */
  lemma SessionIdIsStable(store: Storage, uuid1: string, uuid2: string)
    ensures var (id1, s1) := GetSessionId(store, uuid1);
            GetSessionId(s1, uuid2) == (id1, s1)
  {
  }

  /** All events of an anonymous browser carry the same session id: the
      body of a later event names the session of the first. */
  lemma EventsShareSession(store: Storage, page1: string, ev1: string, x1: Option<string>, uuid1: string,
                           page2: string, ev2: string, x2: Option<string>, uuid2: string, meta: map<string, string>)
    requires !IsUserAuthenticated(store)
    ensures var (b1, s1) := Track(store, page1, ev1, x1, uuid1, meta);
            var (b2, s2) := Track(s1, page2, ev2, x2, uuid2, meta);
            b1.Some? && b2.Some? && b1.value.sessionId == b2.value.sessionId
  {
    var (b1, s1) := Track(store, page1, ev1, x1, uuid1, meta);
    SessionIdIsStable(store, uuid1, uuid2);
    assert !IsUserAuthenticated(s1);
  }

  /** Every session id the browser sends is non-empty. */
  lemma SessionIdNonEmpty(store: Storage, uuid: string)
    ensures GetSessionId(store, uuid).0 != ""
  {
  }
}

=== FILE: entitlement.dfy ===
/** The `useQueries` hook: the per-user entitlement gate every full writing
    page consults before calling the model, the optional history write it
    can make, and the free-tier counter it decrements. The database and the
    session are parameters: the row read, whether each write succeeds. */
module Entitlement {
  import opened Wrappers

  /** The fields of a `user_subscriptions` row the gate reads. */
  datatype Row = Row(isAdmin: bool, isSubscribed: bool, queriesRemaining: int, queriesUsed: int)

  /** The outcome of `select('*').eq('user_id', …).single()`: a row, the
      no-row error `PGRST116` (which the hook ignores), or any other error. */
  datatype RowRead = Found(row: Row) | NoRow | ReadError

  /** A database write that took effect. */
  datatype Write =
    | InsertHistory(queryType: string, queryText: string, responseText: string)
    | UpdateHistory(id: string, queryText: string, responseText: string)
    | UpdateCounters(queriesUsed: int, queriesRemaining: int)

  /** `{ success, reason }` as the hook returns it. */
  datatype QueryResult = Granted | Refused(reason: string)

  /** The result, the writes that took effect, and the hook's local copy of
      the row afterwards. */
  datatype Outcome = Outcome(result: QueryResult, writes: seq<Write>, local: Option<Row>)

  const NotAuthenticated := "Not authenticated"
  const SubscribeOrRenew := "Please subscribe or renew to continue."
  const CouldNotVerify := "Could not verify subscription status."

  /** `is_admin || is_subscribed || queries_remaining > 0` on the row, with a
      missing row counting as no entitlement. */
  predicate CanQuery(row: Option<Row>) {
    row.Some? && (row.value.isAdmin || row.value.isSubscribed || row.value.queriesRemaining > 0)
  }

  /** The row as the gate sees it: present, absent, or unreadable. */
  function RowOf(read: RowRead): Option<Row> {
    match read
    case Found(r) => Some(r)
    case _ => None
  }

  /** A free-tier row: neither admin nor subscribed, so its counter applies. */
  predicate OnFreeTier(r: Row) {
    !r.isAdmin && !r.isSubscribed
  }

  /** One query consumed: `queries_used + 1` and `max(0, queries_remaining - 1)`. */
  function Consume(r: Row): (c: Row)
    ensures c.isAdmin == r.isAdmin && c.isSubscribed == r.isSubscribed
    ensures c.queriesUsed == r.queriesUsed + 1
    ensures c.queriesRemaining >= 0
    ensures r.queriesRemaining > 0 ==> c.queriesRemaining == r.queriesRemaining - 1
    ensures r.queriesRemaining <= 0 ==> c.queriesRemaining == 0
  {
    r.(queriesUsed := r.queriesUsed + 1,
       queriesRemaining := if r.queriesRemaining - 1 > 0 then r.queriesRemaining - 1 else 0)
  }

  /** The functional `setSubscriptionData(prev => …)` bump of the local copy;
      with no local copy it yields an object holding only the two counters. */
  function BumpLocal(prev: Option<Row>): (r: Row)
    ensures prev.Some? ==> r == Consume(prev.value)
    ensures prev.None? ==> r == Row(false, false, 0, 1)
  {
    match prev
    case Some(p) => Consume(p)
    case None => Consume(Row(false, false, 0, 0))
  }

  /** `handleQuery(queryType, queryText, responseText, shouldSave,
      conversationIdToUpdate)`. The database outcomes are parameters:
      `read` is the subscription read, `write` the outcome of the history
      insert or update (an error message on failure), `counterWriteOk`
      whether the counter update succeeds. */
  function HandleQuery(
    user: Option<string>, read: RowRead, local: Option<Row>,
    queryType: string, queryText: string, responseText: string,
    shouldSave: bool, updateId: Option<string>,
    write: Result<(), string>, counterWriteOk: bool): (out: Outcome)
    // Nothing is granted without a signed-in user and an entitled row.
    ensures out.result.Granted?
            <==> (user.Some? && read != ReadError && CanQuery(RowOf(read)) && (shouldSave ==> write.Success?))
    ensures user.None? ==> out.result == Refused(NotAuthenticated)
    ensures user.Some? && read == ReadError ==> out.result == Refused(CouldNotVerify)
    ensures user.Some? && read != ReadError && !CanQuery(RowOf(read))
            ==> out.result == Refused(SubscribeOrRenew)
    ensures (shouldSave && write.Failure? && user.Some? && read != ReadError && CanQuery(RowOf(read)))
            ==> out.result == Refused(write.error)
    // Writes happen only on a granted, saving call.
    ensures out.writes != [] ==> out.result.Granted? && shouldSave
    ensures out.result.Refused? ==> out.local == local
    ensures !shouldSave ==> out.writes == [] && out.local == local
  {
    if user.None? then
      Outcome(Refused(NotAuthenticated), [], local)
    else if read == ReadError then
      Outcome(Refused(CouldNotVerify), [], local)
    else if !CanQuery(RowOf(read)) then
      Outcome(Refused(SubscribeOrRenew), [], local)
    else if !shouldSave then
      Outcome(Granted, [], local)
    else if write.Failure? then
      Outcome(Refused(write.error), [], local)
    else if updateId.Some? && updateId.value != "" then
      Outcome(Granted, [UpdateHistory(updateId.value, queryText, responseText)], Some(BumpLocal(local)))
    else
      var row := RowOf(read).value;
      var insert := InsertHistory(queryType, queryText, responseText);
      if OnFreeTier(row) && counterWriteOk then
        var c := Consume(row);
        Outcome(Granted, [insert, UpdateCounters(c.queriesUsed, c.queriesRemaining)], Some(BumpLocal(local)))
      else
        Outcome(Granted, [insert], local)
  }

  /** The stored row after the writes of one call. */
  function ApplyWrites(r: Row, writes: seq<Write>): (s: Row)
    ensures s.isAdmin == r.isAdmin && s.isSubscribed == r.isSubscribed
    decreases |writes|
  {
    if writes == [] then r
    else
      var next := match writes[0]
        case UpdateCounters(u, rem) => r.(queriesUsed := u, queriesRemaining := rem)
        case _ => r;
      ApplyWrites(next, writes[1..])
  }

  /** The hook's derived `isTrialExpired`. */
  predicate TrialExpiredView(local: Option<Row>) {
    local.Some? && local.value.queriesRemaining <= 0 && !local.value.isSubscribed && !local.value.isAdmin
  }

  /** The hook's derived `queriesRemaining` (`|| 0`). */
  function RemainingView(local: Option<Row>): int {
    if local.Some? then local.value.queriesRemaining else 0
  }

  // ---------------------------------------------------------------------------
  // Properties
  // ---------------------------------------------------------------------------

  /** A saving call on a free-tier row with every write succeeding consumes
      exactly one query from the stored row, and an admin or subscribed row
      is never charged. */
  lemma SavingCallCharges(user: string, r: Row, queryType: string, q: string, resp: string)
    requires CanQuery(Some(r))
    ensures var out := HandleQuery(Some(user), Found(r), Some(r), queryType, q, resp, true, None, Success(()), true);
            && out.result.Granted?
            && ApplyWrites(r, out.writes) == (if OnFreeTier(r) then Consume(r) else r)
            && out.local == (if OnFreeTier(r) then Some(Consume(r)) else Some(r))
  {
    var out := HandleQuery(Some(user), Found(r), Some(r), queryType, q, resp, true, None, Success(()), true);
    if OnFreeTier(r) {
      var c := Consume(r);
      assert out.writes == [InsertHistory(queryType, q, resp), UpdateCounters(c.queriesUsed, c.queriesRemaining)];
      assert ApplyWrites(r, out.writes) == ApplyWrites(r, out.writes[1..]);
      assert out.writes[1..][1..] == [];
    } else {
      assert out.writes == [InsertHistory(queryType, q, resp)];
      assert out.writes[1..] == [];
    }
  }

  /** The stored row after `k` granted saving calls in a row. */
  function AfterSaves(r: Row, k: nat): Row {
    if k == 0 then r else Consume(AfterSaves(r, k - 1))
  }

  /** A free-tier row with `n` queries left grants exactly `n` more saving
      calls: after `k` of them it still grants iff `k < n`, its remaining
      count is `n - k` (never below zero) and `k` more queries are recorded
      as used. */
  lemma {:induction false} FreeTierAllowance(r: Row, k: nat)
    requires OnFreeTier(r) && r.queriesRemaining >= 0
    ensures AfterSaves(r, k).queriesRemaining == (if k < r.queriesRemaining then r.queriesRemaining - k else 0)
    ensures AfterSaves(r, k).queriesUsed == r.queriesUsed + k
    ensures OnFreeTier(AfterSaves(r, k))
    ensures CanQuery(Some(AfterSaves(r, k))) <==> k < r.queriesRemaining
  {
    if k > 0 {
      FreeTierAllowance(r, k - 1);
    }
  }

  /** Each call of `AfterSaves` is exactly the stored effect of one granted,
      saving call through the hook. */
  lemma AfterSavesIsHookEffect(user: string, r: Row, k: nat, queryType: string, q: string, resp: string)
    requires OnFreeTier(r) && k < r.queriesRemaining && r.queriesRemaining >= 0
    ensures var s := AfterSaves(r, k);
            var out := HandleQuery(Some(user), Found(s), Some(s), queryType, q, resp, true, None, Success(()), true);
            ApplyWrites(s, out.writes) == AfterSaves(r, k + 1)
  {
    FreeTierAllowance(r, k);
    SavingCallCharges(user, AfterSaves(r, k), queryType, q, resp);
  }

  /** The pages call the hook with `shouldSave = false`: such a call never
      writes and never changes a counter, so a free-tier user is not charged
      by the writing pages. */
  lemma CheckOnlyCallsAreFree(user: Option<string>, read: RowRead, local: Option<Row>,
                              queryType: string, q: string, write: Result<(), string>, ok: bool)
    ensures var out := HandleQuery(user, read, local, queryType, q, "", false, None, write, ok);
            out.writes == [] && out.local == local
            && (out.result.Granted? <==> user.Some? && read != ReadError && CanQuery(RowOf(read)))
  {
  }

  /** For a loaded free-tier row, the count the hook shows is positive
      exactly when the gate lets a query through, and otherwise the hook
      reports the trial expired; with no row loaded it shows 0. */
  lemma RemainingViewMatchesGate(local: Option<Row>)
    ensures local.None? ==> RemainingView(local) == 0
    ensures local.Some? && OnFreeTier(local.value)
            ==> (RemainingView(local) > 0 <==> CanQuery(local))
                && (RemainingView(local) <= 0 <==> TrialExpiredView(local))
  {
  }

  /** The hook's `isTrialExpired` flag is exactly the gate's refusal for a
      row it has loaded; with no row loaded the flag is off although the gate
      refuses. */
  lemma TrialExpiredMatchesGate(local: Option<Row>)
    ensures local.Some? ==> (TrialExpiredView(local) <==> !CanQuery(local))
    ensures local.None? ==> !TrialExpiredView(local) && !CanQuery(local)
  {
  }
}

=== FILE: history.dfy ===
/** `UnifiedHistory`: the history page of one section. It lists the user's
    thread roots and legacy rows whose query type belongs to the section,
    shows each through `cleanHistoryText`, deletes entries from its local
    list, and downloads an entry as text. The store's read and its
    `created_at` ordering are the caller's: rows arrive in store order. */
module History {
  import opened Wrappers
  import opened Text
  import opened Categories
  import opened Thread
  import opened HistoryText
  import Seqs

  /** `SECTION_TO_QUERY_TYPES`: the legacy and unified query types of each
      section. `stage_screen` repeats `stage` for a route spelt that way. */
  const SectionTypes: map<string, seq<string>> := map[
    "prose" := ["fictional_prose_unified", "world_building", "character_development",
                "style_enhancement", "story_outline"],
    "poetry" := ["poetry_unified", "poetry_form_structure", "poetry_language_imagery",
                 "poetry_rhyme_rhythm", "poetry_style_voice"],
    "nonfiction" := ["nonfiction_unified", "research_fact_checking", "organization_structure",
                     "voice_tone_development", "clarity_conciseness", "engaging_openings_conclusions"],
    "content" := ["content_creation_unified", "audience_platform_strategy", "content_idea_generation",
                  "scripting_storyboarding", "filming_production_tips", "posting_optimization_growth"],
    "songwriting" := ["songwriting_unified", "theme_concept_development", "lyrics_wordcraft",
                      "melody_hook_creation", "song_structure_arrangement", "style_genre_performance_tips"],
    "stage" := ["stage_screen_unified", "scene_structure_pacing", "dialogue_crafting",
                "character_arcs_dynamics", "visual_staging_suggestions"],
    "stage_screen" := ["stage_screen_unified", "scene_structure_pacing", "dialogue_crafting",
                       "character_arcs_dynamics", "visual_staging_suggestions"]]

  /** `QUERYTYPE_TO_LABEL`: display names of the query types. */
  const TypeLabels: map<string, string> := map[
    "world_building" := "World Building",
    "character_development" := "Character Development",
    "style_enhancement" := "Style Enhancement",
    "story_outline" := "Story Outline",
    "poetry_form_structure" := "Form & Structure",
    "poetry_language_imagery" := "Language & Imagery",
    "poetry_rhyme_rhythm" := "Rhyme & Rhythm",
    "poetry_style_voice" := "Style & Voice",
    "research_fact_checking" := "Research & Fact-Checking",
    "organization_structure" := "Organization & Structure",
    "voice_tone_development" := "Voice & Tone",
    "clarity_conciseness" := "Clarity & Conciseness",
    "engaging_openings_conclusions" := "Engaging Openings & Conclusions",
    "audience_platform_strategy" := "Audience & Platform Strategy",
    "content_idea_generation" := "Content Idea Generation",
    "scripting_storyboarding" := "Scripting & Storyboarding",
    "filming_production_tips" := "Filming & Production Tips",
    "posting_optimization_growth" := "Posting, Optimization & Growth",
    "theme_concept_development" := "Theme & Concept Development",
    "lyrics_wordcraft" := "Lyrics & Wordcraft",
    "melody_hook_creation" := "Melody & Hook Creation",
    "song_structure_arrangement" := "Song Structure & Arrangement",
    "style_genre_performance_tips" := "Style, Genre & Performance Tips",
    "scene_structure_pacing" := "Scene Structure & Pacing",
    "dialogue_crafting" := "Dialogue Crafting",
    "character_arcs_dynamics" := "Character Arcs & Dynamics",
    "visual_staging_suggestions" := "Visual & Staging Suggestions",
    "fictional_prose_unified" := "Unified Prompt",
    "poetry_unified" := "Unified Prompt",
    "nonfiction_unified" := "Unified Prompt",
    "content_creation_unified" := "Unified Prompt",
    "songwriting_unified" := "Unified Prompt",
    "stage_screen_unified" := "Unified Prompt"]

  /** The query types a section lists: its table entry, or for a section
      the table does not know, the section itself and its `_unified` form. */
  function QueryTypesFor(section: string): (types: seq<string>)
    ensures section in SectionTypes ==> types == SectionTypes[section]
    ensures section !in SectionTypes ==> types == [section, section + "_unified"]
  {
    if section in SectionTypes then SectionTypes[section] else [section, section + "_unified"]
  }

  /** `labelFor(qt)`: the display name, or the query type itself. Every
      display name is non-empty, so `||` falls back only on a missing key. */
  function LabelFor(qt: string): (name: string)
    ensures qt in TypeLabels ==> name == TypeLabels[qt]
    ensures qt !in TypeLabels ==> name == qt
  {
    if qt in TypeLabels then TypeLabels[qt] else qt
  }

  /** A stored `query_history` row with its key. */
  datatype Stored = Stored(id: string, row: Row)

  /** The read's three filters: the user's rows, of a listed type, that are
      thread roots or predate threads (`is_thread_root` true or null). */
  predicate Listed(userId: string, section: string, s: Stored) {
    && s.row.userId == userId
    && s.row.queryType in QueryTypesFor(section)
    && s.row.isThreadRoot != Some(false)
  }

  /** The rows the page lists, in store order. */
  function Fetch(userId: string, section: string, rows: seq<Stored>): (r: seq<Stored>)
    ensures |r| <= |rows|
    ensures forall s :: s in r <==> s in rows && Listed(userId, section, s)
  {
    Seqs.Filter(s => Listed(userId, section, s), rows)
  }

  /** An entry as the page holds it. */
  datatype Item = Item(
    id: string,
    queryType: string,
    subcategory: string,
    promptMd: string,
    responseMd: string,
    fullConversation: Option<seq<Turn>>)

  /** The page's normalisation of a fetched row. An empty stored
      conversation is an array, which is truthy, so it is kept as it is. */
  function Normalize(s: Stored): (item: Item)
    ensures item.id == s.id && item.queryType == s.row.queryType
    ensures item.subcategory == LabelFor(s.row.queryType)
    ensures item.promptMd == CleanText(Some(s.row.queryText))
    ensures item.responseMd == CleanText(Some(s.row.responseText))
    ensures item.fullConversation == s.row.history
  {
    Item(s.id, s.row.queryType, LabelFor(s.row.queryType),
         CleanText(Some(s.row.queryText)), CleanText(Some(s.row.responseText)), s.row.history)
  }

  /** The fetch effect: nothing without a user or when the read fails,
      otherwise every listed row, normalised, in store order. */
  function Load(user: Option<string>, section: string, read: Result<seq<Stored>, string>): (items: seq<Item>)
    ensures user.None? || read.Failure? ==> items == []
    ensures user.Some? && read.Success? ==>
              |items| == |Fetch(user.value, section, read.value)|
              && forall i :: 0 <= i < |items| ==> items[i] == Normalize(Fetch(user.value, section, read.value)[i])
  {
    match (user, read)
    case (Some(u), Success(rows)) =>
      var listed := Fetch(u, section, rows);
      seq(|listed|, i requires 0 <= i < |listed| => Normalize(listed[i]))
    case _ => []
  }

  /** `handleDelete(id)` after the store's delete succeeded: the local list
      without the entries of that id. */
  function Remove(items: seq<Item>, id: string): (r: seq<Item>)
    ensures |r| <= |items|
    ensures forall x :: x in r <==> x in items && x.id != id
  {
    Seqs.Filter((x: Item) => x.id != id, items)
  }

  /** `handleDownload(entry)`: the thread's transcript when the entry has a
      non-empty conversation, else the cleaned prompt and response. */
  function Download(item: Item): (text: string)
    ensures item.fullConversation.Some? && item.fullConversation.value != [] ==>
              Some(text) == PageDownload(item.fullConversation.value)
    ensures item.fullConversation.None? || item.fullConversation.value == [] ==>
              text == "**Prompt:**\n" + item.promptMd + "\n\n**Response:**\n" + item.responseMd
  {
    match item.fullConversation
    case Some(h) =>
      if h != [] then Transcript(h)
      else "**Prompt:**\n" + item.promptMd + "\n\n**Response:**\n" + item.responseMd
    case None => "**Prompt:**\n" + item.promptMd + "\n\n**Response:**\n" + item.responseMd
  }

  /** The heading the detail view puts over a turn. */
  function TurnHeading(t: Turn, index: nat): string {
    if t.role == "user" then
      (if index == 0 then "Initial Prompt:" else "Follow-up " + IntToString(index / 2) + ":")
    else "Response:"
  }

  /** The card's preview: the first 150 characters of the cleaned prompt and
      an ellipsis, whether or not anything was cut. */
  function Preview(queryText: Option<string>): (p: string)
    ensures 3 <= |p| <= 153
    ensures p[|p| - 3..] == "..."
    ensures p[..|p| - 3] <= CleanText(queryText)
    ensures |p| - 3 == if |CleanText(queryText)| <= 150 then |CleanText(queryText)| else 150
    ensures |CleanText(queryText)| <= 150 ==> p == CleanText(queryText) + "..."
  {
    var c := CleanText(queryText);
    (if |c| <= 150 then c else c[..150]) + "..."
  }

  // ---------------------------------------------------------------------------
  // Properties
  // ---------------------------------------------------------------------------

  /** The listing keeps the store's order: it is the store's rows with the
      unlisted ones left out, so listing a concatenation lists each part. */
  lemma FetchAppend(userId: string, section: string, a: seq<Stored>, b: seq<Stored>)
    ensures Fetch(userId, section, a + b) == Fetch(userId, section, a) + Fetch(userId, section, b)
  {
    Seqs.FilterAppend(s => Listed(userId, section, s), a, b);
  }

  /** Deleting an id present once removes exactly that entry and keeps the
      others in order. */
  lemma RemoveExactlyOne(before: seq<Item>, x: Item, after: seq<Item>)
    requires forall y :: y in before ==> y.id != x.id
    requires forall y :: y in after ==> y.id != x.id
    ensures Remove(before + [x] + after, x.id) == before + after
  {
    calc {
      Remove(before + [x] + after, x.id);
    == { RemoveAppend(before + [x], after, x.id); }
      Remove(before + [x], x.id) + Remove(after, x.id);
    == { RemoveAppend(before, [x], x.id); }
      Remove(before, x.id) + Remove([x], x.id) + Remove(after, x.id);
    == { RemoveNone(before, x.id); RemoveNone(after, x.id); RemoveOnly(x); }
      before + [] + after;
    }
    assert before + [] + after == before + after;
  }

  /** Deleting the id of a one-entry list empties it. */
  lemma RemoveOnly(x: Item)
    ensures Remove([x], x.id) == []
  {
    assert [x][1..] == [];
  }

  /** Removal distributes over concatenation. */
  lemma RemoveAppend(a: seq<Item>, b: seq<Item>, id: string)
    ensures Remove(a + b, id) == Remove(a, id) + Remove(b, id)
  {
    Seqs.FilterAppend((x: Item) => x.id != id, a, b);
  }

  /** Deleting an id no entry has leaves the list as it was. */
  lemma RemoveNone(items: seq<Item>, id: string)
    requires forall y :: y in items ==> y.id != id
    ensures Remove(items, id) == items
  {
    Seqs.FilterKeepsAll((x: Item) => x.id != id, items);
  }

  /** In an alternating thread the detail view's headings and the download
      agree: exchange `k` is the "Initial Prompt" for `k = 0` and
      "Follow-up k" after, where the download numbers it "User Query k+1". */
  lemma HeadingsMatchTranscript(h: seq<Turn>, k: nat)
    requires Alternating(h) && 2 * k + 1 < |h|
    ensures TurnHeading(h[2 * k], 2 * k) == (if k == 0 then "Initial Prompt:" else "Follow-up " + IntToString(k) + ":")
    ensures TurnHeading(h[2 * k + 1], 2 * k + 1) == "Response:"
  {
    assert h[2 * k].role == "user";
    assert h[2 * k + 1].role == "assistant";
    assert (2 * k) / 2 == k;
  }

  /** An unknown section lists its own name and the `_unified` type, so a
      page whose section and query type follow that pattern is listed. */
  lemma FallbackListsSection(section: string)
    requires section !in SectionTypes
    ensures section in QueryTypesFor(section) && section + "_unified" in QueryTypesFor(section)
  {
  }

  /** The rows Poetry, OnlineContent and Songwriting save carry a type their
      own section lists, so each row they insert appears on that section's
      history page; with the corrected save, StageScreen's rows do too. */
  lemma SavedRowsAreListed(p: Page, user: Option<string>, prompt: string, response: string,
                           sessionId: Option<string>, isFollowUp: bool, freshId: string, now: string,
                           existing: Result<Existing, string>, writeOk: bool, id: string)
    ensures var out := SaveToHistory(p, user, prompt, response, sessionId, isFollowUp, freshId, now, existing, writeOk);
            p != StageScreen && out.write.InsertRow? ==>
              Fetch(user.value, Section(p), [Stored(id, out.write.row)]) == [Stored(id, out.write.row)]
    ensures var out := CorrectedSave(p, user, prompt, response, sessionId, isFollowUp, freshId, now, existing, writeOk);
            out.write.InsertRow? ==>
              Fetch(user.value, Section(p), [Stored(id, out.write.row)]) == [Stored(id, out.write.row)]
  {
    var out := CorrectedSave(p, user, prompt, response, sessionId, isFollowUp, freshId, now, existing, writeOk);
    if out.write.InsertRow? {
      SavedTypeListed(p);
    }
  }

  /** The corrected query type of each page is in its section's list. */
  lemma SavedTypeListed(p: Page)
    ensures SavedQueryType(p) in QueryTypesFor(Section(p))
  {
    match p
    case Poetry => assert SectionTypes["poetry"][0] == "poetry_unified";
    case OnlineContent => assert SectionTypes["content"][0] == "content_creation_unified";
    case Songwriting => assert SectionTypes["songwriting"][0] == "songwriting_unified";
    case StageScreen => assert SectionTypes["stage"][0] == "stage_screen_unified";
  }

  /** As written, StageScreen saves its rows as `stage`, a type no stage
      list holds: none of its rows reaches the history page it links to. */
  lemma StageRowsHiddenAsWritten(userId: string, s: Stored)
    requires s.row.queryType == SavedQueryTypeAsWritten(StageScreen)
    ensures Fetch(userId, Section(StageScreen), [s]) == []
    ensures Fetch(userId, "stage_screen", [s]) == []
  {
    var types := SectionTypes["stage"];
    assert types == SectionTypes["stage_screen"];
    assert forall i :: 0 <= i < |types| ==> |types[i]| > 5;
    assert s.row.queryType == "stage";
    assert s.row.queryType !in types;
  }
}

=== FILE: history_entry.dfy ===
/** `cleanHistoryEntry(queryText, responseText)`: a stored query as the
    history view shows it. The main prompt (before the first
    `--- Follow-ups ---`) keeps its non-blank lines other than the metadata
    lines; each later part contributes its first `**User:**` line as a
    numbered follow-up. The response passes through unchanged. */
module HistoryEntry {
  import opened Wrappers
  import opened Text
  import opened HistoryText
  import opened Seqs

  const UserTag := "**User:**"

  datatype Entry = Entry(prompt: string, response: string)

  /** `line.trim() !== ''`. */
  predicate NonBlank(line: string) {
    !IsBlank(line)
  }

  /** The metadata lines dropped from the main prompt. */
  predicate IsMeta(line: string) {
    StartsWith(line, "Output Type Requested:") || StartsWith(line, "Creative Parameters:") || StartsWith(line, "---")
  }

  /** `part.split('\n').filter(line => line.trim() !== '')`. */
  function NonBlankLines(part: string): (r: seq<string>)
    ensures forall x :: x in r <==> x in Split(part, "\n") && NonBlank(x)
  {
    Filter(l => NonBlank(l), Split(part, "\n"))
  }

  /** The lines the initial prompt keeps: non-blank and not metadata. */
  function KeptLines(main: string): (r: seq<string>)
    ensures forall x :: x in r <==> x in Split(main, "\n") && NonBlank(x) && !IsMeta(x)
  {
    Filter(l => !IsMeta(l), NonBlankLines(main))
  }

  /** The `**Initial Prompt:**` section, present when the main part has a
      non-blank line, even if every such line is metadata. */
  function InitialSection(main: string): (r: seq<string>)
    ensures r == [] <==> NonBlankLines(main) == []
    ensures r != [] ==> r == ["**Initial Prompt:**\n" + Join(KeptLines(main), "\n")]
  {
    if NonBlankLines(main) == [] then [] else ["**Initial Prompt:**\n" + Join(KeptLines(main), "\n")]
  }

  /** Where `followUpLines.find(line => line.startsWith('**User:**'))`
      finds its line: the first tagged line, if any. */
  function FirstUserLine(lines: seq<string>): (r: Option<nat>)
    ensures r.None? <==> forall i :: 0 <= i < |lines| ==> !StartsWith(lines[i], UserTag)
    ensures r.Some? ==> r.value < |lines| && StartsWith(lines[r.value], UserTag)
    ensures r.Some? ==> forall j :: 0 <= j < r.value ==> !StartsWith(lines[j], UserTag)
  {
    if lines == [] then None
    else if StartsWith(lines[0], UserTag) then Some(0)
    else
      match FirstUserLine(lines[1..])
      case None => None
      case Some(k) => Some(k + 1)
  }

  /** The heading of follow-up `n`. */
  function FollowUpHeading(n: nat): string {
    "**Follow-up " + IntToString(n) + ":**\n"
  }

  /** A section headed as follow-up `n`. */
  predicate Numbered(section: string, n: nat) {
    StartsWith(section, FollowUpHeading(n))
  }

  /** A follow-up part with a `**User:**` line. */
  predicate Tagged(part: string) {
    FirstUserLine(NonBlankLines(part)).Some?
  }

  /** The question a follow-up part asks: its first `**User:**` line with
      the tag removed and trimmed. The tagged line starts with the tag, so
      `replace` removes exactly it. */
  function Question(part: string): (r: Option<string>)
    ensures r.Some? <==> Tagged(part)
    ensures r.Some? ==> IsTrimmed(r.value)
    ensures match FirstUserLine(NonBlankLines(part))
            case None => r.None?
            case Some(k) => r == Some(Trim(NonBlankLines(part)[k][|UserTag|..]))
  {
    match FirstUserLine(NonBlankLines(part))
    case None => None
    case Some(k) => Some(Trim(NonBlankLines(part)[k][|UserTag|..]))
  }

  /** The section follow-up part `i` contributes: its question, headed
      `**Follow-up i:**`. */
  function FollowUpSection(part: string, i: nat): (r: seq<string>)
    ensures r == [] <==> !Tagged(part)
    ensures r != [] ==> |r| == 1 && Numbered(r[0], i)
  {
    match Question(part)
    case None => []
    case Some(q) =>
      var head := FollowUpHeading(i);
      var s := head + q;
      assert s[..|head|] == head;
      [s]
  }

  /** The sections `section` makes of parts `from` onwards, in order. */
  function Gather(parts: seq<string>, from: nat, section: (string, nat) -> seq<string>): seq<string>
    decreases |parts| - from
  {
    if from >= |parts| then [] else section(parts[from], from) + Gather(parts, from + 1, section)
  }

  /** The sections of parts `from` onwards, each numbered by its part. */
  function FollowUpSections(parts: seq<string>, from: nat): seq<string> {
    Gather(parts, from, FollowUpSection)
  }

  /** `cleanHistoryEntry(queryText, responseText)`. */
  function CleanEntry(queryText: Option<string>, responseText: Option<string>): (e: Entry)
    ensures queryText.None? || queryText == Some("") ==> e.prompt == ""
    ensures e.response == responseText.GetOr("")
  {
    var response := responseText.GetOr("");
    match queryText
    case None => Entry("", response)
    case Some(q) =>
      if q == "" then Entry("", response)
      else
        var parts := Split(q, FollowUpsMarker);
        Entry(Join(InitialSection(parts[0]) + FollowUpSections(parts, 1), "\n\n"), response)
  }

  // ---------------------------------------------------------------------------
  // Properties
  // ---------------------------------------------------------------------------

  /** The main part of an entry is exactly the text `cleanHistoryText`
      keeps before the follow-ups: everything before the first marker. */
  lemma MainPartIsTextBeforeMarker(q: string)
    ensures Split(q, FollowUpsMarker)[0] == CutFollowUps(q)
  {
  }

  /** Parts without a `**User:**` line contribute nothing. */
  lemma {:induction false} UntaggedPartsGiveNothing(parts: seq<string>, from: nat)
    requires forall i :: from <= i < |parts| ==> !Tagged(parts[i])
    ensures FollowUpSections(parts, from) == []
    decreases |parts| - from
  {
    if from < |parts| {
      assert !Tagged(parts[from]);
      UntaggedPartsGiveNothing(parts, from + 1);
    }
  }

  /** Sections numbered consecutively from `n`. */
  predicate NumberedFrom(sections: seq<string>, n: nat)
    decreases |sections|
  {
    sections == [] || (Numbered(sections[0], n) && NumberedFrom(sections[1..], n + 1))
  }

  /** Tagged parts give one section apiece, numbered by part. */
  lemma OneSectionEach(parts: seq<string>, from: nat)
    requires from <= |parts|
    requires forall i :: from <= i < |parts| ==> Tagged(parts[i])
    ensures |FollowUpSections(parts, from)| == |parts| - from
    ensures NumberedFrom(FollowUpSections(parts, from), from)
  {
    forall i | from <= i < |parts|
      ensures |FollowUpSection(parts[i], i)| == 1 && Numbered(FollowUpSection(parts[i], i)[0], i)
    {
      assert Tagged(parts[i]);
    }
    GatherOneEach(parts, from, FollowUpSection);
  }

  /** Whatever makes the sections: one numbered section per part gives one
      section apiece, numbered consecutively. */
  lemma {:induction false} GatherOneEach(parts: seq<string>, from: nat, section: (string, nat) -> seq<string>)
    requires from <= |parts|
    requires forall i :: from <= i < |parts| ==> |section(parts[i], i)| == 1 && Numbered(section(parts[i], i)[0], i)
    ensures |Gather(parts, from, section)| == |parts| - from
    ensures NumberedFrom(Gather(parts, from, section), from)
    decreases |parts| - from
  {
    if from < |parts| {
      GatherOneEach(parts, from + 1, section);
      NumberedInFront(section(parts[from], from), Gather(parts, from + 1, section), from);
    }
  }

  /** One section numbered `n` in front of sections numbered from `n + 1`. */
  lemma NumberedInFront(here: seq<string>, rest: seq<string>, n: nat)
    requires |here| == 1 && Numbered(here[0], n) && NumberedFrom(rest, n + 1)
    ensures NumberedFrom(here + rest, n)
  {
    assert (here + rest)[0] == here[0];
    assert (here + rest)[1..] == rest;
  }

  /** Consecutive numbering, index by index. */
  lemma {:induction false} NumberedFromIndex(sections: seq<string>, n: nat)
    requires NumberedFrom(sections, n)
    ensures forall k :: 0 <= k < |sections| ==> Numbered(sections[k], n + k)
    decreases |sections|
  {
    if sections != [] {
      NumberedFromIndex(sections[1..], n + 1);
      forall k | 0 < k < |sections|
        ensures Numbered(sections[k], n + k)
      {
        assert sections[k] == sections[1..][k - 1];
      }
    }
  }

  /** When every part has a `**User:**` line, each contributes one section
      and the sections are numbered consecutively by part. */
  lemma TaggedPartsNumbered(parts: seq<string>, from: nat)
    requires from <= |parts|
    requires forall i :: from <= i < |parts| ==> Tagged(parts[i])
    ensures |FollowUpSections(parts, from)| == |parts| - from
    ensures forall k :: 0 <= k < |parts| - from ==> Numbered(FollowUpSections(parts, from)[k], from + k)
  {
    OneSectionEach(parts, from);
    NumberedFromIndex(FollowUpSections(parts, from), from);
  }

  /** A query without the marker has no follow-up sections: its prompt is
      the initial section alone, or empty. */
  lemma NoMarkerNoFollowUps(q: string, responseText: Option<string>)
    requires q != "" && !Contains(q, FollowUpsMarker)
    ensures CleanEntry(Some(q), responseText).prompt
            == (if NonBlankLines(q) == [] then "" else "**Initial Prompt:**\n" + Join(KeptLines(q), "\n"))
  {
    SplitNoSeparator(q, FollowUpsMarker);
    var parts := Split(q, FollowUpsMarker);
    assert FollowUpSections(parts, 1) == [];
  }
}

=== FILE: history_text.dfy ===
/** `cleanHistoryText` of the history page: each line is relabelled by a
    fixed list of whole-line rewrites, the bullet rule then runs over the
    whole text, everything from the first `--- Follow-ups ---` on is
    dropped, runs of three or more newlines become one blank line, and the
    result is trimmed. The regular expressions are written out as the
    string tests they amount to. */
module HistoryText {
  import opened Wrappers
  import opened Text

  const FollowUpsMarker := "--- Follow-ups ---"

  /** The plain form labels the page turns bold, in the order it applies
      them: `^Label: (.+)$` becomes `**New:** $1`. */
  const LabelRules: seq<(string, string)> := [
    ("Genre", "Genre"),
    ("Tone", "Tone"),
    ("Setting", "Setting"),
    ("Theme", "Theme"),
    ("Length", "Length"),
    ("Format", "Format"),
    ("Audience", "Audience"),
    ("Platform", "Platform"),
    ("Budget", "Budget"),
    ("Premise", "Premise"),
    ("Character", "Character"),
    ("Story idea", "Story Idea"),
    ("Story Idea / Premise", "Story Premise"),
    ("Research question", "Research Question"),
    ("Target audience", "Target Audience"),
    ("Content theme", "Content Theme"),
    ("Rhyme scheme", "Rhyme Scheme"),
    ("Poetry style", "Poetry Style"),
    ("Meter", "Meter"),
    ("Medium", "Medium"),
    ("Dialogue style", "Dialogue Style"),
    ("Visual preferences", "Visual Preferences"),
    ("Main character", "Main Character"),
    ("Main Character Traits", "Main Character Traits"),
    ("Setting details", "Setting Details"),
    ("Desired tone", "Desired Tone"),
    ("Target length", "Target Length"),
    ("Story premise", "Story Premise")]

  const Bullet: char := '\U{2022}'

  predicate IsAsciiLetter(c: char) {
    ('a' <= c <= 'z') || ('A' <= c <= 'Z')
  }

  /** A character of the bullet rule's label class `[A-Za-z\s]`. */
  predicate IsLabelChar(c: char) {
    IsAsciiLetter(c) || IsSpace(c)
  }

  // ---------------------------------------------------------------------------
  // The line rewrites, in the order the page applies them
  // ---------------------------------------------------------------------------

  /** `^\*\*Output Type Requested:\*\*(.*?)$` to `**Request:** $1`. */
  function BoldRequest(line: string): string {
    if StartsWith(line, "**Output Type Requested:**") then "**Request:** " + line[26..] else line
  }

  /** `^Output Type Requested:(.*?)$` to `**Request:**$1`. */
  function PlainRequest(line: string): string {
    if StartsWith(line, "Output Type Requested:") then "**Request:**" + line[22..] else line
  }

  /** The two whole-line `Creative Parameters:` headings become `**Parameters:**`. */
  function Parameters(line: string): string {
    if line == "**Creative Parameters:**" || line == "Creative Parameters:" then "**Parameters:**" else line
  }

  /** One `^Old: (.+)$` rule: at least one character must follow `": "`. */
  function LabelRule(rule: (string, string), line: string): (r: string)
    ensures (StartsWith(line, rule.0 + ": ") && |line| > |rule.0| + 2)
            ==> r == "**" + rule.1 + ":** " + line[|rule.0| + 2..]
    ensures !(StartsWith(line, rule.0 + ": ") && |line| > |rule.0| + 2) ==> r == line
  {
    var prefix := rule.0 + ": ";
    if StartsWith(line, prefix) && |line| > |prefix| then "**" + rule.1 + ":** " + line[|prefix|..] else line
  }

  /** The label rules applied one after another. */
  function ApplyLabels(rules: seq<(string, string)>, line: string): string
    decreases |rules|
  {
    if rules == [] then line else ApplyLabels(rules[1..], LabelRule(rules[0], line))
  }

  /** The new label of the first rule for `name`, if any rule has it. */
  function FirstNew(rules: seq<(string, string)>, name: string): (r: Option<string>)
    ensures r.None? <==> forall j :: 0 <= j < |rules| ==> rules[j].0 != name
    decreases |rules|
  {
    if rules == [] then None
    else if rules[0].0 == name then Some(rules[0].1)
    else FirstNew(rules[1..], name)
  }

  /** The length of the longest run of label characters starting at `from`. */
  function LabelRun(s: string, from: nat): (k: nat)
    requires from <= |s|
    ensures from + k <= |s|
    ensures forall i :: from <= i < from + k ==> IsLabelChar(s[i])
    ensures from + k < |s| ==> !IsLabelChar(s[from + k])
    decreases |s| - from
  {
    if from == |s| || !IsLabelChar(s[from]) then 0 else 1 + LabelRun(s, from + 1)
  }

  /** The rewrites that stay within one line, in the order the page
      applies them. The page's `- **x:** y` rule puts back exactly what it
      matched, so it changes nothing and is not listed. None of them touches
      a line that starts with the bullet. */
  function RewriteLine(line: string): (r: string)
    ensures StartsWith(line, [Bullet, ' ']) ==> r == line
  {
    BulletLineUntouched(line);
    ApplyLabels(LabelRules, Parameters(PlainRequest(BoldRequest(line))))
  }

  /** `lines.map(f)`. */
  function MapLines(f: string -> string, lines: seq<string>): (r: seq<string>)
    ensures |r| == |lines|
    ensures forall i :: 0 <= i < |lines| ==> r[i] == f(lines[i])
  {
    if lines == [] then [] else [f(lines[0])] + MapLines(f, lines[1..])
  }

  // ---------------------------------------------------------------------------
  // The bullet rule, `/^• ([A-Za-z\s]+): (.+)$/gm`, over the whole text
  // ---------------------------------------------------------------------------

  /** The ECMAScript line terminators: where a multiline `^` matches after
      and `$` before, and what `.` does not match. */
  predicate IsLineEnd(c: char) {
    c == '\n' || c == '\r' || c == '\U{2028}' || c == '\U{2029}'
  }

  /** A text holding no line terminator: a single line. */
  predicate OneLine(s: string) {
    forall i :: 0 <= i < |s| ==> !IsLineEnd(s[i])
  }

  /** Where the line holding position `from` ends: the first terminator at
      or after it, or the end of the text. */
  function LineEnd(s: string, from: nat): (e: nat)
    requires from <= |s|
    ensures from <= e <= |s|
    ensures forall i :: from <= i < e ==> !IsLineEnd(s[i])
    ensures e < |s| ==> IsLineEnd(s[e])
    decreases |s| - from
  {
    if from == |s| || IsLineEnd(s[from]) then from else LineEnd(s, from + 1)
  }

  /** Whether the bullet rule matches at the start of `s`, and if so where
      its label ends. The label class `[A-Za-z\s]` takes no colon, so the
      only candidate label is the whole run of label characters after the
      bullet, and it runs on across line breaks, which are whitespace; the
      value `(.+)` needs one character before the line ends. */
  function BulletAt(s: string): (r: Option<nat>)
    ensures r.Some? ==> 2 < r.value && r.value + 2 < |s| && s[..2] == [Bullet, ' ']
    ensures r.Some? ==> forall i :: 2 <= i < r.value ==> IsLabelChar(s[i])
    ensures r.Some? ==> s[r.value] == ':' && s[r.value + 1] == ' ' && !IsLineEnd(s[r.value + 2])
  {
    if |s| >= 2 && s[0] == Bullet && s[1] == ' ' then
      var e := 2 + LabelRun(s, 2);
      if e > 2 && e + 2 < |s| && s[e] == ':' && s[e + 1] == ' ' && !IsLineEnd(s[e + 2]) then Some(e) else None
    else None
  }

  /** `.replace(/^• ([A-Za-z\s]+): (.+)$/gm, '- **$1:** $2')` on a text
      whose start is a line start: a match becomes `- **label:** value` and
      the search goes on at the next line start after it; any other line is
      copied. The value runs to the end of its line, so a match ends where a
      line does. */
  function BulletPass(s: string): (r: string)
    ensures NoBullet(s) ==> r == s
    decreases |s|
  {
    if s == [] then []
    else
      var first := PassLine(s);
      var end := first.1;
      if end == |s| then first.0
      else
        assert NoBullet(s) ==> s == first.0 + [s[end]] + s[end + 1..];
        first.0 + [s[end]] + BulletPass(s[end + 1..])
  }

  /** The first line of `s` as the pass leaves it, and where that line
      ends: a matched bullet line becomes its bold form, and any other line
      is copied. */
  function PassLine(s: string): (r: (string, nat))
    ensures r.1 <= |s| && (r.1 < |s| ==> IsLineEnd(s[r.1]))
    ensures NoBullet(s) ==> r.0 == s[..r.1]
  {
    match BulletAt(s)
    case Some(e) =>
      var end := LineEnd(s, e + 2);
      (BoldLabel(s[2..e], s[e + 2..end]), end)
    case None =>
      var end := LineEnd(s, 0);
      (s[..end], end)
  }

  /** The bold form a bullet label takes: `- **name:** value`. */
  function BoldLabel(name: string, value: string): (r: string)
    ensures |r| == |name| + |value| + 8
  {
    "- **" + name + ":** " + value
  }

  /** No bullet character anywhere in `s`. */
  predicate NoBullet(s: string) {
    forall i :: 0 <= i < |s| ==> s[i] != Bullet
  }

  /** The bullet rule on a single line, where the value runs to the end of
      the line: `• Label: v` becomes `- **Label:** v`, four characters
      longer; any other line is kept. */
  function BulletRule(line: string): (r: string)
    ensures !StartsWith(line, [Bullet, ' ']) ==> r == line
    ensures r != line ==> StartsWith(r, "- **") && |r| == |line| + 4
  {
    match BulletAt(line)
    case Some(e) => BoldLabel(line[2..e], line[e + 2..])
    case None => line
  }

  /** A line whose bullet label does not run to its end: the only lines on
      which the bullet rule can stay within the line. */
  predicate LabelStopsInLine(line: string) {
    StartsWith(line, [Bullet, ' ']) ==> 2 + LabelRun(line, 2) < |line|
  }

  /** All of `cleanHistoryText`'s rewrites: the line rules on each line,
      then the bullet rule over the text they give. */
  function Rewrite(text: string): string {
    BulletPass(Join(MapLines(RewriteLine, Split(text, "\n")), "\n"))
  }

  // ---------------------------------------------------------------------------
  // Cutting, collapsing, trimming
  // ---------------------------------------------------------------------------

  /** `.replace(/--- Follow-ups ---[\s\S]*$/g, '')`: the text before the
      first marker, or all of it when there is none. */
  function CutFollowUps(s: string): (r: string)
    ensures StartsWith(s, r)
    ensures !Contains(r, FollowUpsMarker)
    ensures Contains(s, FollowUpsMarker) ==> OccursAt(s, FollowUpsMarker, |r|)
    ensures !Contains(s, FollowUpsMarker) ==> r == s
  {
    match IndexOf(s, FollowUpsMarker)
    case None => s
    case Some(k) =>
      var r := s[..k];
      assert !Contains(r, FollowUpsMarker) by {
        if Contains(r, FollowUpsMarker) {
          var j := IndexOf(r, FollowUpsMarker).value;
          assert r[j..j + |FollowUpsMarker|] == s[j..j + |FollowUpsMarker|];
          assert OccursAt(s, FollowUpsMarker, j);
          assert false;
        }
      }
      r
  }

  /** Three newlines in a row start at `i`. */
  predicate TripleAt(s: string, i: int) {
    0 <= i && i + 2 < |s| && s[i] == '\n' && s[i + 1] == '\n' && s[i + 2] == '\n'
  }

  /** No three newlines in a row. */
  predicate NoTriple(s: string) {
    forall i :: 0 <= i < |s| ==> !TripleAt(s, i)
  }

  /** The number of newlines `s` starts with. */
  function NewlineRun(s: string): (k: nat)
    ensures k <= |s|
    ensures forall i :: 0 <= i < k ==> s[i] == '\n'
    ensures k < |s| ==> s[k] != '\n'
  {
    if s == [] || s[0] != '\n' then 0 else 1 + NewlineRun(s[1..])
  }

  /** `.replace(/\n{3,}/g, '\n\n')`: every run of three or more newlines
      becomes exactly two. */
  function Collapse(s: string): (r: string)
    ensures NoTriple(r)
    ensures s != [] && s[0] != '\n' ==> r != [] && r[0] == s[0]
    decreases |s|
  {
    if s == [] then []
    else if s[0] != '\n' then
      var rest := Collapse(s[1..]);
      NoTripleAfterRun([s[0]], rest);
      [s[0]] + rest
    else
      var k := NewlineRun(s);
      var run := if k >= 3 then "\n\n" else s[..k];
      var rest := Collapse(s[k..]);
      NoTripleAfterRun(run, rest);
      run + rest
  }

  /** At most two newlines, or one other character, followed by a text
      free of newline runs that does not start with a newline, make a text
      free of newline runs. */
  lemma NoTripleAfterRun(run: string, rest: string)
    requires |run| <= 2
    requires (forall i :: 0 <= i < |run| ==> run[i] == '\n') || (|run| == 1 && run[0] != '\n')
    requires NoTriple(rest) && (rest == [] || rest[0] != '\n' || (|run| == 1 && run[0] != '\n'))
    ensures NoTriple(run + rest)
  {
    var t := run + rest;
    forall i | 0 <= i < |t|
      ensures !TripleAt(t, i)
    {
      if i >= |run| {
        assert !TripleAt(rest, i - |run|);
        if i + 2 < |t| {
          assert t[i] == rest[i - |run|] && t[i + 1] == rest[i - |run| + 1] && t[i + 2] == rest[i - |run| + 2];
        }
      } else if i + 2 < |t| {
        assert i + 2 >= |run|;
        assert t[i + 2] == rest[i + 2 - |run|];
        assert (i + 2 > |run| && !TripleAt(rest, 0)) || t[i + 2] == rest[0];
      }
    }
  }

  /** `cleanHistoryText(text)`: empty for a missing or empty text. */
  function CleanText(text: Option<string>): (r: string)
    ensures text.None? || text == Some("") ==> r == ""
    ensures IsTrimmed(r)
    ensures NoTriple(r)
  {
    match text
    case None => ""
    case Some(t) =>
      if t == "" then ""
      else
        var c := Collapse(CutFollowUps(Rewrite(t)));
        TrimKeepsNoTriple(c);
        Trim(c)
  }

  /** The characters of `s` other than newlines. */
  function Unbroken(s: string): string {
    if s == [] then [] else (if s[0] == '\n' then [] else [s[0]]) + Unbroken(s[1..])
  }

  // ---------------------------------------------------------------------------
  // Properties
  // ---------------------------------------------------------------------------

  /** What the relabelling lemmas need of a label: it starts with a letter
      and holds no colon. */
  predicate PlainLabel(name: string) {
    |name| > 0 && IsAsciiLetter(name[0]) && forall i :: 0 <= i < |name| ==> name[i] != ':'
  }

  /** Every label of the list is plain. */
  lemma LabelRulesArePlain()
    ensures forall j :: 0 <= j < |LabelRules| ==> PlainLabel(LabelRules[j].0)
  {
    assert PlainLabel("Genre");
    assert PlainLabel("Tone");
    assert PlainLabel("Setting");
    assert PlainLabel("Theme");
    assert PlainLabel("Length");
    assert PlainLabel("Format");
    assert PlainLabel("Audience");
    assert PlainLabel("Platform");
    assert PlainLabel("Budget");
    assert PlainLabel("Premise");
    assert PlainLabel("Character");
    assert PlainLabel("Story idea");
    assert PlainLabel("Story Idea / Premise");
    assert PlainLabel("Research question");
    assert PlainLabel("Target audience");
    assert PlainLabel("Content theme");
    assert PlainLabel("Rhyme scheme");
    assert PlainLabel("Poetry style");
    assert PlainLabel("Meter");
    assert PlainLabel("Medium");
    assert PlainLabel("Dialogue style");
    assert PlainLabel("Visual preferences");
    assert PlainLabel("Main character");
    assert PlainLabel("Main Character Traits");
    assert PlainLabel("Setting details");
    assert PlainLabel("Desired tone");
    assert PlainLabel("Target length");
    assert PlainLabel("Story premise");
  }

  /** A piece of a text without three newlines in a row has none either. */
  lemma NoTripleSlice(s: string, a: nat, b: nat)
    requires NoTriple(s) && a <= b <= |s|
    ensures NoTriple(s[a..b])
  {
    var t := s[a..b];
    forall i | 0 <= i < |t|
      ensures !TripleAt(t, i)
    {
      assert !TripleAt(s, a + i);
      if i + 2 < |t| {
        assert t[i] == s[a + i] && t[i + 1] == s[a + i + 1] && t[i + 2] == s[a + i + 2];
      }
    }
  }

  /** Trimming cannot create a run of newlines. */
  lemma TrimKeepsNoTriple(s: string)
    requires NoTriple(s)
    ensures NoTriple(Trim(s))
  {
    var t := TrimStart(s);
    NoTripleSlice(s, |s| - |t|, |s|);
    assert s[|s| - |t|..|s|] == t;
    NoTripleSlice(t, 0, |TrimEnd(t)|);
  }

  lemma {:induction false} UnbrokenAppend(a: string, b: string)
    ensures Unbroken(a + b) == Unbroken(a) + Unbroken(b)
    decreases |a|
  {
    if a == [] {
      assert a + b == b;
    } else {
      assert (a + b)[1..] == a[1..] + b;
      UnbrokenAppend(a[1..], b);
    }
  }

  lemma {:induction false} UnbrokenOfNewlines(s: string)
    requires forall i :: 0 <= i < |s| ==> s[i] == '\n'
    ensures Unbroken(s) == []
    decreases |s|
  {
    if s != [] {
      UnbrokenOfNewlines(s[1..]);
    }
  }

  /** Collapsing only removes newlines: every other character is kept, in
      order. */
  lemma {:induction false} CollapseKeepsText(s: string)
    ensures Unbroken(Collapse(s)) == Unbroken(s)
    decreases |s|
  {
    if s == [] {
    } else if s[0] != '\n' {
      CollapseKeepsText(s[1..]);
      UnbrokenAppend([s[0]], Collapse(s[1..]));
    } else {
      var k := NewlineRun(s);
      var run := if k >= 3 then "\n\n" else s[..k];
      CollapseKeepsText(s[k..]);
      UnbrokenAppend(run, Collapse(s[k..]));
      UnbrokenOfNewlines(run);
      UnbrokenOfNewlines(s[..k]);
      assert s == s[..k] + s[k..];
      UnbrokenAppend(s[..k], s[k..]);
    }
  }

  /** A text already free of three-newline runs is left as it is, so
      collapsing twice is collapsing once. */
  lemma {:induction false} CollapseOfNoTriple(s: string)
    requires NoTriple(s)
    ensures Collapse(s) == s
    decreases |s|
  {
    if s == [] {
    } else if s[0] != '\n' {
      NoTripleSlice(s, 1, |s|);
      assert s[1..|s|] == s[1..];
      CollapseOfNoTriple(s[1..]);
      assert s == [s[0]] + s[1..];
    } else {
      var k := NewlineRun(s);
      assert !TripleAt(s, 0);
      assert k <= 2;
      NoTripleSlice(s, k, |s|);
      assert s[k..|s|] == s[k..];
      CollapseOfNoTriple(s[k..]);
      assert s == s[..k] + s[k..];
    }
  }

  lemma CollapseIdempotent(s: string)
    ensures Collapse(Collapse(s)) == Collapse(s)
  {
    CollapseOfNoTriple(Collapse(s));
  }

  /** Two colon-free labels: if a line `b: v` starts with `a:`, they are the
      same label. */
  lemma ColonPrefix(a: string, b: string, v: string)
    requires forall i :: 0 <= i < |a| ==> a[i] != ':'
    requires forall i :: 0 <= i < |b| ==> b[i] != ':'
    requires StartsWith(b + ": " + v, a + ":")
    ensures a == b
  {
    var line := b + ": " + v;
    assert forall i :: 0 <= i < |b| ==> line[i] == b[i];
    assert forall i :: 0 <= i <= |a| ==> line[i] == (a + ":")[i];
    assert line[|a|] == ':' && line[|b|] == ':';
    assert |a| == |b|;
    assert line[..|a|] == a;
  }


  /** No label rule touches a line that does not start with a letter. */
  lemma {:induction false} ApplyLabelsSkips(rules: seq<(string, string)>, line: string)
    requires forall j :: 0 <= j < |rules| ==> PlainLabel(rules[j].0)
    requires line != [] && !IsAsciiLetter(line[0])
    ensures ApplyLabels(rules, line) == line
    decreases |rules|
  {
    if rules != [] {
      LabelRuleSkips(rules[0], line);
      ApplyLabelsSkips(rules[1..], line);
    }
  }

  /** A label rule leaves alone a line that does not start with a letter. */
  lemma LabelRuleSkips(rule: (string, string), line: string)
    requires PlainLabel(rule.0)
    requires line != [] && !IsAsciiLetter(line[0])
    ensures LabelRule(rule, line) == line
  {
    assert (rule.0 + ": ")[0] == rule.0[0];
  }

  /** The label rules on a line `name: v`: the first rule for `name` fires
      and no other rule does. */
  lemma {:induction false} ApplyLabelsToLabelLine(rules: seq<(string, string)>, name: string, v: string)
    requires forall j :: 0 <= j < |rules| ==> PlainLabel(rules[j].0)
    requires PlainLabel(name) && v != ""
    ensures ApplyLabels(rules, name + ": " + v)
            == (match FirstNew(rules, name)
                case Some(n) => "**" + n + ":** " + v
                case None => name + ": " + v)
    decreases |rules|
  {
    var line := name + ": " + v;
    if rules != [] {
      if rules[0].0 == name {
        assert StartsWith(line, name + ": ");
        var out := "**" + rules[0].1 + ":** " + v;
        assert line[|name| + 2..] == v;
        assert LabelRule(rules[0], line) == out;
        ApplyLabelsSkips(rules[1..], out);
      } else {
        if StartsWith(line, rules[0].0 + ": ") {
          assert StartsWith(line, rules[0].0 + ":");
          ColonPrefix(rules[0].0, name, v);
        }
        ApplyLabelsToLabelLine(rules[1..], name, v);
      }
    }
  }

  /** The rules before the label rules leave a line `name: v` alone. */
  lemma EarlyRulesSkipLabelLine(name: string, v: string)
    requires PlainLabel(name) && name != "Output Type Requested" && v != ""
    ensures Parameters(PlainRequest(BoldRequest(name + ": " + v))) == name + ": " + v
  {
    var line := name + ": " + v;
    assert line[0] == name[0];
    assert "**Output Type Requested:**"[0] == '*';
    assert PlainLabel("Output Type Requested");
    if StartsWith(line, "Output Type Requested:") {
      ColonPrefix("Output Type Requested", name, v);
    }
    assert PlainLabel("Creative Parameters");
    if line == "Creative Parameters:" {
      assert StartsWith(line, "Creative Parameters" + ":");
      ColonPrefix("Creative Parameters", name, v);
    }
    assert "**Creative Parameters:**"[0] == '*';
  }

  /** A whole line `Label: v` with a listed label becomes `**New:** v`, the
      new label of the first rule for it; a plain label that is not listed
      is left as it is. */
  lemma LabelLineRewritten(name: string, v: string)
    requires PlainLabel(name) && name != "Output Type Requested" && v != ""
    ensures FirstNew(LabelRules, name).Some?
            ==> RewriteLine(name + ": " + v) == "**" + FirstNew(LabelRules, name).value + ":** " + v
    ensures FirstNew(LabelRules, name).None?
            ==> RewriteLine(name + ": " + v) == name + ": " + v
  {
    var line := name + ": " + v;
    EarlyRulesSkipLabelLine(name, v);
    LabelRulesArePlain();
    ApplyLabelsToLabelLine(LabelRules, name, v);
  }

  /** On `• name: v` the bullet rule matches with the whole name, which
      may run over line breaks, as long as the value starts its line. */
  lemma BulletAtOfBulletLine(name: string, v: string)
    requires name != [] && v != "" && !IsLineEnd(v[0])
    requires forall i :: 0 <= i < |name| ==> IsLabelChar(name[i])
    ensures BulletAt([Bullet, ' '] + name + ": " + v) == Some(2 + |name|)
  {
    var line := [Bullet, ' '] + name + ": " + v;
    assert forall i :: 0 <= i < |name| ==> line[2 + i] == name[i];
    assert line[2 + |name|] == ':' && !IsLabelChar(':');
    assert line[2 + |name| + 2] == v[0];
    assert LabelRun(line, 2) == |name|;
  }

  /** The bullet rule on a line `• Label: v` takes the whole label. */
  lemma BulletRuleFires(tag: string, v: string)
    requires tag != [] && v != "" && !IsLineEnd(v[0])
    requires forall i :: 0 <= i < |tag| ==> IsLabelChar(tag[i])
    ensures BulletRule([Bullet, ' '] + tag + ": " + v) == "- **" + tag + ":** " + v
  {
    var line := [Bullet, ' '] + tag + ": " + v;
    BulletAtOfBulletLine(tag, v);
    assert line[2..2 + |tag|] == tag;
    assert line[2 + |tag| + 2..] == v;
  }

  /** The line rules leave a bullet line alone: it starts with none of
      their patterns. */
  lemma BulletLineUntouched(line: string)
    ensures StartsWith(line, [Bullet, ' '])
            ==> ApplyLabels(LabelRules, Parameters(PlainRequest(BoldRequest(line)))) == line
  {
    if StartsWith(line, [Bullet, ' ']) {
      assert line[0] == Bullet;
      assert "**Output Type Requested:**"[0] == '*' && "Output Type Requested:"[0] == 'O';
      assert "**Creative Parameters:**"[0] == '*' && "Creative Parameters:"[0] == 'C';
      assert Parameters(PlainRequest(BoldRequest(line))) == line;
      LabelRulesArePlain();
      ApplyLabelsSkips(LabelRules, line);
    }
  }

  lemma {:induction false} ApplyLabelsNone(rules: seq<(string, string)>, line: string)
    requires forall j :: 0 <= j < |rules| ==> !StartsWith(line, rules[j].0 + ": ")
    ensures ApplyLabels(rules, line) == line
    decreases |rules|
  {
    if rules != [] {
      ApplyLabelsNone(rules[1..], line);
    }
  }

  /** A line that starts with none of the line patterns is left as it is. */
  lemma UnmatchedLineKept(line: string)
    requires !StartsWith(line, "**Output Type Requested:**") && !StartsWith(line, "Output Type Requested:")
    requires line != "**Creative Parameters:**" && line != "Creative Parameters:"
    requires forall j :: 0 <= j < |LabelRules| ==> !StartsWith(line, LabelRules[j].0 + ": ")
    ensures RewriteLine(line) == line
  {
    assert Parameters(PlainRequest(BoldRequest(line))) == line;
    ApplyLabelsNone(LabelRules, line);
  }

  /** Lines without a newline, joined with newlines, split back into the
      same lines. */
  lemma SplitLinesBack(lines: seq<string>)
    requires |lines| >= 1
    requires forall i :: 0 <= i < |lines| ==> !Contains(lines[i], "\n")
    ensures Split(Join(lines, "\n"), "\n") == lines
  {
    var none := "\n"[..0];
    assert none == [];
    forall i | 0 <= i < |lines| - 1
      ensures !Contains(lines[i] + none, "\n")
    {
      assert lines[i] + none == lines[i];
    }
    SplitJoin(lines, "\n");
  }

  /** The line rules rewrite a text line by line: the lines keep their
      number and their order and each is rewritten on its own; the bullet
      rule then runs over the text they make. */
  lemma RewriteByLines(lines: seq<string>)
    requires |lines| >= 1
    requires forall i :: 0 <= i < |lines| ==> !Contains(lines[i], "\n")
    ensures Rewrite(Join(lines, "\n")) == BulletPass(Join(MapLines(RewriteLine, lines), "\n"))
  {
    SplitLinesBack(lines);
  }

  /** Where a line ends, found from the facts that define it. */
  lemma LineEndIs(s: string, from: nat, e: nat)
    requires from <= e <= |s|
    requires forall i :: from <= i < e ==> !IsLineEnd(s[i])
    requires e < |s| ==> IsLineEnd(s[e])
    ensures LineEnd(s, from) == e
  {
  }

  /** A text that starts with a line whose label stops within it has the
      same label run as that line. */
  lemma LabelRunOfFirstLine(line: string, s: string)
    requires 2 <= |line| <= |s| && s[..|line|] == line
    requires 2 + LabelRun(line, 2) < |line|
    ensures LabelRun(s, 2) == LabelRun(line, 2)
  {
    assert forall i :: 0 <= i < |line| ==> s[i] == line[i];
  }

  /** The bullet rule matches at the start of a text exactly as it does on
      the text's first line, when that line's label stops within it. */
  lemma BulletAtFirstLine(line: string, s: string)
    requires OneLine(line) && LabelStopsInLine(line)
    requires |line| <= |s| && s[..|line|] == line
    requires |line| < |s| ==> IsLineEnd(s[|line|])
    ensures BulletAt(s) == BulletAt(line)
    ensures BulletAt(s).Some? ==> BulletAt(s).value + 2 < |line|
  {
    assert forall i :: 0 <= i < |line| ==> s[i] == line[i];
    if |line| >= 2 && line[0] == Bullet && line[1] == ' ' {
      BulletAtBulletLine(line, s);
    } else if |line| < 2 && |s| > |line| {
      assert IsLineEnd(s[|line|]) && !IsLineEnd(Bullet) && !IsLineEnd(' ');
    }
  }

  lemma BulletAtBulletLine(line: string, s: string)
    requires OneLine(line) && LabelStopsInLine(line)
    requires 2 <= |line| <= |s| && s[..|line|] == line
    requires |line| < |s| ==> IsLineEnd(s[|line|])
    requires line[0] == Bullet && line[1] == ' '
    ensures BulletAt(s) == BulletAt(line)
    ensures BulletAt(s).Some? ==> BulletAt(s).value + 2 < |line|
  {
    assert forall i :: 0 <= i < |line| ==> s[i] == line[i];
    assert line[..2] == [Bullet, ' '];
    LabelRunOfFirstLine(line, s);
    var e := 2 + LabelRun(line, 2);
    assert e < |line|;
    assert e + 1 == |line| && e + 1 < |s| ==> s[e + 1] != ' ';
    assert e + 2 == |line| && e + 2 < |s| ==> IsLineEnd(s[e + 2]);
    assert e + 2 < |line| ==> s[e + 1] == line[e + 1] && !IsLineEnd(s[e + 2]);
  }

  /** On a single line whose label stops within it, the pass is the
      single-line rule. */
  lemma BulletPassOneLine(line: string)
    requires OneLine(line) && LabelStopsInLine(line)
    ensures BulletPass(line) == BulletRule(line)
  {
    assert line[..|line|] == line;
    LineEndIs(line, 0, |line|);
    if BulletAt(line).Some? {
      LineEndIs(line, BulletAt(line).value + 2, |line|);
    }
  }

  /** A line, a newline and more text: the pass rewrites the line on its
      own and goes on after the newline. */
  lemma BulletPassStep(line: string, rest: string)
    requires OneLine(line) && LabelStopsInLine(line)
    ensures BulletPass(line + "\n" + rest) == BulletRule(line) + "\n" + BulletPass(rest)
  {
    var s := line + "\n" + rest;
    assert s[..|line|] == line;
    assert s[|line|] == '\n';
    BulletAtFirstLine(line, s);
    if BulletAt(s).Some? {
      BulletPassStepMatched(line, rest);
    } else {
      BulletPassStepPlain(line, rest);
    }
  }

  lemma BulletPassStepMatched(line: string, rest: string)
    requires OneLine(line)
    requires BulletAt(line + "\n" + rest) == BulletAt(line)
    requires BulletAt(line).Some? && BulletAt(line).value + 2 < |line|
    ensures BulletPass(line + "\n" + rest) == BulletRule(line) + "\n" + BulletPass(rest)
  {
    var s := line + "\n" + rest;
    var e := BulletAt(line).value;
    assert forall i :: 0 <= i < |line| ==> s[i] == line[i];
    assert s[|line|] == '\n';
    LineEndIs(s, e + 2, |line|);
    assert s[2..e] == line[2..e];
    assert s[e + 2..|line|] == line[e + 2..];
    assert s[|line| + 1..] == rest;
    PassLineMatched(s, e, |line|);
    BulletPassFirstLine(s);
  }

  lemma PassLineMatched(s: string, e: nat, end: nat)
    requires BulletAt(s) == Some(e) && e + 2 <= end <= |s| && LineEnd(s, e + 2) == end
    ensures PassLine(s) == (BoldLabel(s[2..e], s[e + 2..end]), end)
  {
  }

  /** One unfolding of the pass where the first line ends before the
      text does. */
  lemma BulletPassFirstLine(s: string)
    requires s != [] && PassLine(s).1 < |s|
    ensures BulletPass(s) == PassLine(s).0 + [s[PassLine(s).1]] + BulletPass(s[PassLine(s).1 + 1..])
  {
  }

  lemma BulletPassStepPlain(line: string, rest: string)
    requires OneLine(line)
    requires BulletAt(line + "\n" + rest).None? && BulletAt(line).None?
    ensures BulletPass(line + "\n" + rest) == BulletRule(line) + "\n" + BulletPass(rest)
  {
    var s := line + "\n" + rest;
    assert forall i :: 0 <= i < |line| ==> s[i] == line[i];
    assert s[|line|] == '\n';
    LineEndIs(s, 0, |line|);
    assert s[..|line|] == line;
    assert s[|line| + 1..] == rest;
  }

  /** The bullet pass works line by line on text whose bullet labels each
      stop within their line. */
  lemma {:induction false} BulletPassByLines(lines: seq<string>)
    requires |lines| >= 1
    requires forall i :: 0 <= i < |lines| ==> OneLine(lines[i]) && LabelStopsInLine(lines[i])
    ensures BulletPass(Join(lines, "\n")) == Join(MapLines(BulletRule, lines), "\n")
    decreases |lines|
  {
    var m := MapLines(BulletRule, lines);
    if |lines| == 1 {
      BulletPassOneLine(lines[0]);
    } else {
      BulletPassByLines(lines[1..]);
      BulletPassStep(lines[0], Join(lines[1..], "\n"));
      assert m[1..] == MapLines(BulletRule, lines[1..]);
    }
  }

  /** A bullet, a label of letters and whitespace and a one-line value:
      the pass gives `- **name:** value`. The label class `\s` takes line
      breaks, so the label may span lines. */
  lemma BulletPassOfBulletLine(name: string, v: string)
    requires name != [] && v != "" && OneLine(v)
    requires forall i :: 0 <= i < |name| ==> IsLabelChar(name[i])
    ensures BulletPass([Bullet, ' '] + name + ": " + v) == "- **" + name + ":** " + v
  {
    var s := [Bullet, ' '] + name + ": " + v;
    var e := 2 + |name|;
    BulletAtOfBulletLine(name, v);
    assert forall i :: 0 <= i < |v| ==> s[e + 2 + i] == v[i];
    LineEndIs(s, e + 2, |s|);
    assert s[2..e] == name;
    assert s[e + 2..] == v;
  }

  /** So the bullet rule is not a line rule: a bullet whose label runs to
      the end of its line is matched together with the next line, as in
      `• Key elements` followed by the line `Mood: dark`. */
  lemma BulletLabelCrossesLines()
    ensures BulletPass([Bullet, ' '] + "Key elements\nMood" + ": " + "dark")
            == "- **" + "Key elements\nMood" + ":** " + "dark"
  {
    var name := "Key elements\nMood";
    assert forall i :: 0 <= i < |name| ==> IsLabelChar(name[i]);
    BulletPassOfBulletLine(name, "dark");
  }

  /** A line `• Label: v`, with a one-line label of letters and spaces and
      a one-line value, comes out of all of `cleanHistoryText`'s rewrites
      as the Markdown bullet `- **Label:** v`. */
  lemma BulletLineRewritten(tag: string, v: string)
    requires tag != [] && v != "" && OneLine(tag) && OneLine(v)
    requires forall i :: 0 <= i < |tag| ==> IsLabelChar(tag[i])
    ensures Rewrite([Bullet, ' '] + tag + ": " + v) == "- **" + tag + ":** " + v
  {
    var line := [Bullet, ' '] + tag + ": " + v;
    assert forall i :: 0 <= i < |tag| ==> line[2 + i] == tag[i];
    assert forall i :: 0 <= i < |v| ==> line[2 + |tag| + 2 + i] == v[i];
    RewriteOfBulletLine(line);
    BulletPassOfBulletLine(tag, v);
  }

  /** The line rules pass a single bullet line through to the bullet pass
      as it is. */
  lemma RewriteOfBulletLine(line: string)
    requires OneLine(line) && StartsWith(line, [Bullet, ' '])
    ensures Rewrite(line) == BulletPass(line)
  {
    OneLineSplits(line);
    var m := MapLines(RewriteLine, [line]);
    assert m[0] == line;
    assert m == [line];
  }

  /** A single line splits into itself. */
  lemma OneLineSplits(line: string)
    requires OneLine(line)
    ensures Split(line, "\n") == [line]
  {
    forall j | 0 <= j < |line|
      ensures !OccursAt(line, "\n", j)
    {
      assert line[j..j + 1][0] == line[j];
    }
    SplitNoSeparator(line, "\n");
  }

  // ---------------------------------------------------------------------------
  // Collapsing runs of newlines
  // ---------------------------------------------------------------------------

  /** `n` newlines. */
  function Newlines(n: nat): (r: string)
    ensures |r| == n && forall i :: 0 <= i < n ==> r[i] == '\n'
  {
    seq(n, _ => '\n')
  }

  /** A text that starts with newlines keeps its leading run when more text
      follows, unless that text carries the run on. */
  lemma NewlineRunAppend(x: string, y: string)
    requires x != []
    requires NewlineRun(x) < |x| || y == [] || y[0] != '\n'
    ensures NewlineRun(x + y) == NewlineRun(x)
  {
    assert forall i :: 0 <= i < |x| ==> (x + y)[i] == x[i];
    assert y != [] ==> (x + y)[|x|] == y[0];
  }

  /** Collapsing works piecewise when the cut is not inside a run of
      newlines. */
  lemma {:induction false} CollapseAppend(x: string, y: string)
    requires x == [] || y == [] || x[|x| - 1] != '\n' || y[0] != '\n'
    ensures Collapse(x + y) == Collapse(x) + Collapse(y)
    decreases |x|, 1
  {
    if x == [] {
      assert x + y == y;
    } else if x[0] != '\n' {
      assert (x + y)[0] == x[0];
      assert (x + y)[1..] == x[1..] + y;
      CollapseAppend(x[1..], y);
    } else {
      CollapseAppendRun(x, y);
    }
  }

  /** The case where `x` starts with its run of newlines. */
  lemma {:induction false} CollapseAppendRun(x: string, y: string)
    requires x != [] && x[0] == '\n'
    requires y == [] || x[|x| - 1] != '\n' || y[0] != '\n'
    ensures Collapse(x + y) == Collapse(x) + Collapse(y)
    decreases |x|, 0
  {
    var k := NewlineRun(x);
    CollapseOfRunAppend(x, y);
    CollapseOfRun(x);
    CollapseAppend(x[k..], y);
    ConcatAssoc(KeptRun(x), Collapse(x[k..]), Collapse(y));
  }

  /** Collapsing `x + y` where `x` starts with newlines: the run of `x` is
      the run of `x + y`. */
  lemma CollapseOfRunAppend(x: string, y: string)
    requires x != [] && x[0] == '\n'
    requires y == [] || x[|x| - 1] != '\n' || y[0] != '\n'
    ensures Collapse(x + y) == KeptRun(x) + Collapse(x[NewlineRun(x)..] + y)
  {
    RunOfAppend(x, y);
    CollapseOfRun(x + y);
  }

  /** The leading run of `x + y` is that of `x` when `y` does not carry
      it on. */
  lemma RunOfAppend(x: string, y: string)
    requires x != [] && x[0] == '\n'
    requires y == [] || x[|x| - 1] != '\n' || y[0] != '\n'
    ensures x + y != [] && (x + y)[0] == '\n'
    ensures KeptRun(x + y) == KeptRun(x)
    ensures (x + y)[NewlineRun(x + y)..] == x[NewlineRun(x)..] + y
  {
    var xy := x + y;
    var k := NewlineRun(x);
    assert NewlineRun(xy) == k by {
      assert k == |x| ==> x[|x| - 1] == '\n';
      NewlineRunAppend(x, y);
    }
    assert xy[..k] == x[..k];
    assert xy[k..] == x[k..] + y;
  }

  /** What a text's leading run of newlines collapses to. */
  function KeptRun(s: string): string {
    if NewlineRun(s) >= 3 then "\n\n" else s[..NewlineRun(s)]
  }

  /** One step of collapsing a text that starts with a newline. */
  lemma CollapseOfRun(s: string)
    requires s != [] && s[0] == '\n'
    ensures Collapse(s) == KeptRun(s) + Collapse(s[NewlineRun(s)..])
  {
  }

  /** A run of newlines on its own: three or more become two, fewer stay. */
  lemma CollapseOfNewlines(n: nat)
    ensures Collapse(Newlines(n)) == if n >= 3 then "\n\n" else Newlines(n)
  {
    var s := Newlines(n);
    if n > 0 {
      assert NewlineRun(s) == n;
      assert s[..n] == s && s[n..] == [];
    }
  }

  /** `.replace(/\n{3,}/g, '\n\n')` run by run: a maximal run of `n`
      newlines between two other pieces becomes two newlines when `n` is
      three or more and is kept when shorter, and the pieces on either side
      collapse on their own. */
  lemma CollapseRuns(a: string, n: nat, b: string)
    requires a == [] || a[|a| - 1] != '\n'
    requires b == [] || b[0] != '\n'
    ensures Collapse(a + Newlines(n) + b) == Collapse(a) + (if n >= 3 then "\n\n" else Newlines(n)) + Collapse(b)
  {
    var run := Newlines(n);
    ConcatAssoc(a, run, b);
    CollapseAppend(a, run + b);
    assert Collapse(run + b) == Collapse(run) + Collapse(b) by {
      CollapseAppend(run, b);
    }
    CollapseOfNewlines(n);
    ConcatAssoc(Collapse(a), Collapse(run), Collapse(b));
  }
}

=== FILE: page_flow.dfy ===
/** The submit and follow-up handlers of the writing pages: the guards they
    check and in which order, the conversation they keep on screen, and the
    calls they make — the entitlement check on a full page or the browser
    quota on a demo page, the model, the history save and the demo
    tracking. The model's reply and the gate's answer are parameters. */
module PageFlow {
  import opened Wrappers
  import opened Text
  import opened PromptBuilder
  import opened Categories
  import opened Thread
  import Entitlement
  import Api
  import DemoQuota

  /** A call a handler makes, in order. */
  datatype Step =
    | AskGate(queryText: string)
    | CallModel(messages: seq<Api.Message>)
    | SaveExchange(prompt: string, response: string, sessionId: Option<string>, isFollowUp: bool)
    | TrackEvent(eventType: string, excerpt: string)

  datatype Toast =
    | SelectionRequired
    | InputRequired
    | ActionDenied(reason: string)
    | DemoLimitReached
    | GenerationError(message: string)
    | Succeeded

  /** What the page shows: the conversation, its thread id and the
      follow-up box. */
  datatype View = View(conversation: seq<Turn>, sessionId: Option<string>, followUp: string)

  datatype Outcome = Outcome(steps: seq<Step>, view: View, toast: Toast)

  const DeniedDefault := "Query limit reached or not subscribed."
  const ErrorDefault := "An unexpected error occurred."
  const LimitMarker := "Demo query limit reached"

  /** A turn as the page keeps it: no timestamp. */
  function PageTurn(role: string, content: string): Turn {
    Turn(role, content, None)
  }

  /** The messages sent for a conversation: the system prompt, then the
      turns' roles and contents. */
  function Messages(systemPrompt: string, conversation: seq<Turn>): (ms: seq<Api.Message>)
    ensures |ms| == |conversation| + 1 && ms[0] == Api.Message("system", systemPrompt)
    ensures forall i :: 0 <= i < |conversation| ==>
              ms[i + 1] == Api.Message(conversation[i].role, conversation[i].content)
  {
    [Api.Message("system", systemPrompt)]
      + seq(|conversation|, i requires 0 <= i < |conversation| =>
              Api.Message(conversation[i].role, conversation[i].content))
  }

  /** `reason || default` and `error.message || default`. */
  function OrDefault(s: string, default: string): (r: string)
    ensures r != "" || default == ""
    ensures s != "" ==> r == s
  {
    if s != "" then s else default
  }

  /** A full page's `handleSubmit`: no option, no call at all; otherwise
      the thread is reset, the gate is asked, and only a granted query
      reaches the model; a reply starts a new thread and is saved. */
  function FullSubmit(p: Page, view: View, outputType: string, form: Form, systemPrompt: string,
                      gate: Entitlement.QueryResult, reply: Result<string, string>, freshId: string): (out: Outcome)
    ensures outputType == "" ==> out == Outcome([], view, SelectionRequired)
    ensures outputType != "" && gate.Refused? ==>
              out.steps == [AskGate(BuildPrompt(Table(p), outputType, form, true))]
              && out.view.conversation == [] && out.view.sessionId.None?
              && out.toast == ActionDenied(OrDefault(gate.reason, DeniedDefault))
    ensures outputType != "" && gate.Granted? ==> |out.steps| >= 2 && out.steps[1].CallModel?
    ensures outputType == "" || gate.Refused? ==> forall i :: 0 <= i < |out.steps| ==> !out.steps[i].CallModel?
    ensures out.toast == Succeeded <==> outputType != "" && gate.Granted? && reply.Success?
    ensures out.toast == Succeeded ==>
              var prompt := BuildPrompt(Table(p), outputType, form, true);
              && out.view.conversation == [PageTurn("user", prompt), PageTurn("assistant", reply.value)]
              && out.view.sessionId == Some(freshId)
              && out.steps == [AskGate(prompt), CallModel(Messages(systemPrompt, [PageTurn("user", prompt)])),
                               SaveExchange(prompt, reply.value, Some(freshId), false)]
  {
    if outputType == "" then Outcome([], view, SelectionRequired)
    else
      var cleared := view.(conversation := [], sessionId := None);
      var prompt := BuildPrompt(Table(p), outputType, form, true);
      match gate
      case Refused(reason) => Outcome([AskGate(prompt)], cleared, ActionDenied(OrDefault(reason, DeniedDefault)))
      case Granted =>
        var call := CallModel(Messages(systemPrompt, [PageTurn("user", prompt)]));
        match reply
        case Failure(m) => Outcome([AskGate(prompt), call], cleared, GenerationError(OrDefault(m, ErrorDefault)))
        case Success(t) =>
          Outcome([AskGate(prompt), call, SaveExchange(prompt, t, Some(freshId), false)],
                  View([PageTurn("user", prompt), PageTurn("assistant", t)], Some(freshId), view.followUp),
                  Succeeded)
  }

  /** A full page's `handleFollowUp`. A blank question makes no call; a
      refused one changes nothing; otherwise the question joins the
      conversation before the model is called (and stays there if the call
      fails), and a reply is appended and saved. StageScreen saves its
      follow-ups as new rows. */
  function FullFollowUp(p: Page, view: View, followUp: string, systemPrompt: string,
                        gate: Entitlement.QueryResult, reply: Result<string, string>): (out: Outcome)
    ensures IsBlank(followUp) ==> out == Outcome([], view, InputRequired)
    ensures !IsBlank(followUp) && gate.Refused? ==>
              out == Outcome([AskGate(followUp)], view, ActionDenied(OrDefault(gate.reason, DeniedDefault)))
    ensures !IsBlank(followUp) && gate.Granted? ==> |out.steps| >= 2 && out.steps[1].CallModel?
    ensures IsBlank(followUp) || gate.Refused? ==> forall i :: 0 <= i < |out.steps| ==> !out.steps[i].CallModel?
    ensures !IsBlank(followUp) && gate.Granted? ==> out.view.sessionId == view.sessionId && out.view.followUp == ""
    ensures !IsBlank(followUp) && gate.Granted? && reply.Failure? ==>
              out.view.conversation == view.conversation + [PageTurn("user", followUp)]
    ensures out.toast == Succeeded <==> !IsBlank(followUp) && gate.Granted? && reply.Success?
    ensures out.toast == Succeeded ==>
              out.view.conversation == view.conversation + [PageTurn("user", followUp), PageTurn("assistant", reply.value)]
              && out.steps[|out.steps| - 1] == SaveExchange(followUp, reply.value, view.sessionId, Threaded(p))
  {
    if IsBlank(followUp) then Outcome([], view, InputRequired)
    else
      match gate
      case Refused(reason) => Outcome([AskGate(followUp)], view, ActionDenied(OrDefault(reason, DeniedDefault)))
      case Granted =>
        var current := view.conversation + [PageTurn("user", followUp)];
        var call := CallModel(Messages(systemPrompt, current));
        match reply
        case Failure(m) =>
          Outcome([AskGate(followUp), call], View(current, view.sessionId, ""), GenerationError(OrDefault(m, ErrorDefault)))
        case Success(t) =>
          var done := current + [PageTurn("assistant", t)];
          Outcome([AskGate(followUp), call, SaveExchange(followUp, t, view.sessionId, Threaded(p))],
                  View(done, view.sessionId, ""), Succeeded)
  }

  /** The toast a demo page shows for a failed request. */
  function DemoFailure(message: string): (t: Toast)
    ensures t == DemoLimitReached <==> Contains(message, LimitMarker)
  {
    if Contains(message, LimitMarker) then DemoLimitReached else GenerationError(OrDefault(message, ErrorDefault))
  }

  /** Only the demo content page reports its generations and follow-ups. */
  predicate Tracks(p: Page) {
    p == OnlineContent
  }

  /** The request a demo handler makes once its guards pass: the quota
      moves only on a reply, the reply is shown after `before`, and only
      then does the handler report the event `track`. */
  function DemoCall(store: DemoQuota.Store, shown: View, before: seq<Turn>, ms: seq<Api.Message>,
                    reply: Api.Reply, track: seq<Step>): (out: (Outcome, DemoQuota.Store))
    requires DemoQuota.CanMake(store)
    ensures out.0.toast == Succeeded <==> reply.Ok?
    ensures out.1 == (if reply.Ok? then DemoQuota.Increment(store) else store)
    ensures reply.Ok? ==>
              out.0.steps == [CallModel(ms)] + track
              && out.0.view == shown.(conversation := before + [PageTurn("assistant", reply.text)])
    ensures reply.NotOk? ==> out.0.steps == [CallModel(ms)] && out.0.view == shown
  {
    var r := DemoQuota.DemoRequest(store, ms, reply);
    match r.1
    case Failure(m) => (Outcome([CallModel(ms)], shown, DemoFailure(m)), r.2)
    case Success(t) => (Outcome([CallModel(ms)] + track, shown.(conversation := before + [PageTurn("assistant", t)]), Succeeded), r.2)
  }

  /** The tracking call a demo page makes after a reply, if it tracks. */
  function TrackAfter(p: Page, eventType: string, excerpt: string): (steps: seq<Step>)
    ensures Tracks(p) ==> steps == [TrackEvent(eventType, excerpt)]
    ensures !Tracks(p) ==> steps == []
  {
    if Tracks(p) then [TrackEvent(eventType, excerpt)] else []
  }

  /** A demo page's `handleSubmit`: the option check, then the quota check,
      and only then the request; a success is tracked afterwards. */
  function DemoSubmit(p: Page, store: DemoQuota.Store, view: View, outputType: string, form: Form,
                      systemPrompt: string, reply: Api.Reply): (out: (Outcome, DemoQuota.Store))
    requires p != StageScreen
    ensures outputType == "" ==> out == (Outcome([], view, SelectionRequired), store)
    ensures outputType != "" && !DemoQuota.CanMake(store) ==> out == (Outcome([], view, DemoLimitReached), store)
    ensures out.0.steps != [] <==> outputType != "" && DemoQuota.CanMake(store)
    ensures out.0.toast == Succeeded <==> outputType != "" && DemoQuota.CanMake(store) && reply.Ok?
    ensures out.1 == (if out.0.toast == Succeeded then DemoQuota.Increment(store) else store)
    ensures out.0.toast == Succeeded ==>
              var prompt := BuildPrompt(DemoTable(p), outputType, form, false);
              && out.0.steps[1..] == TrackAfter(p, "generate_content", prompt)
              && out.0.view.conversation == [PageTurn("user", prompt), PageTurn("assistant", reply.text)]
    ensures out.0.toast != Succeeded ==> |out.0.steps| <= 1
  {
    if outputType == "" then (Outcome([], view, SelectionRequired), store)
    else if !DemoQuota.CanMake(store) then (Outcome([], view, DemoLimitReached), store)
    else DemoGenerate(p, store, view, BuildPrompt(DemoTable(p), outputType, form, false), systemPrompt, reply)
  }

  /** The request of a demo page's `handleSubmit` for a built prompt: the
      thread restarts from the prompt, and a reply is tracked. */
  function DemoGenerate(p: Page, store: DemoQuota.Store, view: View, prompt: string,
                        systemPrompt: string, reply: Api.Reply): (out: (Outcome, DemoQuota.Store))
    requires DemoQuota.CanMake(store)
    ensures out.0.steps != []
    ensures out.0.toast == Succeeded <==> reply.Ok?
    ensures out.1 == (if reply.Ok? then DemoQuota.Increment(store) else store)
    ensures reply.Ok? ==>
              && out.0.steps[1..] == TrackAfter(p, "generate_content", prompt)
              && out.0.view.conversation == [PageTurn("user", prompt), PageTurn("assistant", reply.text)]
    ensures !reply.Ok? ==> |out.0.steps| <= 1
  {
    var user := [PageTurn("user", prompt)];
    DemoCall(store, view.(conversation := []), user, Messages(systemPrompt, user), reply,
             TrackAfter(p, "generate_content", prompt))
  }

  /** A demo page's `handleFollowUp`: the blank check, then the quota
      check, then the request; a success is tracked afterwards. */
  function DemoFollowUp(p: Page, store: DemoQuota.Store, view: View, followUp: string,
                        systemPrompt: string, reply: Api.Reply): (out: (Outcome, DemoQuota.Store))
    requires p != StageScreen
    ensures IsBlank(followUp) ==> out == (Outcome([], view, InputRequired), store)
    ensures !IsBlank(followUp) && !DemoQuota.CanMake(store) ==> out == (Outcome([], view, DemoLimitReached), store)
    ensures out.0.steps != [] <==> !IsBlank(followUp) && DemoQuota.CanMake(store)
    ensures out.0.toast == Succeeded <==> !IsBlank(followUp) && DemoQuota.CanMake(store) && reply.Ok?
    ensures out.1 == (if out.0.toast == Succeeded then DemoQuota.Increment(store) else store)
    ensures out.0.toast == Succeeded ==>
              && out.0.steps[1..] == TrackAfter(p, "follow_up", followUp)
              && out.0.view.conversation == view.conversation + [PageTurn("user", followUp), PageTurn("assistant", reply.text)]
    ensures out.0.toast != Succeeded ==> |out.0.steps| <= 1
  {
    if IsBlank(followUp) then (Outcome([], view, InputRequired), store)
    else if !DemoQuota.CanMake(store) then (Outcome([], view, DemoLimitReached), store)
    else
      var current := view.conversation + [PageTurn("user", followUp)];
      assert reply.Ok? ==> current + [PageTurn("assistant", reply.text)]
                           == view.conversation + [PageTurn("user", followUp), PageTurn("assistant", reply.text)];
      DemoCall(store, view.(conversation := current, followUp := ""), current, Messages(systemPrompt, current), reply,
               TrackAfter(p, "follow_up", followUp))
  }

  // ---------------------------------------------------------------------------
  // Properties
  // ---------------------------------------------------------------------------

  /** The roles and contents of a thread, without timestamps. */
  function Contents(h: seq<Turn>): (c: seq<(string, string)>)
    ensures |c| == |h|
    ensures forall i :: 0 <= i < |h| ==> c[i] == (h[i].role, h[i].content)
  {
    seq(|h|, i requires 0 <= i < |h| => (h[i].role, h[i].content))
  }

  /** On a full page the gate is the hook's check-only call: the model is
      reached exactly when a signed-in user's row is entitled, and the hook
      writes nothing. */
  lemma GatedByEntitlement(p: Page, view: View, outputType: string, form: Form, systemPrompt: string,
                           user: Option<string>, read: Entitlement.RowRead, local: Option<Entitlement.Row>,
                           reply: Result<string, string>, freshId: string)
    requires outputType != ""
    ensures var prompt := BuildPrompt(Table(p), outputType, form, true);
            var hook := Entitlement.HandleQuery(user, read, local, QueryType(p), prompt, "", false, None, Success(()), false);
            var out := FullSubmit(p, view, outputType, form, systemPrompt, hook.result, reply, freshId);
            && hook.writes == []
            && ((|out.steps| >= 2 && out.steps[1].CallModel?)
                <==> user.Some? && read != Entitlement.ReadError && Entitlement.CanQuery(Entitlement.RowOf(read)))
  {
  }

  /** A successful first query and the row its save inserts hold the same
      exchange: the stored thread starts as the thread on screen. */
  lemma SubmitMatchesStoredRoot(p: Page, view: View, outputType: string, form: Form, systemPrompt: string,
                                t: string, freshId: string, user: string, now: string)
    requires Threaded(p) && outputType != ""
    ensures var out := FullSubmit(p, view, outputType, form, systemPrompt, Entitlement.Granted, Success(t), freshId);
            var prompt := BuildPrompt(Table(p), outputType, form, true);
            var save := SaveToHistory(p, Some(user), prompt, t, Some(freshId), false, freshId, now, Failure(""), true);
            && save.write.InsertRow?
            && save.write.row.conversationId == freshId
            && Contents(save.write.row.history.value) == Contents(out.view.conversation)
  {
  }

  /** A successful follow-up and the thread its save appends to stay in
      step: if the stored thread held the conversation on screen, it holds
      the longer conversation afterwards. */
  lemma FollowUpKeepsStoreInStep(p: Page, view: View, followUp: string, systemPrompt: string,
                                 t: string, sid: string, user: string, now: string, e: Existing)
    requires Threaded(p) && !IsBlank(followUp) && sid != ""
    requires view.sessionId == Some(sid)
    requires Contents(Seed(AsRead(p, e))) == Contents(view.conversation)
    ensures var out := FullFollowUp(p, view, followUp, systemPrompt, Entitlement.Granted, Success(t));
            var save := SaveToHistory(p, Some(user), followUp, t, view.sessionId, true, "", now, Success(e), true);
            && save.write.AppendTurns?
            && save.write.conversationId == sid
            && Contents(save.write.history) == Contents(out.view.conversation)
  {
    var out := FullFollowUp(p, view, followUp, systemPrompt, Entitlement.Granted, Success(t));
    var save := SaveToHistory(p, Some(user), followUp, t, view.sessionId, true, "", now, Success(e), true);
    var s := Seed(AsRead(p, e));
    var pair := Pair(followUp, t, now);
    var shown := [PageTurn("user", followUp), PageTurn("assistant", t)];
    assert out.toast == Succeeded;
    assert out.view.conversation == view.conversation + shown;
    assert save.write.AppendTurns?;
    assert save.write.history == s + pair;
    ContentsAppend(s, pair);
    ContentsAppend(view.conversation, shown);
    assert Contents(pair) == Contents(shown);
  }

  /** `Contents` distributes over concatenation. */
  lemma ContentsAppend(a: seq<Turn>, b: seq<Turn>)
    ensures Contents(a + b) == Contents(a) + Contents(b)
  {
  }

  /** On a demo page the quota is checked only after the option, and the
      request is made only when both pass; the count moves only on a reply. */
  lemma DemoGuardOrder(p: Page, store: DemoQuota.Store, view: View, form: Form, systemPrompt: string, reply: Api.Reply)
    requires p != StageScreen && !DemoQuota.CanMake(store)
    ensures DemoSubmit(p, store, view, "", form, systemPrompt, reply).0.toast == SelectionRequired
    ensures forall o :: o != "" ==> DemoSubmit(p, store, view, o, form, systemPrompt, reply).0.toast == DemoLimitReached
    ensures DemoFollowUp(p, store, view, "", systemPrompt, reply).0.toast == InputRequired
  {
    assert IsBlank("");
  }
}

=== FILE: portal_session.dfy ===
/** The `create-portal-session` edge function: for a signed-in user it opens
    the Stripe billing portal when the user already has a Stripe customer,
    and otherwise a subscription checkout without a trial. The auth lookup,
    the subscription read, the Stripe key and Stripe's answer are
    parameters; every error is answered with status 400. */
module PortalSession {
  import opened Wrappers

  datatype User = User(id: string, email: Option<string>)

  /** The request sent to Stripe: a billing-portal session for an existing
      customer, or a checkout session. */
  datatype StripeRequest =
    | Portal(customer: string, returnUrl: string)
    | Checkout(customerEmail: string, price: string, trialDays: string,
               successUrl: string, cancelUrl: string, userId: string)

  datatype Payload = Ok | Url(url: string) | ErrorBody(message: string)

  datatype Response = Response(status: int, payload: Payload)

  const DefaultOrigin := "https://writestuffassistant.com"
  const Price := "price_1RHtBRC8j5ZYmSqnvXQJYGzH"
  const SessionSuffix := "?session_id={CHECKOUT_SESSION_ID}"
  const MissingHeader := "Missing authorization header"
  const Unauthorized := "Unauthorized"
  const SubscriptionReadFailed := "Failed to fetch subscription data"
  const NoStripeKey := "Stripe secret key not configured"

  /** A truthy text: present and non-empty. */
  predicate Given(s: Option<string>) {
    s.Some? && s.value != ""
  }

  /** `returnUrl || (origin || site) + '/dashboard'`. */
  function ReturnUrl(returnUrl: Option<string>, origin: Option<string>): (r: string)
    ensures Given(returnUrl) ==> r == returnUrl.value
    ensures !Given(returnUrl) && Given(origin) ==> r == origin.value + "/dashboard"
    ensures !Given(returnUrl) && !Given(origin) ==> r == DefaultOrigin + "/dashboard"
    ensures r != ""
  {
    if Given(returnUrl) then returnUrl.value
    else (if Given(origin) then origin.value else DefaultOrigin) + "/dashboard"
  }

  /** The checkout a user without a Stripe customer is sent to: the fixed
      monthly price, no trial, back to the return URL either way. */
  function CheckoutFor(user: User, ret: string): (c: StripeRequest)
    ensures c.Checkout? && c.price == Price && c.trialDays == "0" && c.userId == user.id
    ensures c.successUrl == ret + SessionSuffix && c.cancelUrl == ret
    ensures c.customerEmail == (if Given(user.email) then user.email.value else "")
  {
    Checkout(if Given(user.email) then user.email.value else "", Price, "0", ret + SessionSuffix, ret, user.id)
  }

  /** The handler. `isOptions` is a preflight request; `authHeader` the
      Authorization header; `user` the auth lookup; `returnUrl` the body's
      field (absent when the body does not parse); `customer` the
      subscription read (`stripe_customer_id`, failing when there is no
      row or the read errs); `stripe` Stripe's answer, the session URL or
      the response text. Returns the Stripe request made, if any, and the
      response. */
  function Handle(isOptions: bool, authHeader: Option<string>, user: Result<User, string>,
                  returnUrl: Option<string>, origin: Option<string>,
                  customer: Result<Option<string>, string>, stripeKey: Option<string>,
                  stripe: Result<string, string>): (out: (Option<StripeRequest>, Response))
    ensures isOptions ==> out == (None, Response(200, Ok))
    ensures !isOptions && !Given(authHeader) ==> out == (None, Response(400, ErrorBody(MissingHeader)))
    ensures !isOptions && Given(authHeader) && user.Failure? ==> out == (None, Response(400, ErrorBody(Unauthorized)))
    // Stripe is called only for an authenticated user whose row was read,
    // with the key configured.
    ensures out.0.Some? <==>
              !isOptions && Given(authHeader) && user.Success? && customer.Success? && Given(stripeKey)
    ensures out.0.Some? ==>
              (if Given(customer.value)
               then out.0.value == Portal(customer.value.value, ReturnUrl(returnUrl, origin))
               else out.0.value == CheckoutFor(user.value, ReturnUrl(returnUrl, origin)))
    ensures out.1.status == 200 <==> isOptions || (out.0.Some? && stripe.Success?)
    ensures out.0.Some? && stripe.Success? ==> out.1.payload == Url(stripe.value)
    ensures out.1.status != 200 ==> out.1.status == 400 && out.1.payload.ErrorBody? && out.1.payload.message != ""
  {
    if isOptions then (None, Response(200, Ok))
    else if !Given(authHeader) then (None, Response(400, ErrorBody(MissingHeader)))
    else
      match user
      case Failure(_) => (None, Response(400, ErrorBody(Unauthorized)))
      case Success(u) =>
        var ret := ReturnUrl(returnUrl, origin);
        match customer
        case Failure(_) => (None, Response(400, ErrorBody(SubscriptionReadFailed)))
        case Success(c) =>
          if !Given(stripeKey) then (None, Response(400, ErrorBody(NoStripeKey)))
          else
            var request := if Given(c) then Portal(c.value, ret) else CheckoutFor(u, ret);
            var failure := if Given(c) then "Failed to create portal session: " else "Failed to create checkout session: ";
            match stripe
            case Success(url) => (Some(request), Response(200, Url(url)))
            case Failure(text) => (Some(request), Response(400, ErrorBody(failure + text)))
  }

  // ---------------------------------------------------------------------------
  // Properties
  // ---------------------------------------------------------------------------

  /** Whichever session is opened, the user comes back to the same page:
      the portal returns to the return URL, and the checkout returns there
      on cancel and there with the session id on success. */
  lemma BothBranchesReturnToTheSamePage(user: User, c: Option<string>, returnUrl: Option<string>,
                                        origin: Option<string>, key: string, url: string)
    requires key != ""
    ensures var out := Handle(false, Some("Bearer t"), Success(user), returnUrl, origin, Success(c), Some(key), Success(url));
            var ret := ReturnUrl(returnUrl, origin);
            && out.1 == Response(200, Url(url))
            && (match out.0.value
                case Portal(_, r) => r == ret
                case Checkout(_, _, _, s, k, _) => k == ret && s == ret + SessionSuffix)
  {
  }

  /** A user the store has no subscription row for is refused rather than
      sent to checkout: the single-row read fails, and Stripe is never
      called. */
  lemma MissingRowIsRefused(user: User, returnUrl: Option<string>, origin: Option<string>,
                            key: Option<string>, stripe: Result<string, string>, e: string)
    ensures Handle(false, Some("Bearer t"), Success(user), returnUrl, origin, Failure(e), key, stripe)
            == (None, Response(400, ErrorBody(SubscriptionReadFailed)))
  {
  }
}

=== FILE: prompt_builder.dfy ===
/** The `buildUserPrompt` rule every writing page shares: a selected option
    and a form record become one instruction text. The full pages put a
    `[FOCUS AREA: …]` header first; the demo pages leave it out. */
module PromptBuilder {
  import opened Wrappers
  import opened Text

  /** One entry of a page's `STEP1_OPTIONS`: its `value` and its `label`
      (`label` is a reserved word here, hence `optionLabel`). */
  datatype OptionEntry = OptionEntry(value: string, optionLabel: string)

  /** A page's static prompt schema: its options, its `fieldConfig` (option to
      the visible field ids, in display order) and the label its `switch`
      writes before each field's value. */
  datatype Category = Category(
    options: seq<OptionEntry>,
    fieldConfig: map<string, seq<string>>,
    labels: map<string, string>)

  /** The page's `formData`: field id to the text typed so far. */
  type Form = map<string, string>

  /** `STEP1_OPTIONS.find(opt => opt.value === value)?.label`. */
  function FindLabel(options: seq<OptionEntry>, value: string): (r: Option<string>)
    ensures r.None? <==> forall i :: 0 <= i < |options| ==> options[i].value != value
    ensures r.Some? ==> exists i :: 0 <= i < |options| && options[i] == OptionEntry(value, r.value)
  {
    if options == [] then None
    else if options[0].value == value then Some(options[0].optionLabel)
    else
      var r := FindLabel(options[1..], value);
      assert forall i :: 0 <= i < |options[1..]| ==> options[1..][i] == options[i + 1];
      r
  }

  /** `fieldConfig[outputType] || []`. */
  function VisibleFields(c: Category, outputType: string): seq<string> {
    if outputType in c.fieldConfig then c.fieldConfig[outputType] else []
  }

  /** The text after `[FOCUS AREA: `: the label, or the word `undefined` that
      the template literal prints when the option is unknown. */
  function HeaderLabel(c: Category, outputType: string): string {
    match FindLabel(c.options, outputType)
    case Some(l) => l
    case None => "undefined"
  }

  /** `selectedOption?.label || outputType`. */
  function GenerateLabel(c: Category, outputType: string): (r: string)
    ensures r == outputType
            || (r != "" && exists i :: 0 <= i < |c.options| && c.options[i] == OptionEntry(outputType, r))
    ensures (forall i :: 0 <= i < |c.options| ==> c.options[i].value != outputType) ==> r == outputType
  {
    match FindLabel(c.options, outputType)
    case Some(l) => if l != "" then l else outputType
    case None => outputType
  }

  function FocusHeader(c: Category, outputType: string): string {
    "[FOCUS AREA: " + HeaderLabel(c, outputType) + "]\n\n"
  }

  /** The prompt up to and including the `Generate <label>.` sentence. */
  function Opening(c: Category, outputType: string, withHeader: bool): string {
    (if withHeader then FocusHeader(c, outputType) else "")
    + "Generate " + GenerateLabel(c, outputType) + "."
  }

  /** The line one field contributes: its label and trimmed value, or nothing
      when the value is missing or blank or the field has no `switch` case. */
  function DetailLine(labels: map<string, string>, form: Form, f: string): Option<string> {
    if f in form && f in labels && Trim(form[f]) != "" then
      Some(labels[f] + ": " + Trim(form[f]))
    else
      None
  }

  /** The `details` array built by the `forEach` over the visible fields. */
  function Details(labels: map<string, string>, form: Form, fields: seq<string>): (r: seq<string>)
    ensures |r| <= |fields|
  {
    if fields == [] then []
    else
      match DetailLine(labels, form, fields[0])
      case Some(line) => [line] + Details(labels, form, fields[1..])
      case None => Details(labels, form, fields[1..])
  }

  /** `buildUserPrompt()`: the opening, then — only when some field is filled —
      a blank line and the detail lines joined by newlines. */
  function BuildPrompt(c: Category, outputType: string, form: Form, withHeader: bool): (r: string)
    ensures StartsWith(r, Opening(c, outputType, withHeader))
    ensures r == Opening(c, outputType, withHeader)
            <==> Details(c.labels, form, VisibleFields(c, outputType)) == []
    ensures Details(c.labels, form, VisibleFields(c, outputType)) != []
            ==> r[|Opening(c, outputType, withHeader)|..]
                == "\n\n" + Join(Details(c.labels, form, VisibleFields(c, outputType)), "\n")
  {
    var opening := Opening(c, outputType, withHeader);
    var details := Details(c.labels, form, VisibleFields(c, outputType));
    var r := if |details| > 0 then opening + "\n\n" + Join(details, "\n") else opening;
    assert r[..|opening|] == opening;
    assert |details| > 0 ==> r[|opening|..] == "\n\n" + Join(details, "\n");
    r
  }

  // ---------------------------------------------------------------------------
  // Properties
  // ---------------------------------------------------------------------------

  /** The detail lines of two runs of fields are the lines of each, in order:
      lines follow the table order. */
  lemma {:induction false} DetailsAppend(labels: map<string, string>, form: Form, a: seq<string>, b: seq<string>)
    ensures Details(labels, form, a + b) == Details(labels, form, a) + Details(labels, form, b)
    decreases |a|
  {
    if a != [] {
      assert (a + b)[0] == a[0];
      assert (a + b)[1..] == a[1..] + b;
      DetailsAppend(labels, form, a[1..], b);
      match DetailLine(labels, form, a[0])
      case Some(line) =>
        assert Details(labels, form, a + b) == [line] + Details(labels, form, a[1..] + b);
      case None =>
        assert Details(labels, form, a + b) == Details(labels, form, a[1..] + b);
    } else {
      assert a + b == b;
    }
  }

  /** A line is emitted exactly when some listed field produces it. */
  lemma {:induction false} DetailsMembership(labels: map<string, string>, form: Form, fields: seq<string>, line: string)
    ensures line in Details(labels, form, fields)
            <==> exists i :: 0 <= i < |fields| && DetailLine(labels, form, fields[i]) == Some(line)
    decreases |fields|
  {
    if fields != [] {
      DetailsMembership(labels, form, fields[1..], line);
      if line in Details(labels, form, fields[1..]) {
        var i :| 0 <= i < |fields[1..]| && DetailLine(labels, form, fields[1..][i]) == Some(line);
        assert DetailLine(labels, form, fields[i + 1]) == Some(line);
      }
      if exists i :: 0 <= i < |fields| && DetailLine(labels, form, fields[i]) == Some(line) {
        var i :| 0 <= i < |fields| && DetailLine(labels, form, fields[i]) == Some(line);
        if i > 0 {
          assert fields[1..][i - 1] == fields[i];
        }
      }
    }
  }

  /** A visible field with a `switch` case shows up as
      `<label>: <trimmed value>` exactly when its trimmed value is non-empty. */
  lemma FieldShownIffFilled(c: Category, outputType: string, form: Form, f: string)
    requires f in VisibleFields(c, outputType) && f in form && f in c.labels
    ensures (c.labels[f] + ": " + Trim(form[f])) in Details(c.labels, form, VisibleFields(c, outputType))
            <== Trim(form[f]) != ""
    ensures Trim(form[f]) == "" ==> DetailLine(c.labels, form, f).None?
  {
    var fields := VisibleFields(c, outputType);
    var line := c.labels[f] + ": " + Trim(form[f]);
    if Trim(form[f]) != "" {
      var i :| 0 <= i < |fields| && fields[i] == f;
      DetailsMembership(c.labels, form, fields, line);
    }
  }

  /** A filled visible field with a `switch` case reaches the prompt: its
      `<label>: <trimmed value>` line occurs in the text sent. */
  lemma FilledFieldInPrompt(c: Category, outputType: string, form: Form, f: string, withHeader: bool)
    requires f in VisibleFields(c, outputType) && f in form && f in c.labels
    requires Trim(form[f]) != ""
    ensures Contains(BuildPrompt(c, outputType, form, withHeader), c.labels[f] + ": " + Trim(form[f]))
  {
    var details := Details(c.labels, form, VisibleFields(c, outputType));
    var line := c.labels[f] + ": " + Trim(form[f]);
    var opening := Opening(c, outputType, withHeader);
    var r := BuildPrompt(c, outputType, form, withHeader);
    FieldShownIffFilled(c, outputType, form, f);
    var i :| 0 <= i < |details| && details[i] == line;
    var k := JoinHasPart(details, "\n", i);
    OccursAfterPrefix(opening + "\n\n", Join(details, "\n"), line, k);
    assert r == opening + "\n\n" + Join(details, "\n");
    assert FindFrom(r, line, 0).Some?;
  }

  /** The full pages' prompt is the demo pages' prompt behind the focus-area
      header. */
  lemma FullIsHeaderPlusDemo(c: Category, outputType: string, form: Form)
    ensures BuildPrompt(c, outputType, form, true)
            == FocusHeader(c, outputType) + BuildPrompt(c, outputType, form, false)
  {
    var d := Details(c.labels, form, VisibleFields(c, outputType));
    var h := FocusHeader(c, outputType);
    var o := Opening(c, outputType, false);
    assert Opening(c, outputType, true) == h + o by {
      var g := GenerateLabel(c, outputType);
      assert o == "Generate " + g + ".";
      ConcatAssoc(h, "Generate " + g, ".");
      ConcatAssoc(h, "Generate ", g);
    }
    if |d| > 0 {
      var tail := "\n\n" + Join(d, "\n");
      assert BuildPrompt(c, outputType, form, true) == (h + o) + tail by {
        ConcatAssoc(h + o, "\n\n", Join(d, "\n"));
      }
      assert BuildPrompt(c, outputType, form, false) == o + tail by {
        ConcatAssoc(o, "\n\n", Join(d, "\n"));
      }
      ConcatAssoc(h, o, tail);
    }
  }

  /** For a listed option the prompt opens with its label (behind the header
      on the full pages). */
  lemma KnownOptionOpening(c: Category, i: int, form: Form, withHeader: bool)
    requires 0 <= i < |c.options| && c.options[i].optionLabel != ""
    requires forall j :: 0 <= j < i ==> c.options[j].value != c.options[i].value
    ensures var name := c.options[i].optionLabel;
            StartsWith(BuildPrompt(c, c.options[i].value, form, withHeader),
              (if withHeader then "[FOCUS AREA: " + name + "]\n\n" else "") + "Generate " + name + ".")
  {
    FindLabelAt(c.options, i);
  }

  lemma {:induction false} FindLabelAt(options: seq<OptionEntry>, i: int)
    requires 0 <= i < |options|
    requires forall j :: 0 <= j < i ==> options[j].value != options[i].value
    ensures FindLabel(options, options[i].value) == Some(options[i].optionLabel)
    decreases i
  {
    if i > 0 {
      assert options[0].value != options[i].value;
      FindLabelAt(options[1..], i - 1);
    }
  }

  /** An option missing from the table considers no field, so the prompt stops
      at the `Generate` sentence whatever the form holds. */
  lemma UnknownOptionHasNoDetails(c: Category, outputType: string, form: Form, withHeader: bool)
    requires outputType !in c.fieldConfig
    ensures BuildPrompt(c, outputType, form, withHeader) == Opening(c, outputType, withHeader)
  {
  }
}

=== FILE: seo.dfy ===
/** The `SEO` head component: the tags a page's metadata props produce, in
    document order. A prop that is absent is `None`; a text prop is emitted
    only when it is non-empty. */
module Seo {
  import opened Wrappers

  const SiteUrl := "https://writestuffassistant.com"

  datatype Props = Props(
    title: Option<string>,
    description: Option<string>,
    canonical: Option<string>,
    noindex: Option<bool>,
    nofollow: Option<bool>,
    ogType: Option<string>,
    ogImage: Option<string>,
    ogImageAlt: Option<string>)

  /** A head element: `<title>`, `<meta name|property=key content=…>` or
      `<link rel=… href=…>`. */
  datatype Tag = Title(text: string) | Meta(key: string, content: string) | Link(rel: string, href: string)

  predicate Given(s: Option<string>) {
    s.Some? && s.value != ""
  }

  /** The robots directive: `index` or `noindex`, a comma, `follow` or
      `nofollow`; a flag left out counts as false. */
  function Robots(noindex: bool, nofollow: bool): (r: string)
    ensures |r| >= 12
    ensures r[0] == (if noindex then 'n' else 'i')
  {
    (if noindex then "noindex" else "index") + "," + (if nofollow then "nofollow" else "follow")
  }

  /** The site URL and the page's path, when the page names one. */
  function FullCanonical(canonical: Option<string>): (r: Option<string>)
    ensures r.Some? <==> Given(canonical)
    ensures r.Some? ==> r.value == SiteUrl + canonical.value && |r.value| > |SiteUrl|
  {
    if Given(canonical) then Some(SiteUrl + canonical.value) else None
  }

  /** The Open Graph type: `website` when the prop is absent; an empty one
      suppresses the tag. */
  function OgType(ogType: Option<string>): (r: string)
    ensures ogType.None? ==> r == "website"
    ensures ogType.Some? ==> r == ogType.value
  {
    ogType.GetOr("website")
  }

  /** `<title>`, description and robots: the tags every page leads with. */
  function Leading(p: Props): (ts: seq<Tag>)
    ensures Meta("robots", Robots(p.noindex.GetOr(false), p.nofollow.GetOr(false))) in ts
    ensures forall c :: Meta("og:url", c) !in ts && Link("canonical", c) !in ts
  {
    (if Given(p.title) then [Title(p.title.value)] else [])
    + (if Given(p.description) then [Meta("description", p.description.value)] else [])
    + [Meta("robots", Robots(p.noindex.GetOr(false), p.nofollow.GetOr(false)))]
  }

  /** The canonical link. */
  function CanonicalTag(p: Props): (ts: seq<Tag>)
    ensures forall c :: Meta("og:url", c) !in ts
  {
    var full := FullCanonical(p.canonical);
    if full.Some? then [Link("canonical", full.value)] else []
  }

  /** The Open Graph type, title and description. */
  function OgHead(p: Props): (ts: seq<Tag>)
    ensures forall c :: Meta("og:url", c) !in ts && Link("canonical", c) !in ts
  {
    var ogType := OgType(p.ogType);
    (if ogType != "" then [Meta("og:type", ogType)] else [])
    + (if Given(p.title) then [Meta("og:title", p.title.value)] else [])
    + (if Given(p.description) then [Meta("og:description", p.description.value)] else [])
  }

  /** The Open Graph URL. */
  function OgUrl(p: Props): (ts: seq<Tag>)
    ensures forall c :: Link("canonical", c) !in ts
  {
    var full := FullCanonical(p.canonical);
    if full.Some? then [Meta("og:url", full.value)] else []
  }

  /** The Open Graph image and its text. */
  function OgImage(p: Props): (ts: seq<Tag>)
    ensures forall c :: Meta("og:url", c) !in ts && Link("canonical", c) !in ts
  {
    (if Given(p.ogImage) then [Meta("og:image", p.ogImage.value)] else [])
    + (if Given(p.ogImageAlt) then [Meta("og:image:alt", p.ogImageAlt.value)] else [])
  }

  /** The tags the component renders, in document order. */
  function Tags(p: Props): (ts: seq<Tag>)
    ensures Meta("robots", Robots(p.noindex.GetOr(false), p.nofollow.GetOr(false))) in ts
    ensures Title(p.title.GetOr("")) in ts <==> Given(p.title)
  {
    Leading(p) + CanonicalTag(p) + OgHead(p) + OgUrl(p) + OgImage(p)
  }

  /** The tags whose key is `key`. */
  function Keyed(ts: seq<Tag>, key: string): (r: seq<string>)
    ensures |r| <= |ts|
    ensures forall c :: c in r <==> Meta(key, c) in ts
  {
    if ts == [] then []
    else (if ts[0].Meta? && ts[0].key == key then [ts[0].content] else []) + Keyed(ts[1..], key)
  }

  /** The canonical links among `ts`. */
  function CanonicalLinks(ts: seq<Tag>): (r: seq<string>)
    ensures |r| <= |ts|
    ensures forall c :: c in r <==> Link("canonical", c) in ts
  {
    if ts == [] then []
    else (if ts[0].Link? && ts[0].rel == "canonical" then [ts[0].href] else []) + CanonicalLinks(ts[1..])
  }

  // ---------------------------------------------------------------------------
  // Properties
  // ---------------------------------------------------------------------------

  /** The robots directive determines both flags: two directives are equal
      exactly when they agree on indexing and on following. */
  lemma RobotsDetermineFlags(a: bool, b: bool, c: bool, d: bool)
    ensures Robots(a, b) == Robots(c, d) <==> a == c && b == d
  {
    if Robots(a, b) == Robots(c, d) {
      assert Robots(a, b)[0] == Robots(c, d)[0];
      var k := if a then 8 else 6;
      assert Robots(a, b)[k] == (if b then 'n' else 'f');
      assert Robots(c, d)[k] == (if d then 'n' else 'f');
    }
  }

  /** The Open Graph URL and the canonical link appear together, exactly
      when the page names a canonical path, and both give the site URL
      followed by that path. */
  lemma OgUrlFollowsCanonical(p: Props)
    ensures var ts := Tags(p);
            && (Given(p.canonical) ==>
                  Keyed(ts, "og:url") == [SiteUrl + p.canonical.value]
                  && CanonicalLinks(ts) == [SiteUrl + p.canonical.value])
            && (!Given(p.canonical) ==> Keyed(ts, "og:url") == [] && CanonicalLinks(ts) == [])
  {
    OgUrlOnlyFromItsSection(p);
    CanonicalOnlyFromItsSection(p);
    OgUrlSection(p);
    CanonicalSection(p);
  }

  lemma OgUrlSection(p: Props)
    ensures Keyed(OgUrl(p), "og:url") == (if Given(p.canonical) then [SiteUrl + p.canonical.value] else [])
  {
    if Given(p.canonical) {
      assert OgUrl(p) == [Meta("og:url", SiteUrl + p.canonical.value)];
      assert OgUrl(p)[1..] == [];
    }
  }

  lemma CanonicalSection(p: Props)
    ensures CanonicalLinks(CanonicalTag(p)) == (if Given(p.canonical) then [SiteUrl + p.canonical.value] else [])
  {
    if Given(p.canonical) {
      assert CanonicalTag(p) == [Link("canonical", SiteUrl + p.canonical.value)];
      assert CanonicalTag(p)[1..] == [];
    }
  }

  /** Only the Open Graph URL section contributes an `og:url`. */
  lemma OgUrlOnlyFromItsSection(p: Props)
    ensures Keyed(Tags(p), "og:url") == Keyed(OgUrl(p), "og:url")
  {
    var a := Leading(p) + CanonicalTag(p);
    var b := a + OgHead(p);
    KeyedAppend(b + OgUrl(p), OgImage(p), "og:url");
    KeyedAppend(b, OgUrl(p), "og:url");
    KeyedAppend(a, OgHead(p), "og:url");
    KeyedAppend(Leading(p), CanonicalTag(p), "og:url");
    OtherSectionsHaveNoOgUrl(p);
  }

  lemma OtherSectionsHaveNoOgUrl(p: Props)
    ensures Keyed(Leading(p), "og:url") == [] && Keyed(CanonicalTag(p), "og:url") == []
    ensures Keyed(OgHead(p), "og:url") == [] && Keyed(OgImage(p), "og:url") == []
  {
    NoOgUrlIn(Leading(p));
    NoOgUrlIn(CanonicalTag(p));
    NoOgUrlIn(OgHead(p));
    NoOgUrlIn(OgImage(p));
  }

  /** Only the canonical section contributes a canonical link. */
  lemma CanonicalOnlyFromItsSection(p: Props)
    ensures CanonicalLinks(Tags(p)) == CanonicalLinks(CanonicalTag(p))
  {
    var a := Leading(p) + CanonicalTag(p);
    var b := a + OgHead(p);
    LinksAppend(b + OgUrl(p), OgImage(p));
    LinksAppend(b, OgUrl(p));
    LinksAppend(a, OgHead(p));
    LinksAppend(Leading(p), CanonicalTag(p));
    OtherSectionsHaveNoLink(p);
  }

  lemma OtherSectionsHaveNoLink(p: Props)
    ensures CanonicalLinks(Leading(p)) == [] && CanonicalLinks(OgHead(p)) == []
    ensures CanonicalLinks(OgUrl(p)) == [] && CanonicalLinks(OgImage(p)) == []
  {
    NoLinkIn(Leading(p));
    NoLinkIn(OgHead(p));
    NoLinkIn(OgUrl(p));
    NoLinkIn(OgImage(p));
  }

  lemma {:induction false} KeyedAppend(xs: seq<Tag>, ys: seq<Tag>, key: string)
    ensures Keyed(xs + ys, key) == Keyed(xs, key) + Keyed(ys, key)
    decreases |xs|
  {
    if xs == [] {
      assert xs + ys == ys;
    } else {
      assert (xs + ys)[0] == xs[0];
      assert (xs + ys)[1..] == xs[1..] + ys;
      KeyedAppend(xs[1..], ys, key);
    }
  }

  lemma {:induction false} LinksAppend(xs: seq<Tag>, ys: seq<Tag>)
    ensures CanonicalLinks(xs + ys) == CanonicalLinks(xs) + CanonicalLinks(ys)
    decreases |xs|
  {
    if xs == [] {
      assert xs + ys == ys;
    } else {
      assert (xs + ys)[0] == xs[0];
      assert (xs + ys)[1..] == xs[1..] + ys;
      LinksAppend(xs[1..], ys);
    }
  }

  lemma NoOgUrlIn(ts: seq<Tag>)
    requires forall c :: Meta("og:url", c) !in ts
    ensures Keyed(ts, "og:url") == []
  {
  }

  lemma NoLinkIn(ts: seq<Tag>)
    requires forall c :: Link("canonical", c) !in ts
    ensures CanonicalLinks(ts) == []
  {
  }
}

=== FILE: seqs.dfy ===
/** `Array.prototype.filter`, shared by the modules that keep the entries
    of a list a predicate accepts. */
module Seqs {
  /** `xs.filter(keep)`: the accepted entries, in order. */
  function Filter<T(!new)>(keep: T -> bool, xs: seq<T>): (r: seq<T>)
    ensures |r| <= |xs|
    ensures forall x :: x in r <==> x in xs && keep(x)
  {
    if xs == [] then []
    else (if keep(xs[0]) then [xs[0]] else []) + Filter(keep, xs[1..])
  }

  /** Filtering a concatenation filters each part: the order of the
      entries is kept. */
  lemma {:induction false} FilterAppend<T(!new)>(keep: T -> bool, a: seq<T>, b: seq<T>)
    ensures Filter(keep, a + b) == Filter(keep, a) + Filter(keep, b)
    decreases |a|
  {
    if a != [] {
      assert (a + b)[0] == a[0];
      assert (a + b)[1..] == a[1..] + b;
      FilterAppend(keep, a[1..], b);
    } else {
      assert a + b == b;
    }
  }

  /** A filter that accepts every entry keeps the list as it is. */
  lemma {:induction false} FilterKeepsAll<T(!new)>(keep: T -> bool, xs: seq<T>)
    requires forall x :: x in xs ==> keep(x)
    ensures Filter(keep, xs) == xs
    decreases |xs|
  {
    if xs != [] {
      assert xs[0] in xs;
      assert forall x :: x in xs[1..] ==> x in xs;
      FilterKeepsAll(keep, xs[1..]);
    }
  }
}

=== FILE: subscription.dfy ===
/** The `useSubscription` provider: the subscription record it loads for the
    signed-in user, the whole days left in a trial, and the three derived
    access predicates. Dates are instants in milliseconds; the clock is a
    parameter. */
module Subscription {
  import opened Wrappers

  /** `1000 * 60 * 60 * 24`: the milliseconds in a day. */
  const MsPerDay := 86_400_000

  /** `Math.ceil(a / b)` for a positive divisor. */
  function CeilDiv(a: int, b: int): (q: int)
    requires b > 0
    ensures (q - 1) * b < a <= q * b
  {
    -((-a) / b)
  }

  /** `getDaysRemaining(endDate)`: no date gives 0; otherwise the whole days
      left until the end, rounded up, and never below zero. */
  function DaysRemaining(end: Option<int>, now: int): (d: int)
    ensures d >= 0
    ensures end.None? ==> d == 0
    ensures end.Some? ==> (d == 0 <==> end.value <= now)
    ensures end.Some? && d > 0 ==> (d - 1) * MsPerDay < end.value - now <= d * MsPerDay
  {
    match end
    case None => 0
    case Some(e) =>
      var days := CeilDiv(e - now, MsPerDay);
      if days > 0 then days else 0
  }

  /** The provider's state. */
  datatype State = State(
    isSubscribed: bool,
    trialEndDate: Option<int>,
    customerId: Option<string>,
    subscriptionId: Option<string>,
    daysRemaining: int,
    loading: bool)

  /** The state before any load, and the one after a load finding no row or
      no user (the same record with `loading` off). */
  const Initial := State(false, None, None, None, 0, true)
  const Empty := State(false, None, None, None, 0, false)

  /** What `maybeSingle()` returned. */
  datatype Read =
    | ReadFailed
    | NoRow
    | RowFound(isSubscribed: bool, trialEndDate: Option<int>,
               customerId: Option<string>, subscriptionId: Option<string>)

  /** `fetchSubscriptionData()`. */
  function Fetch(userId: Option<string>, read: Read, now: int, prev: State): (s: State)
    ensures !s.loading
    ensures s.daysRemaining >= 0 || (read.ReadFailed? && userId.Some? && s.daysRemaining == prev.daysRemaining)
    ensures userId.None? ==> s == Empty
    ensures userId.Some? && read.ReadFailed? ==> s == prev.(loading := false)
    ensures userId.Some? && read.NoRow? ==> s == Empty
    ensures userId.Some? && read.RowFound? ==>
              s.isSubscribed == read.isSubscribed && s.trialEndDate == read.trialEndDate
              && s.customerId == read.customerId && s.subscriptionId == read.subscriptionId
              && s.daysRemaining == DaysRemaining(read.trialEndDate, now)
  {
    if userId.None? then Empty
    else
      match read
      case ReadFailed => prev.(loading := false)
      case NoRow => Empty
      case RowFound(sub, end, cust, subId) =>
        State(sub, end, cust, subId, DaysRemaining(end, now), false)
  }

  /** `hasActiveAccess()`. */
  predicate HasActiveAccess(s: State) {
    s.isSubscribed || (s.trialEndDate.Some? && s.daysRemaining > 0)
  }

  /** `isTrialActive()`. */
  predicate IsTrialActive(s: State) {
    !s.isSubscribed && s.trialEndDate.Some? && s.daysRemaining > 0
  }

  /** `isTrialExpired()`. */
  predicate IsTrialExpired(s: State) {
    !s.isSubscribed && s.trialEndDate.Some? && s.daysRemaining == 0
  }

  // ---------------------------------------------------------------------------
  // Properties
  // ---------------------------------------------------------------------------

  /** An active trial and an expired trial exclude each other, and access
      means a subscription or an active trial. */
  lemma AccessIsSubscriptionOrTrial(s: State)
    ensures !(IsTrialActive(s) && IsTrialExpired(s))
    ensures HasActiveAccess(s) <==> s.isSubscribed || IsTrialActive(s)
    ensures IsTrialExpired(s) ==> !HasActiveAccess(s)
  {
  }

  /** After a load, a trial user without a subscription is in exactly one of
      the two trial states, decided by whether the end instant has passed. */
  lemma LoadedTrialIsActiveOrExpired(userId: string, sub: bool, end: int,
                                     cust: Option<string>, subId: Option<string>, now: int, prev: State)
    requires !sub
    ensures var s := Fetch(Some(userId), RowFound(sub, Some(end), cust, subId), now, prev);
            && (IsTrialActive(s) <==> now < end)
            && (IsTrialExpired(s) <==> end <= now)
            && (IsTrialActive(s) != IsTrialExpired(s))
  {
  }

  /** The days left never grow as the clock advances. */
  lemma DaysRemainingMonotone(end: Option<int>, now1: int, now2: int)
    requires now1 <= now2
    ensures DaysRemaining(end, now2) <= DaysRemaining(end, now1)
  {
    if end.Some? {
      var d1 := DaysRemaining(end, now1);
      var d2 := DaysRemaining(end, now2);
      if d2 > 0 {
        assert (d2 - 1) * MsPerDay < end.value - now2 <= end.value - now1;
        if d1 > 0 {
          assert end.value - now1 <= d1 * MsPerDay;
          assert (d2 - 1) * MsPerDay < d1 * MsPerDay;
        }
      }
    }
  }

  /** A trial ending exactly `n` days from now shows `n` days left. */
  lemma WholeDaysExact(now: int, n: nat)
    ensures DaysRemaining(Some(now + n * MsPerDay), now) == n
  {
    var d := DaysRemaining(Some(now + n * MsPerDay), now);
    if d > 0 {
      assert (d - 1) * MsPerDay < n * MsPerDay <= d * MsPerDay;
      assert d - 1 < n <= d;
    }
  }
}

=== FILE: subscription_card.dfy ===
/** `SubscriptionStatus`: the dashboard card that shows the subscription or
    the trial, cancels a subscription, and sends the user to the billing
    portal. The card computes its own trial countdown; as written it does
    not clamp it at zero. `View` is the card as written; `CorrectedView`
    shows the clamped countdown the provider computes. */
module SubscriptionCard {
  import opened Wrappers
  import opened Subscription

  /** The card's own `getDaysRemaining`, as written: whole days rounded up,
      with no lower bound. */
  function CardDaysAsWritten(end: Option<int>, now: int): (d: int)
    ensures end.None? ==> d == 0
    ensures end.Some? ==> (d - 1) * MsPerDay < end.value - now <= d * MsPerDay
  {
    match end
    case None => 0
    case Some(e) => CeilDiv(e - now, MsPerDay)
  }

  /** The countdown the card shows: the provider's clamped rule. */
  function CardDays(end: Option<int>, now: int): (d: int)
    ensures d >= 0
    ensures end.Some? && now < end.value ==> d == CardDaysAsWritten(end, now)
    ensures end.Some? && end.value <= now ==> d == 0
  {
    DaysRemaining(end, now)
  }

  datatype Card =
    | ActiveCard(nextBilling: Option<int>)
    | TrialCard(daysRemaining: int)
    | NoSubscriptionCard

  /** The card's branches, in order: subscribed, a known trial end date,
      otherwise no subscription; the trial card shows the card's own
      countdown as written. */
  function View(isSubscribed: bool, subscriptionEndDate: Option<int>,
                trialEndDate: Option<int>, now: int): (c: Card)
    ensures isSubscribed <==> c.ActiveCard?
    ensures c.ActiveCard? ==> c.nextBilling == subscriptionEndDate
    ensures c.TrialCard? <==> !isSubscribed && trialEndDate.Some?
    ensures c.TrialCard? ==> c.daysRemaining == CardDaysAsWritten(trialEndDate, now)
    ensures c.TrialCard? && now < trialEndDate.value ==> c.daysRemaining == DaysRemaining(trialEndDate, now)
    ensures c.TrialCard? && trialEndDate.value <= now ==> c.daysRemaining <= 0
  {
    if isSubscribed then ActiveCard(subscriptionEndDate)
    else if trialEndDate.Some? then TrialCard(CardDaysAsWritten(trialEndDate, now))
    else NoSubscriptionCard
  }

  /** The card with its countdown clamped: the same branches as `View`, and
      the trial card shows the provider's days left, never negative. */
  function CorrectedView(isSubscribed: bool, subscriptionEndDate: Option<int>,
                         trialEndDate: Option<int>, now: int): (c: Card)
    ensures var v := View(isSubscribed, subscriptionEndDate, trialEndDate, now);
            && (c.TrialCard? <==> v.TrialCard?)
            && (!v.TrialCard? ==> c == v)
            && (v.TrialCard? && v.daysRemaining >= 0 ==> c == v)
    ensures c.TrialCard? ==> c.daysRemaining >= 0 && c.daysRemaining == DaysRemaining(trialEndDate, now)
  {
    match View(isSubscribed, subscriptionEndDate, trialEndDate, now)
    case TrialCard(_) => TrialCard(CardDays(trialEndDate, now))
    case v => v
  }

  /** A write the card makes: `update({ is_subscribed: false })` on the
      user's row, and nothing else. */
  datatype CardWrite = ClearSubscribed(userId: string)

  datatype Toast = Unsubscribed | UnsubscribeFailed

  /** `handleUnsubscribe()`: the write made and the toast shown. */
  function Unsubscribe(user: Option<string>, writeOk: bool): (out: (seq<CardWrite>, Toast))
    ensures out.1 == Unsubscribed <==> user.Some? && writeOk
    ensures out.0 == (if user.Some? && writeOk then [ClearSubscribed(user.value)] else [])
  {
    match user
    case None => ([], UnsubscribeFailed)
    case Some(u) => if writeOk then ([ClearSubscribed(u)], Unsubscribed) else ([], UnsubscribeFailed)
  }

  datatype ClickResult = GoToSignIn | GoToPortal(url: string) | ShowError(message: string)

  const PortalFailed := "Failed to open subscription portal. Please try again."

  /** `handleSubscribeClick()`: a signed-out user is sent to the sign-in page
      without asking for a portal session; otherwise the portal session's
      URL or its error message (`error.message || …`). */
  function SubscribeClick(user: Option<string>, portal: Result<string, string>): (r: ClickResult)
    ensures user.None? ==> r == GoToSignIn
    ensures user.Some? && portal.Success? ==> r == GoToPortal(portal.value)
    ensures user.Some? && portal.Failure? ==> r.ShowError? && r.message != ""
    ensures user.Some? && portal.Failure? && portal.error != "" ==> r == ShowError(portal.error)
  {
    if user.None? then GoToSignIn
    else
      match portal
      case Success(url) => GoToPortal(url)
      case Failure(m) => ShowError(if m != "" then m else PortalFailed)
  }

  // ---------------------------------------------------------------------------
  // Properties
  // ---------------------------------------------------------------------------

  /** The written countdown goes negative once a trial has ended: two days
      after the end it reads -2, so the card would say "-2 days remaining". */
  lemma CardDaysAsWrittenGoesNegative(now: int)
    ensures CardDaysAsWritten(Some(now - 2 * MsPerDay), now) == -2
  {
    var d := CardDaysAsWritten(Some(now - 2 * MsPerDay), now);
    assert (d - 1) * MsPerDay < -2 * MsPerDay <= d * MsPerDay;
  }

  /** As written, the card shows "-2 days remaining" two days after a
      trial has ended. */
  lemma ViewShowsNegativeDays(now: int)
    ensures View(false, None, Some(now - 2 * MsPerDay), now) == TrialCard(-2)
  {
    CardDaysAsWrittenGoesNegative(now);
  }

  /** The corrected countdown agrees with the header's: the card and the
      header never disagree on the days left. */
  lemma CardAgreesWithHeader(userId: string, end: int, cust: Option<string>,
                             subId: Option<string>, now: int, prev: State)
    ensures var s := Fetch(Some(userId), RowFound(false, Some(end), cust, subId), now, prev);
            CorrectedView(false, None, Some(end), now) == TrialCard(s.daysRemaining)
  {
  }
}

=== FILE: text.dfy ===
/** The JavaScript string operations the application relies on, over `string`
    (`seq<char>`): `trim`, `startsWith`, `indexOf`, `split` and `join` with a
    literal separator, ASCII `toLowerCase`, `Number.prototype.toString` and
    `parseInt(s, 10)`. */
module Text {
  import opened Wrappers

  // ---------------------------------------------------------------------------
  // Whitespace and trim
  // ---------------------------------------------------------------------------

  /** The ECMAScript WhiteSpace and LineTerminator code points, which is
      exactly the set `String.prototype.trim` strips. */
  predicate IsSpace(c: char) {
    || c == '\t' || c == '\n' || c == '\U{000B}' || c == '\U{000C}' || c == '\r'
    || c == ' ' || c == '\U{00A0}' || c == '\U{1680}'
    || ('\U{2000}' <= c <= '\U{200A}')
    || c == '\U{2028}' || c == '\U{2029}' || c == '\U{202F}' || c == '\U{205F}'
    || c == '\U{3000}' || c == '\U{FEFF}'
  }

  predicate AllSpace(s: string) {
    forall i :: 0 <= i < |s| ==> IsSpace(s[i])
  }

  /** Neither end of `s` is whitespace: the shape of every `trim` result. */
  predicate IsTrimmed(s: string) {
    s == [] || (!IsSpace(s[0]) && !IsSpace(s[|s| - 1]))
  }

  /** `s.trimStart()`: the suffix left after the longest all-space prefix. */
  function TrimStart(s: string): (r: string)
    ensures |r| <= |s| && r == s[|s| - |r|..]
    ensures AllSpace(s[..|s| - |r|])
    ensures r == [] || !IsSpace(r[0])
    decreases |s|
  {
    if |s| > 0 && IsSpace(s[0]) then
      var r := TrimStart(s[1..]);
      assert s[..|s| - |r|] == [s[0]] + s[1..][..|s| - 1 - |r|];
      r
    else
      s
  }

  /** `s.trimEnd()`: the prefix left before the longest all-space suffix. */
  function TrimEnd(s: string): (r: string)
    ensures |r| <= |s| && r == s[..|r|]
    ensures AllSpace(s[|r|..])
    ensures r == [] || !IsSpace(r[|r| - 1])
    decreases |s|
  {
    if |s| > 0 && IsSpace(s[|s| - 1]) then
      var r := TrimEnd(s[..|s| - 1]);
      assert s[|r|..] == s[..|s| - 1][|r|..] + [s[|s| - 1]];
      r
    else
      s
  }

  /** `s.trim()`. */
  function Trim(s: string): (r: string)
    ensures IsTrimmed(r)
    ensures r == [] <==> AllSpace(s)
  {
    var t := TrimStart(s);
    var r := TrimEnd(t);
    if r == [] then
      // `t` keeps a non-space first character unless it is empty, and an
      // empty trimEnd means `t` is all space: so nothing was left after the
      // leading spaces.
      assert t[|r|..] == t;
      assert t == [];
      assert s[..|s|] == s;
      r
    else
      assert !AllSpace(s) by {
        assert r[0] == t[0];
        assert s[|s| - |t|] == t[0];
      }
      assert r[0] == t[0];
      r
  }

  /** `!s.trim()` in the source: blank after trimming, which by the
      contract of `Trim` means every character is whitespace. */
  predicate IsBlank(s: string) {
    AllSpace(s)
  }

  /** Trimming a string that is already trimmed changes nothing, so trimming
      is idempotent. */
  lemma TrimOfTrimmed(s: string)
    requires IsTrimmed(s)
    ensures Trim(s) == s
  {
    assert TrimStart(s) == s;
    assert TrimEnd(s) == s;
  }

  lemma TrimIdempotent(s: string)
    ensures Trim(Trim(s)) == Trim(s)
  {
    TrimOfTrimmed(Trim(s));
  }

  // ---------------------------------------------------------------------------
  // Searching, splitting and joining
  // ---------------------------------------------------------------------------

  /** `s.startsWith(p)`. */
  predicate StartsWith(s: string, p: string) {
    |p| <= |s| && s[..|p|] == p
  }

  /** `pat` occurs in `s` at position `k`. */
  predicate OccursAt(s: string, pat: string, k: int) {
    0 <= k && k + |pat| <= |s| && s[k..k + |pat|] == pat
  }

  /** The first position at or after `from` where `pat` occurs. */
  function FindFrom(s: string, pat: string, from: nat): (r: Option<nat>)
    requires from <= |s|
    ensures r.Some? ==> from <= r.value && OccursAt(s, pat, r.value)
    ensures r.Some? ==> forall k :: from <= k < r.value ==> !OccursAt(s, pat, k)
    ensures r.None? ==> forall k :: from <= k ==> !OccursAt(s, pat, k)
    decreases |s| - from
  {
    if from + |pat| > |s| then None
    else if s[from..from + |pat|] == pat then Some(from)
    else FindFrom(s, pat, from + 1)
  }

  /** `s.indexOf(pat)`, with `None` for -1. */
  function IndexOf(s: string, pat: string): Option<nat> {
    FindFrom(s, pat, 0)
  }

  predicate Contains(s: string, pat: string) {
    IndexOf(s, pat).Some?
  }

  /** `parts.join(sep)`. */
  function Join(parts: seq<string>, sep: string): string {
    if |parts| == 0 then ""
    else if |parts| == 1 then parts[0]
    else parts[0] + sep + Join(parts[1..], sep)
  }

  /** `s.split(sep)` for a non-empty literal separator: the pieces between
      successive left-to-right occurrences. No piece contains `sep`, and joining
      the pieces with `sep` gives `s` back. */
  function Split(s: string, sep: string): (parts: seq<string>)
    requires |sep| > 0
    ensures |parts| >= 1
    ensures forall i :: 0 <= i < |parts| ==> !Contains(parts[i], sep)
    ensures Join(parts, sep) == s
    decreases |s|
  {
    match IndexOf(s, sep)
    case None => [s]
    case Some(i) =>
      var head := s[..i];
      var rest := Split(s[i + |sep|..], sep);
      assert !Contains(head, sep) by {
        forall k | 0 <= k ensures !OccursAt(head, sep, k) {
          if k + |sep| <= |head| {
            assert head[k..k + |sep|] == s[k..k + |sep|];
            assert !OccursAt(s, sep, k);
          }
        }
      }
      var parts := [head] + rest;
      assert parts[1..] == rest;
      assert s == head + sep + s[i + |sep|..];
      parts
  }

  /** A string without the separator splits into itself alone. */
  lemma SplitNoSeparator(s: string, sep: string)
    requires |sep| > 0 && !Contains(s, sep)
    ensures Split(s, sep) == [s]
  {
  }

  /** Splitting the separator-free pieces' join recovers the pieces. */
  lemma {:induction false} SplitJoin(parts: seq<string>, sep: string)
    requires |sep| > 0 && |parts| >= 1
    requires forall i :: 0 <= i < |parts| ==> !Contains(parts[i], sep)
    requires forall i :: 0 <= i < |parts| - 1 ==> !Contains(parts[i] + sep[..|sep| - 1], sep)
    ensures Split(Join(parts, sep), sep) == parts
    decreases |parts|
  {
    var s := Join(parts, sep);
    if |parts| == 1 {
      SplitNoSeparator(parts[0], sep);
    } else {
      var rest := Join(parts[1..], sep);
      var h := parts[0];
      assert s == h + sep + rest;
      assert OccursAt(s, sep, |h|) by {
        assert s[|h|..|h| + |sep|] == sep;
      }
      var w := h + sep[..|sep| - 1];
      assert !Contains(w, sep);
      forall k | 0 <= k < |h| ensures !OccursAt(s, sep, k) {
        assert !OccursAt(w, sep, k);
        assert k + |sep| <= |w|;
        assert w[k..k + |sep|] == s[k..k + |sep|];
      }
      FindFromFirst(s, sep, 0, |h|);
      assert s[..|h|] == h;
      assert s[|h| + |sep|..] == rest;
      SplitJoin(parts[1..], sep);
      assert parts == [h] + parts[1..];
    }
  }

  /** The first occurrence at or after `from` is what `FindFrom` reports. */
  lemma {:induction false} FindFromFirst(s: string, pat: string, from: nat, j: nat)
    requires from <= j && OccursAt(s, pat, j)
    requires forall k :: from <= k < j ==> !OccursAt(s, pat, k)
    ensures FindFrom(s, pat, from) == Some(j)
    decreases j - from
  {
    if from < j {
      assert !OccursAt(s, pat, from);
      FindFromFirst(s, pat, from + 1, j);
    }
  }

  /** An occurrence in `b` is an occurrence in `a + b`, shifted by `|a|`. */
  lemma OccursAfterPrefix(a: string, b: string, pat: string, k: nat)
    requires OccursAt(b, pat, k)
    ensures OccursAt(a + b, pat, |a| + k)
  {
    assert (a + b)[|a| + k..|a| + k + |pat|] == b[k..k + |pat|];
  }

  /** Every part of a join occurs in the joined text. */
  lemma {:induction false} JoinHasPart(parts: seq<string>, sep: string, i: nat) returns (k: nat)
    requires i < |parts|
    ensures OccursAt(Join(parts, sep), parts[i], k)
    ensures Contains(Join(parts, sep), parts[i])
    decreases i
  {
    var s := Join(parts, sep);
    if |parts| == 1 {
      k := 0;
      assert s[..|parts[0]|] == parts[0];
    } else if i == 0 {
      k := 0;
      assert s[..|parts[0]|] == parts[0];
    } else {
      var k' := JoinHasPart(parts[1..], sep, i - 1);
      OccursAfterPrefix(parts[0] + sep, Join(parts[1..], sep), parts[i], k');
      k := |parts[0] + sep| + k';
    }
    assert FindFrom(s, parts[i], 0).Some?;
  }

  /** Concatenation regroups freely. */
  lemma ConcatAssoc(a: string, b: string, c: string)
    ensures a + (b + c) == (a + b) + c
  {
  }

  // ---------------------------------------------------------------------------
  // Case
  // ---------------------------------------------------------------------------

  function LowerChar(c: char): char {
    if 'A' <= c <= 'Z' then (c as int + 32) as char else c
  }

  /** `s.toLowerCase()` on ASCII letters; every other character is kept. */
  function ToLower(s: string): (r: string)
    ensures |r| == |s|
    ensures forall i :: 0 <= i < |s| ==> r[i] == LowerChar(s[i])
  {
    if s == [] then [] else [LowerChar(s[0])] + ToLower(s[1..])
  }

  /** Lower-casing never turns a space into a non-space or back, so it commutes
      with trimming and both operations can be repeated harmlessly. */
  lemma LowerKeepsTrimmed(s: string)
    requires IsTrimmed(s)
    ensures IsTrimmed(ToLower(s))
  {
  }

  lemma ToLowerIdempotent(s: string)
    ensures ToLower(ToLower(s)) == ToLower(s)
  {
  }

  // ---------------------------------------------------------------------------
  // Numbers as text
  // ---------------------------------------------------------------------------

  predicate IsDigit(c: char) {
    '0' <= c <= '9'
  }

  function DigitChar(d: nat): (c: char)
    requires d < 10
    ensures IsDigit(c) && c as int - '0' as int == d
  {
    ('0' as int + d) as char
  }

  /** `n.toString()` for a non-negative integer: decimal digits, no leading
      zero except for 0 itself. */
  function NatToString(n: nat): (r: string)
    ensures |r| >= 1
    ensures forall i :: 0 <= i < |r| ==> IsDigit(r[i])
    ensures r[0] == '0' ==> n == 0
    decreases n
  {
    if n < 10 then [DigitChar(n)] else NatToString(n / 10) + [DigitChar(n % 10)]
  }

  /** `n.toString()` for any integer. */
  function IntToString(n: int): string {
    if n < 0 then "-" + NatToString(-n) else NatToString(n)
  }

  /** The value of a string of decimal digits, read left to right. */
  function DigitsValue(s: string): nat
    requires forall i :: 0 <= i < |s| ==> IsDigit(s[i])
  {
    if s == [] then 0
    else
      assert IsDigit(s[|s| - 1]);
      DigitsValue(s[..|s| - 1]) * 10 + (s[|s| - 1] as int - '0' as int)
  }

  /** Length of the longest all-digit prefix of `s`. */
  function DigitsPrefix(s: string): (k: nat)
    ensures k <= |s|
    ensures forall i :: 0 <= i < k ==> IsDigit(s[i])
    ensures k < |s| ==> !IsDigit(s[k])
  {
    if s != [] && IsDigit(s[0]) then 1 + DigitsPrefix(s[1..]) else 0
  }

  /** `parseInt(s, 10)`: leading whitespace skipped, an optional sign, then the
      longest run of digits; `None` stands for `NaN` (no digit at all). */
  function ParseInt(s: string): Option<int> {
    ParseSigned(TrimStart(s))
  }

  /** `parseInt` after the leading whitespace: an optional sign, then the
      longest run of digits. */
  function ParseSigned(t: string): Option<int> {
    var neg := |t| > 0 && t[0] == '-';
    var body := if |t| > 0 && (t[0] == '-' || t[0] == '+') then t[1..] else t;
    var k := DigitsPrefix(body);
    if k == 0 then None
    else
      var v: int := DigitsValue(body[..k]);
      Some(if neg then -v else v)
  }

  /** A text that does not start with whitespace is its own `trimStart`. */
  lemma TrimStartOfUnspaced(s: string)
    requires s == [] || !IsSpace(s[0])
    ensures TrimStart(s) == s
  {
  }

  lemma {:induction false} DigitsValueOfNat(n: nat)
    ensures DigitsValue(NatToString(n)) == n
    decreases n
  {
    var r := NatToString(n);
    if n >= 10 {
      DigitsValueOfNat(n / 10);
      assert r[..|r| - 1] == NatToString(n / 10);
    }
  }

  /** Reading back what `toString` wrote gives the same integer: the round trip
      the demo counter in local storage depends on. */
  lemma ParseIntOfIntToString(n: int)
    ensures ParseInt(IntToString(n)) == Some(n)
    ensures IntToString(n) != ""
  {
    if n < 0 {
      var d := NatToString(-n);
      assert IntToString(n) == "-" + d;
      ParseNegativeDigits(d);
      DigitsValueOfNat(-n);
    } else {
      var d := NatToString(n);
      assert IntToString(n) == d;
      ParseDigits(d);
      DigitsValueOfNat(n);
    }
  }

  /** `parseInt` of a run of digits is their value. */
  lemma ParseDigits(d: string)
    requires |d| >= 1 && forall i :: 0 <= i < |d| ==> IsDigit(d[i])
    ensures ParseInt(d) == Some(DigitsValue(d))
  {
    NotSpace(d[0]);
    TrimStartOfUnspaced(d);
    DigitsPrefixAllDigits(d);
    assert d[..|d|] == d;
  }

  /** `parseInt` of a minus sign and a run of digits is their negated value. */
  lemma ParseNegativeDigits(d: string)
    requires |d| >= 1 && forall i :: 0 <= i < |d| ==> IsDigit(d[i])
    ensures ParseInt("-" + d) == Some(-(DigitsValue(d) as int))
  {
    var s := "-" + d;
    assert s[0] == '-' && s[1..] == d;
    assert ParseInt(s) == ParseSigned(s) by {
      NotSpace(s[0]);
      TrimStartOfUnspaced(s);
    }
    DigitsPrefixAllDigits(d);
    ParseSignedNegative(s, d);
  }

  lemma ParseSignedNegative(t: string, d: string)
    requires |d| >= 1 && forall i :: 0 <= i < |d| ==> IsDigit(d[i])
    requires DigitsPrefix(d) == |d|
    requires |t| > 0 && t[0] == '-' && t[1..] == d
    ensures ParseSigned(t) == Some(-(DigitsValue(d) as int))
  {
    assert d[..|d|] == d;
  }

  /** `parseInt` reads the text `NaN` as `NaN`: it has no digit. */
  lemma ParseIntOfNaN()
    ensures ParseInt("NaN").None?
  {
    var s := "NaN";
    assert !IsSpace(s[0]) && !IsDigit(s[0]);
    TrimStartOfUnspaced(s);
  }

  lemma NotSpace(c: char)
    requires c == '-' || IsDigit(c)
    ensures !IsSpace(c)
  {
  }

  lemma {:induction false} DigitsPrefixAllDigits(s: string)
    requires forall i :: 0 <= i < |s| ==> IsDigit(s[i])
    ensures DigitsPrefix(s) == |s|
    decreases |s|
  {
    if s != [] {
      DigitsPrefixAllDigits(s[1..]);
    }
  }
}

=== FILE: thread.dfy ===
/** Conversation threads of the full writing pages: the turns a page keeps,
    the `query_history` row its `saveToHistory` writes (a thread root with
    the whole `conversation_history`, or, on StageScreen, a plain row per
    exchange), and the plain-text transcript `handleDownload` produces.
    The store, the clock and `crypto.randomUUID` are parameters. */
module Thread {
  import opened Wrappers
  import opened Text
  import opened Categories

  /** One entry of `conversation_history`; the page's own conversation
      carries no timestamp. */
  datatype Turn = Turn(role: string, content: string, timestamp: Option<string>)

  /** A `query_history` row. Columns an insert leaves out are `None`. */
  datatype Row = Row(
    userId: string,
    queryType: string,
    queryText: string,
    responseText: string,
    conversationId: string,
    isThreadRoot: Option<bool>,
    history: Option<seq<Turn>>)

  /** The thread root a follow-up save reads back. `createdAt` is `None`
      where the page does not select `created_at`. */
  datatype Existing = Existing(
    history: Option<seq<Turn>>,
    queryText: string,
    responseText: string,
    createdAt: Option<string>)

  /** The write a save made take effect. */
  datatype Save =
    | NoSave
    | InsertRow(row: Row)
    | AppendTurns(conversationId: string, history: seq<Turn>, updatedAt: string)

  /** The write, and whether the page showed its "Save Warning" toast. */
  datatype SaveOutcome = SaveOutcome(write: Save, warning: bool)

  /** A JavaScript string that is truthy: present and non-empty. */
  predicate Truthy(s: Option<string>) {
    s.Some? && s.value != ""
  }

  /** `sessionId || crypto.randomUUID()`. */
  function ThreadId(sessionId: Option<string>, freshId: string): (id: string)
    ensures Truthy(sessionId) ==> id == sessionId.value
    ensures !Truthy(sessionId) ==> id == freshId
  {
    if Truthy(sessionId) then sessionId.value else freshId
  }

  /** The pages that keep a whole thread in one root row. */
  predicate Threaded(p: Page) {
    p != StageScreen
  }

  /** The query type StageScreen writes as the code stands: its section,
      `stage`, where every other page writes its query type. */
  function SavedQueryTypeAsWritten(p: Page): (qt: string)
    ensures p != StageScreen ==> qt == QueryType(p)
    ensures p == StageScreen ==> qt == Section(p)
  {
    if p == StageScreen then Section(p) else QueryType(p)
  }

  /** The query type every page writes in this model: the one its history
      section lists, as for the other three pages. */
  function SavedQueryType(p: Page): (qt: string)
    ensures p != StageScreen ==> qt == SavedQueryTypeAsWritten(p)
  {
    QueryType(p)
  }

  /** The exchange appended to a thread: the user's turn, then the reply,
      both stamped with the save's time. */
  function Pair(prompt: string, response: string, now: string): (ts: seq<Turn>)
    ensures |ts| == 2
    ensures ts[0].role == "user" && ts[0].content == prompt
    ensures ts[1].role == "assistant" && ts[1].content == response
  {
    [Turn("user", prompt, Some(now)), Turn("assistant", response, Some(now))]
  }

  /** `existing.conversation_history || [legacy pair]`: a root saved before
      threads existed is seeded from its `query_text` and `response_text`,
      stamped with `created_at` where the page selected it. */
  function Seed(e: Existing): (h: seq<Turn>)
    ensures e.history.Some? ==> h == e.history.value
    ensures e.history.None? ==> |h| == 2 && h[0].content == e.queryText && h[1].content == e.responseText
  {
    match e.history
    case Some(h) => h
    case None => [Turn("user", e.queryText, e.createdAt), Turn("assistant", e.responseText, e.createdAt)]
  }

  /** What the page's root-row read yields: Poetry selects `created_at`;
      OnlineContent and Songwriting do not, so their legacy seed carries no
      timestamp. */
  function AsRead(p: Page, e: Existing): (r: Existing)
    ensures r.history == e.history && r.queryText == e.queryText && r.responseText == e.responseText
    ensures r.createdAt == (if p == Poetry then e.createdAt else None)
  {
    if p == Poetry then e else e.(createdAt := None)
  }

  /** The page's `saveToHistory(promptMd, responseMd, subcategory, sessionId,
      isFollowUp)`. `existing` is the root-row read a follow-up makes and
      `writeOk` whether the insert or update succeeded. */
  function SaveToHistory(p: Page, user: Option<string>, prompt: string, response: string,
                         sessionId: Option<string>, isFollowUp: bool, freshId: string, now: string,
                         existing: Result<Existing, string>, writeOk: bool): (out: SaveOutcome)
    ensures user.None? ==> out == SaveOutcome(NoSave, false)
    ensures out.warning <==> p == Poetry && out.write == NoSave && user.Some?
    ensures out.write.AppendTurns? <==>
              (Threaded(p) && user.Some? && isFollowUp && Truthy(sessionId) && existing.Success? && writeOk)
    ensures out.write.AppendTurns? ==>
              out.write.conversationId == sessionId.value
              && out.write.history == Seed(AsRead(p, existing.value)) + Pair(prompt, response, now)
    ensures out.write.InsertRow? <==>
              (user.Some? && writeOk && !(Threaded(p) && isFollowUp && Truthy(sessionId)))
    ensures out.write.InsertRow? ==>
              out.write.row.userId == user.value
              && out.write.row.queryType == SavedQueryTypeAsWritten(p)
              && out.write.row.queryText == prompt && out.write.row.responseText == response
              && out.write.row.conversationId == ThreadId(sessionId, freshId)
    ensures out.write.InsertRow? && Threaded(p) ==>
              out.write.row.isThreadRoot == Some(true)
              && out.write.row.history == Some(Pair(prompt, response, now))
    ensures out.write.InsertRow? && !Threaded(p) ==>
              out.write.row.isThreadRoot.None? && out.write.row.history.None?
  {
    match user
    case None => SaveOutcome(NoSave, false)
    case Some(u) =>
      var write :=
        if Threaded(p) && isFollowUp && Truthy(sessionId) then
          match existing
          case Failure(_) => NoSave
          case Success(e) =>
            if writeOk then AppendTurns(sessionId.value, Seed(AsRead(p, e)) + Pair(prompt, response, now), now)
            else NoSave
        else if !writeOk then NoSave
        else if Threaded(p) then
          InsertRow(Row(u, SavedQueryTypeAsWritten(p), prompt, response, ThreadId(sessionId, freshId),
                        Some(true), Some(Pair(prompt, response, now))))
        else
          InsertRow(Row(u, SavedQueryTypeAsWritten(p), prompt, response, ThreadId(sessionId, freshId),
                        None, None));
      SaveOutcome(write, p == Poetry && write == NoSave)
  }

  /** The save with StageScreen's query type corrected: the same write as
      `SaveToHistory`, except that an inserted row carries the query type
      its section lists. Only StageScreen's rows change. */
  function CorrectedSave(p: Page, user: Option<string>, prompt: string, response: string,
                         sessionId: Option<string>, isFollowUp: bool, freshId: string, now: string,
                         existing: Result<Existing, string>, writeOk: bool): (out: SaveOutcome)
    ensures var w := SaveToHistory(p, user, prompt, response, sessionId, isFollowUp, freshId, now, existing, writeOk);
            && out.warning == w.warning
            && (out.write.InsertRow? <==> w.write.InsertRow?)
            && (!w.write.InsertRow? ==> out.write == w.write)
            && (w.write.InsertRow? ==> out.write.row == w.write.row.(queryType := SavedQueryType(p)))
            && (p != StageScreen ==> out == w)
  {
    var w := SaveToHistory(p, user, prompt, response, sessionId, isFollowUp, freshId, now, existing, writeOk);
    match w.write
    case InsertRow(row) => w.(write := InsertRow(row.(queryType := SavedQueryType(p))))
    case _ => w
  }

  /** The user/assistant alternation every thread keeps: user turns at even
      positions, replies at odd ones, and complete exchanges only. */
  predicate Alternating(h: seq<Turn>) {
    |h| % 2 == 0
    && forall i :: 0 <= i < |h| ==> h[i].role == (if i % 2 == 0 then "user" else "assistant")
  }

  // ---------------------------------------------------------------------------
  // Transcript
  // ---------------------------------------------------------------------------

  /** The block `handleDownload` writes for the turn at `index`. */
  function TurnBlock(t: Turn, index: nat): string {
    if t.role == "user" then "**User Query " + IntToString(index / 2 + 1) + ":**\n" + t.content + "\n\n"
    else "**Assistant Response:**\n" + t.content + "\n\n---\n\n"
  }

  /** The blocks of all turns, in order, each numbered by its position. */
  function Transcript(h: seq<Turn>): string
    decreases |h|
  {
    if h == [] then "" else Transcript(h[..|h| - 1]) + TurnBlock(h[|h| - 1], |h| - 1)
  }

  /** A page's `handleDownload`: nothing for an empty conversation. */
  function PageDownload(conversation: seq<Turn>): (r: Option<string>)
    ensures r.None? <==> conversation == []
  {
    if conversation == [] then None else Some(Transcript(conversation))
  }

  // ---------------------------------------------------------------------------
  // Properties
  // ---------------------------------------------------------------------------

  /** A follow-up save adds exactly one exchange at the end of the stored
      thread: earlier turns are kept as they were, in order. */
  lemma FollowUpAppendsOneExchange(p: Page, u: string, prompt: string, response: string,
                                   sid: string, freshId: string, now: string, e: Existing)
    requires Threaded(p) && sid != ""
    ensures var out := SaveToHistory(p, Some(u), prompt, response, Some(sid), true, freshId, now, Success(e), true);
            && out.write.AppendTurns?
            && |out.write.history| == |Seed(AsRead(p, e))| + 2
            && out.write.history[..|Seed(AsRead(p, e))|] == Seed(AsRead(p, e))
            && out.write.history[|out.write.history| - 2].content == prompt
            && out.write.history[|out.write.history| - 1].content == response
  {
    var out := SaveToHistory(p, Some(u), prompt, response, Some(sid), true, freshId, now, Success(e), true);
    var s := Seed(AsRead(p, e));
    assert out.write.history == s + Pair(prompt, response, now);
    assert (s + Pair(prompt, response, now))[..|s|] == s;
  }

  /** Every save keeps a thread alternating: a new root holds one exchange,
      and a follow-up appends one to a seed or a thread that alternated. */
  lemma SavesKeepThreadsAlternating(p: Page, user: Option<string>, prompt: string, response: string,
                                    sessionId: Option<string>, isFollowUp: bool, freshId: string,
                                    now: string, existing: Result<Existing, string>, writeOk: bool)
    requires existing.Success? && existing.value.history.Some? ==> Alternating(existing.value.history.value)
    ensures var out := SaveToHistory(p, user, prompt, response, sessionId, isFollowUp, freshId, now, existing, writeOk);
            && (out.write.AppendTurns? ==> Alternating(out.write.history))
            && (out.write.InsertRow? && out.write.row.history.Some? ==> Alternating(out.write.row.history.value))
  {
    var out := SaveToHistory(p, user, prompt, response, sessionId, isFollowUp, freshId, now, existing, writeOk);
    if out.write.AppendTurns? {
      var s := Seed(AsRead(p, existing.value));
      var h := s + Pair(prompt, response, now);
      assert Alternating(s);
      forall i | 0 <= i < |h|
        ensures h[i].role == (if i % 2 == 0 then "user" else "assistant")
      {
        if i < |s| {
          assert h[i] == s[i];
        } else {
          assert h[i] == Pair(prompt, response, now)[i - |s|];
        }
      }
    }
  }

  /** The download of a conversation one exchange longer is the earlier
      download followed by the new exchange's two blocks. */
  lemma TranscriptAppend(h: seq<Turn>, user: Turn, reply: Turn)
    ensures Transcript(h + [user, reply])
            == Transcript(h) + TurnBlock(user, |h|) + TurnBlock(reply, |h| + 1)
  {
    var h2 := h + [user, reply];
    assert h2[..|h2| - 1] == h + [user];
    assert (h + [user])[..|h|] == h;
  }

  /** In an alternating thread the user turn of exchange `k` (from 0) is
      headed "User Query k+1", and every reply is followed by a separator. */
  lemma {:induction false} TranscriptOfExchanges(h: seq<Turn>, k: nat)
    requires Alternating(h) && 2 * k + 1 < |h|
    ensures TurnBlock(h[2 * k], 2 * k) == "**User Query " + IntToString(k + 1) + ":**\n" + h[2 * k].content + "\n\n"
    ensures TurnBlock(h[2 * k + 1], 2 * k + 1) == "**Assistant Response:**\n" + h[2 * k + 1].content + "\n\n---\n\n"
  {
    assert h[2 * k].role == "user";
    assert h[2 * k + 1].role == "assistant";
    assert (2 * k) / 2 + 1 == k + 1;
  }
}

=== FILE: track_usage.dfy ===
/** The `track-demo-usage` edge function: it answers preflight requests,
    accepts only POST, requires the session, page and event fields, keeps
    at most 100 characters of the prompt excerpt, and stores one row. The
    body's JSON parse and the database insert are parameters. */
module TrackUsage {
  import opened Wrappers
  import DemoTracking

  datatype Method = Options | Post | OtherMethod(name: string)

  /** The parsed request body; a field that is absent is `None`. */
  datatype Body = Body(
    sessionId: Option<string>,
    page: Option<string>,
    eventType: Option<string>,
    promptExcerpt: Option<string>,
    metadata: Option<map<string, string>>)

  /** The row inserted into `demo_usage_unauthed`. */
  datatype Record = Record(
    sessionId: string,
    page: string,
    eventType: string,
    promptExcerpt: Option<string>,
    metadata: map<string, string>)

  datatype Payload = NoBody | ErrorBody(message: string) | Created(id: string)

  datatype Response = Response(status: int, payload: Payload)

  const MaxExcerpt := 100
  const MissingFields := "Missing required fields: session_id, page, event_type"
  const TrackFailed := "Failed to track usage"
  const InternalError := "Internal server error"

  /** A truthy text field: present and non-empty. */
  predicate Given(s: Option<string>) {
    s.Some? && s.value != ""
  }

  /** `prompt_excerpt ? prompt_excerpt.substring(0, 100) : null`. */
  function Excerpt(p: Option<string>): (r: Option<string>)
    ensures r.Some? <==> Given(p)
    ensures r.Some? ==> |r.value| <= MaxExcerpt && |r.value| <= |p.value| && r.value == p.value[..|r.value|]
    ensures r.Some? && |p.value| <= MaxExcerpt ==> r.value == p.value
    ensures r.Some? && |p.value| > MaxExcerpt ==> |r.value| == MaxExcerpt
  {
    if Given(p) then Some(if |p.value| <= MaxExcerpt then p.value else p.value[..MaxExcerpt]) else None
  }

  /** The function's handler: the row it inserts (if it gets that far) and
      its response. `body` fails when the JSON does not parse; `insert`
      is the new row's id or the database error. */
  function Handle(verb: Method, body: Result<Body, string>, insert: Result<string, string>)
    : (out: (Option<Record>, Response))
    ensures verb == Options ==> out == (None, Response(200, NoBody))
    ensures verb.OtherMethod? ==> out == (None, Response(405, ErrorBody("Method not allowed")))
    ensures verb == Post && body.Success? &&
            !(Given(body.value.sessionId) && Given(body.value.page) && Given(body.value.eventType))
            ==> out == (None, Response(400, ErrorBody(MissingFields)))
    ensures out.0.Some? <==>
              verb == Post && body.Success?
              && Given(body.value.sessionId) && Given(body.value.page) && Given(body.value.eventType)
    ensures out.0.Some? ==>
              && out.0.value.sessionId == body.value.sessionId.value
              && out.0.value.page == body.value.page.value
              && out.0.value.eventType == body.value.eventType.value
              && out.0.value.promptExcerpt == Excerpt(body.value.promptExcerpt)
              && out.0.value.metadata == body.value.metadata.GetOr(map[])
    ensures out.1.status == 200 <==> verb == Options || (out.0.Some? && insert.Success?)
    ensures out.0.Some? && insert.Failure? ==> out.1 == Response(500, ErrorBody(TrackFailed))
  {
    match verb
    case Options => (None, Response(200, NoBody))
    case OtherMethod(_) => (None, Response(405, ErrorBody("Method not allowed")))
    case Post =>
      match body
      case Failure(m) => (None, Response(500, ErrorBody(if m != "" then m else InternalError)))
      case Success(b) =>
        if !(Given(b.sessionId) && Given(b.page) && Given(b.eventType)) then
          (None, Response(400, ErrorBody(MissingFields)))
        else
          var record := Record(b.sessionId.value, b.page.value, b.eventType.value,
                               Excerpt(b.promptExcerpt), b.metadata.GetOr(map[]));
          match insert
          case Failure(_) => (Some(record), Response(500, ErrorBody(TrackFailed)))
          case Success(id) => (Some(record), Response(200, Created(id)))
  }

  /** The body the browser sends, as the function parses it. */
  function Received(b: DemoTracking.Body): (r: Body)
    ensures r.sessionId == Some(b.sessionId) && r.page == Some(b.page) && r.eventType == Some(b.eventType)
  {
    Body(Some(b.sessionId), Some(b.page), Some(b.eventType), b.promptExcerpt, Some(b.metadata))
  }

  // ---------------------------------------------------------------------------
  // Properties
  // ---------------------------------------------------------------------------

  /** Cutting an excerpt again changes nothing. */
  lemma ExcerptIdempotent(p: Option<string>)
    ensures Excerpt(Excerpt(p)) == Excerpt(p)
  {
  }

  /** Every event an anonymous demo browser sends is stored: the client
      always names its session, and the demo pages name their page and
      event. The stored excerpt is the first 100 characters of the one
      sent, and the metadata is kept. */
  lemma ClientEventsAreStored(store: DemoTracking.Storage, page: string, eventType: string,
                              excerpt: Option<string>, uuid: string, meta: map<string, string>, id: string)
    requires !DemoTracking.IsUserAuthenticated(store) && page != "" && eventType != ""
    ensures var sent := DemoTracking.Track(store, page, eventType, excerpt, uuid, meta).0;
            var out := Handle(Post, Success(Received(sent.value)), Success(id));
            && out.1 == Response(200, Created(id))
            && out.0 == Some(Record(DemoTracking.GetSessionId(store, uuid).0, page, eventType, Excerpt(excerpt), meta))
  {
    DemoTracking.SessionIdNonEmpty(store, uuid);
  }
}

=== FILE: trial_banner.dfy ===
/** `TrialStatusHeader`: the strip above the application that counts down an
    active trial or announces an ended one. */
module TrialBanner {
  import opened Wrappers
  import opened Text
  import opened Subscription

  datatype Banner = NoBanner | Countdown(days: int) | Ended

  /** The header's branches, in order: loading, subscribed, active trial,
      expired trial, otherwise nothing. */
  function Header(s: State): (b: Banner)
    ensures b.Countdown? <==> !s.loading && IsTrialActive(s)
    ensures b.Countdown? ==> b.days == s.daysRemaining && b.days > 0
    ensures b == Ended <==> !s.loading && IsTrialExpired(s)
    ensures s.loading || s.isSubscribed ==> b == NoBanner
  {
    if s.loading then NoBanner
    else if s.isSubscribed then NoBanner
    else if IsTrialActive(s) then Countdown(s.daysRemaining)
    else if IsTrialExpired(s) then Ended
    else NoBanner
  }

  /** `days_remaining === 1 ? 'day' : 'days'`. */
  function DayWord(days: int): string {
    if days == 1 then "day" else "days"
  }

  /** The banner's text. */
  function BannerText(b: Banner): (t: string)
    ensures t == "" <==> b.NoBanner?
  {
    match b
    case NoBanner => ""
    case Countdown(d) => "10-Day Trial: " + IntToString(d) + " " + DayWord(d) + " remaining"
    case Ended => "Your trial has ended"
  }

  // ---------------------------------------------------------------------------
  // Properties
  // ---------------------------------------------------------------------------

  /** A loaded, unsubscribed user with a trial date always sees exactly one of
      the two banners, and the countdown is the days left from the loaded
      row. */
  lemma LoadedTrialShowsOneBanner(userId: string, end: int, cust: Option<string>,
                                  subId: Option<string>, now: int, prev: State)
    ensures var s := Fetch(Some(userId), RowFound(false, Some(end), cust, subId), now, prev);
            && (now < end ==> Header(s) == Countdown(DaysRemaining(Some(end), now)))
            && (end <= now ==> Header(s) == Ended)
  {
    LoadedTrialIsActiveOrExpired(userId, false, end, cust, subId, now, prev);
  }

  /** Exactly one day left reads "1 day"; any other count takes the plural. */
  lemma CountdownWording(d: int)
    requires d > 0
    ensures d == 1 ==> BannerText(Countdown(d)) == "10-Day Trial: 1 day remaining"
    ensures d != 1 ==> BannerText(Countdown(d)) == "10-Day Trial: " + IntToString(d) + " days remaining"
  {
    if d == 1 {
      assert IntToString(1) == "1";
    }
  }
}

=== FILE: wizard.dfy ===
/** `OnboardingWizard`: a four-step dialog with Back, Next (which completes
    on the last step), Skip, and category cards that complete the tour and
    open a writing page. */
module Wizard {

  const TotalSteps := 4

  /** `useState(1)`: the dialog opens on the first step. */
  const InitialStep := 1

  /** The category cards of step two, in display order: title and route. */
  const CategoryCards: seq<(string, string)> := [
    ("Fictional Prose", "/prose"),
    ("Poetry", "/poetry"),
    ("Stage & Screen", "/stage-screen"),
    ("Nonfiction Writing", "/nonfiction"),
    ("Online Content", "/online-content"),
    ("Songwriting", "/songwriting")]

  datatype Event = Next | Back | Skip | CategoryClick(path: string)

  /** What the dialog reports to its owner: `onComplete()`, `onSkip()`, or a
      navigation. */
  datatype Effect = Completed | Skipped | Navigate(path: string)

  /** The wizard's only state: `currentStep`, from 1. */
  predicate ValidStep(step: int) {
    1 <= step <= TotalSteps
  }

  /** One event: the step afterwards and the effects, in order. */
  function Step(step: int, e: Event): (out: (int, seq<Effect>))
    ensures ValidStep(step) ==> ValidStep(out.0)
    ensures e == Next && step < TotalSteps ==> out == (step + 1, [])
    ensures e == Next && step >= TotalSteps ==> out == (step, [Completed])
    ensures e == Back ==> out.1 == [] && out.0 == (if step > 1 then step - 1 else step)
    ensures e.CategoryClick? ==> out == (step, [Completed, Navigate(e.path)])
    ensures e == Skip ==> out == (step, [Skipped])
  {
    match e
    case Next => if step < TotalSteps then (step + 1, []) else (step, [Completed])
    case Back => if step > 1 then (step - 1, []) else (step, [])
    case Skip => (step, [Skipped])
    case CategoryClick(p) => (step, [Completed, Navigate(p)])
  }

  /** The step and all effects after a sequence of events. */
  function Run(step: int, events: seq<Event>): (int, seq<Effect>)
    decreases |events|
  {
    if events == [] then (step, [])
    else
      var first := Step(step, events[0]);
      var rest := Run(first.0, events[1..]);
      (rest.0, first.1 + rest.1)
  }

  /** The progress bar: segment `i` is lit iff `i + 1 <= currentStep`. */
  function Progress(step: int): (bar: seq<bool>)
    ensures |bar| == TotalSteps
    ensures forall i :: 0 <= i < TotalSteps ==> (bar[i] <==> i < step)
  {
    seq(TotalSteps, i => i + 1 <= step)
  }

  /** The forward button's caption. */
  function NextCaption(step: int): string {
    if step == TotalSteps then "Start Writing" else "Next"
  }

  predicate BackDisabled(step: int) {
    step == 1
  }

  function CountLit(bar: seq<bool>): nat {
    if bar == [] then 0 else (if bar[0] then 1 else 0) + CountLit(bar[1..])
  }

  // ---------------------------------------------------------------------------
  // Properties
  // ---------------------------------------------------------------------------

  /** The step stays between 1 and 4 whatever the user clicks. */
  lemma {:induction false} RunKeepsStepValid(step: int, events: seq<Event>)
    requires ValidStep(step)
    ensures ValidStep(Run(step, events).0)
    decreases |events|
  {
    if events != [] {
      RunKeepsStepValid(Step(step, events[0]).0, events[1..]);
    }
  }

  /** From the step the dialog opens on, any sequence of events keeps the
      step in 1..4. */
  lemma OpenedWizardStaysValid(events: seq<Event>)
    ensures ValidStep(Run(InitialStep, events).0)
  {
    RunKeepsStepValid(InitialStep, events);
  }

  /** `Next` pressed `n` times reaches step `min(step + n, 4)` and
      completes once for every press made on the last step. */
  lemma {:induction false} NextPresses(step: int, n: nat)
    requires ValidStep(step)
    ensures Run(step, seq(n, _ => Next)).0 == (if step + n < TotalSteps then step + n else TotalSteps)
    ensures Run(step, seq(n, _ => Next)).1
            == seq(if step + n > TotalSteps then step + n - TotalSteps else 0, _ => Completed)
    decreases n
  {
    var events := seq(n, _ => Next);
    if n > 0 {
      assert events[0] == Next;
      assert events[1..] == seq(n - 1, _ => Next);
      var first := Step(step, Next);
      NextPresses(first.0, n - 1);
      var k := if step + n > TotalSteps then step + n - TotalSteps else 0;
      if step < TotalSteps {
        assert first.1 == [];
        assert [] + Run(first.0, events[1..]).1 == Run(first.0, events[1..]).1;
      } else {
        assert first.1 == [Completed];
        assert [Completed] + seq(k - 1, _ => Completed) == seq(k, _ => Completed);
      }
    }
  }

  /** The forward button reads "Start Writing" exactly on the step where
      pressing it completes the tour, and "Next" wherever it advances; Back
      is disabled exactly where pressing it changes nothing. */
  lemma CaptionsMatchButtons(step: int)
    requires ValidStep(step)
    ensures NextCaption(step) == "Start Writing" <==> Step(step, Next).1 == [Completed]
    ensures NextCaption(step) == "Next" <==> Step(step, Next) == (step + 1, [])
    ensures BackDisabled(step) <==> Step(step, Back) == (step, [])
  {
  }

  /** Clicking a category card completes the tour and then opens that
      card's page, leaving the step where it was; no two cards share a
      route, so the page opened names the card clicked. */
  lemma CardClickOpensItsPage(step: int, i: int)
    requires 0 <= i < |CategoryCards|
    ensures var route := CategoryCards[i].1;
            Run(step, [CategoryClick(route)]) == (step, [Completed, Navigate(route)])
    ensures forall j :: 0 <= j < |CategoryCards| && CategoryCards[j].1 == CategoryCards[i].1 ==> j == i
  {
    var route := CategoryCards[i].1;
    var events := [CategoryClick(route)];
    var effects: seq<Effect> := [Completed, Navigate(route)];
    assert events[1..] == [];
    assert effects + [] == effects;
  }

  /** Back undoes Next everywhere but on the last step. */
  lemma BackUndoesNext(step: int)
    requires 1 <= step < TotalSteps
    ensures Run(step, [Next, Back]) == (step, [])
  {
    var events: seq<Event> := [Next, Back];
    assert events[0] == Next && events[1..] == [Back];
    var empty: seq<Effect> := [];
    assert [Back][1..] == [] && empty + empty == empty;
    assert Run(step + 1, [Back]) == (step, empty);
    assert Run(step, events) == (step, empty);
  }

  /** The bar lights exactly as many segments as the current step. */
  lemma ProgressCountsStep(step: int)
    requires ValidStep(step)
    ensures CountLit(Progress(step)) == step
  {
    var bar := Progress(step);
    assert CountLit(bar[3..]) == (if 3 < step then 1 else 0) by {
      assert bar[3..][1..] == [];
    }
    assert CountLit(bar[2..]) == (if 2 < step then 1 else 0) + CountLit(bar[3..]) by {
      assert bar[2..][1..] == bar[3..];
    }
    assert CountLit(bar[1..]) == (if 1 < step then 1 else 0) + CountLit(bar[2..]) by {
      assert bar[1..][1..] == bar[2..];
    }
  }
}

=== FILE: wrappers.dfy ===
/** Failure-compatible carriers shared by every module of the model: an absent
    JavaScript value (`null` / `undefined`) is `None`, a thrown error is `Failure`. */
module Wrappers {

  datatype Option<+T> = None | Some(value: T) {

    /** The value, or `default` when absent (the source's `x ?? d`). */
    function GetOr(default: T): T {
      match this
      case Some(v) => v
      case None => default
    }
  }

  datatype Result<+R, +E> = Success(value: R) | Failure(error: E) {

    predicate IsFailure() {
      Failure?
    }

    function PropagateFailure<U>(): Result<U, E>
      requires Failure?
    {
      Failure(error)
    }

    function Extract(): R
      requires Success?
    {
      value
    }
  }
}
